=== FILE: README.md ===
# Course-site CRUD handlers, modelled in Dafny

The ITCS333 course site has five PHP REST endpoints and two browser scripts:

* `resources`: course resources and their comments;
* `assignments`: assignments and their comments;
* `discussion`: topics and their replies;
* `weekly`: weekly breakdown entries and their comments;
* `admin`: students, and the user accounts behind them;
* `manage_users.js`: the admin page's student table;
* `weekly/admin.js`: the in-page week editor.

Each endpoint pairs a *parent* table with a dependent *child* table and handles one request at a time. This project models each handler as a pure function
`(store, context, request) -> (status, envelope, new store)` and proves what each handler promises:

* which status it answers, and exactly when, including the 500 a failing statement causes;
* what the store holds afterwards;
* that referential integrity is preserved (every child names an existing parent);
* that a refused request leaves the store unchanged.

The model is organised as follows:

* **The store.** It is two finite maps, parents and children, keyed by their row ids (`Tables`). A child's parent is found through an owner function.
* **The context.** `Http.Ctx` carries what the handlers get from outside:
  * the foreign routines, as a `Php.Foreign` record: URL and email validation, `strip_tags`, `htmlspecialchars`, password hashing and verification;
  * the clock;
  * the next auto-increment id;
  * whether `LIKE` compares case-insensitively;
  * `failAt`, which says which SQL statement fails (if any). This makes every 500 path reachable.
* **A request.** It is a verb, a query-string map, a JSON body and an `authenticated` flag.
* **Listing.** A list request is modelled as its *plan*: the search term, sort column and direction the handler builds from the query string. The model also gives the rows the `WHERE` clause keeps.
* **PHP and JavaScript value semantics.** These are written out in `Php` and `Strings`:
  * `empty()` is true of `""` and `"0"`;
  * `trim` and JavaScript `trim()` use different whitespace sets;
  * `(int)` becomes `IntCast`, which also reads ids that are bound as strings against integer columns;
  * `is_numeric` becomes `IsNumeric`;
  * `==` and `===` on ids are modelled as in the source.
* **The browser scripts.** They are functions on the in-memory arrays the scripts keep.

Where the code is broken or incomplete, the model follows what it evidently intends. The cases are:

* `assignments` mixes the names `$pdo`/`$db` and `$inputData`/`$data`.
* `createAssignment` is never closed and never answers on success; it is modelled as 201 or 500.
* `deleteAssignment` executes an undefined `$stmt` where `deleteAssignmentStmt` is meant.
* The assignments router has duplicated `POST` branches and never echoes its `$response`.
* The discussion router calls its handlers by other names (`getSingle`, `getAll`, `create`, …), none of which is defined, and treats the decoded body as an object. The model calls the topic handlers for `topics`. Every `GET` on `replies`, with or without an `id`, lists the replies of the topic named by `topic_id` (`getRepliesByTopicId`), because the endpoint has no routine that reads a single reply.
* `getAllAssignments` returns the raw rows at `src/assignments/api/index.php:160`, so the decoding of each row's `files` column that follows it (lines 163-180) is never reached. The model lists assignments with `files` decoded, as those lines intend and as `getAssignmentById` does.
* The discussion router sends `PUT` on `replies` to an update routine, but no reply update exists. The model answers it 405.

Some behaviour of the code is easy to misread, and the model follows the code as written:

* Only `resources` wraps its cascade delete in a transaction. The other three endpoints delete children and then the parent in two separate statements, which can tear (`Tables.SequentialDeleteCanTear`).
* `assignments` answers a created comment with the default status 200.
* The weekly router lists a week's comments by the `id` query parameter (`src/weekly/api/index.php:594`), although the handler's documentation names `week_id`.
* The `students.email` column is declared `UNIQUE` (`src/admin/api/index.php:21`). An update that would give a student another student's email therefore raises a database error, which the router's `catch` answers 500 with nothing changed.
* Each endpoint validates and answers slightly differently, and the model keeps those differences.

## Model

| member | source | states |
|---|---|---|
| Strings.TrimByIdempotent | src/weekly/admin.js:98 | trimming an already trimmed string changes nothing, so every parsed link is in trimmed form |
| Strings.Split | src/weekly/admin.js:98 | splitting on a separator gives one piece more than there are separators, and no piece contains the separator |
| Strings.JoinSplit | src/weekly/admin.js:98 | splitting a text on newlines loses nothing: joining the pieces with newlines gives the text back |
| Strings.SplitJoin | src/weekly/admin.js:98 | joining newline-free pieces with newlines and splitting again returns exactly those pieces |
| Php.BlankOrZeroCases | src/resources/api/index.php:233-236 | `empty(trim(x))` holds exactly when the trimmed value is empty or the single character "0" |
| Php.IntCastDecimal | src/assignments/api/index.php:340 | casting the decimal spelling of any integer, negative ones included, with `(int)` gives that integer back |
| Php.DecimalIsNumeric | src/resources/api/index.php:186 | the decimal spelling of any integer passes `is_numeric`, so ids the store hands out are accepted back |
| Seqs.Filter | src/admin/manage_users.js:211-214 | a filter keeps exactly the elements that satisfy its predicate and never grows the array |
| Seqs.FilterAppend | src/resources/api/index.php:861-879 | filtering a concatenation is the concatenation of the filtered parts |
| Seqs.FilterPartition | src/weekly/admin.js:122-126 | what a filter keeps and what it drops together are the input as a multiset: nothing lost, nothing duplicated |
| Seqs.FilterIdempotent | src/weekly/admin.js:122-126 | filtering twice by the same predicate is filtering once |
| Seqs.FilterIsSubsequence | src/admin/manage_users.js:230-239 | a filter keeps the relative order of what it keeps |
| Sorting.InsertionSort | src/admin/manage_users.js:271-284 | sorting returns a permutation of its input of the same length, ordered whenever the comparison is total and transitive among the elements being sorted |
| Dates.ValidDateIsFormatted | src/assignments/api/index.php:921-929 | an accepted date string is exactly the zero-padded `Y-m-d` rendering of the year, month and day it holds, so `DateTime::format` gives it back unchanged |
| Dates.FormattedDateIsValid | src/assignments/api/index.php:921-929 | the `Y-m-d` rendering of every real calendar date is accepted and reads back as that year, month and day (with the previous row, accepted strings and real dates correspond one to one) |
| Dates.February30Refused | src/assignments/api/index.php:921-929 | `2024-02-30` is refused because the date does not exist, although it has the right shape |
| Dates.LeapDay | src/assignments/api/index.php:921-929 | February 29 is a real date exactly in leap years |
| Tables.ChildrenOf | src/resources/api/index.php:496-532 | the children listed for a parent are exactly the child rows that name it |
| Tables.DropChildren | src/weekly/api/index.php:375-394 | deleting by parent id removes exactly the children of that parent and keeps every other row |
| Tables.Cascade | src/resources/api/index.php:425-477 | a cascade delete removes the parent and exactly its children and nothing else |
| Tables.TransactionalDelete | src/resources/api/index.php:437-470 | inside a transaction the delete succeeds exactly when no statement fails, and then yields the cascade; any failure rolls the store back to what it was |
| Tables.SequentialDelete | src/weekly/api/index.php:375-394 | without a transaction the delete succeeds exactly when neither statement fails; a failure on the children statement changes nothing, while a failure on the parent statement keeps the parents but leaves the children already deleted |
| Tables.TransactionalDeleteIsAtomic | src/resources/api/index.php:437-470 | the transactional delete is all or nothing: the store is either unchanged or is the full cascade |
| Tables.SequentialDeleteCanTear | src/weekly/api/index.php:375-394 | there is a store and a failing statement for which the untransacted delete leaves a parent without its children |
| Tables.CascadeKeepsIntegrity | src/resources/api/index.php:425-477 | after a cascade every remaining child still names an existing parent |
| Tables.DeletesKeepIntegrity | src/discussion/api/index.php:412-440 | both kinds of delete, whatever statement fails, keep every child pointing at an existing parent |
| Tables.AddChildKeepsIntegrity | src/resources/api/index.php:553-593 | adding a child under an existing parent keeps integrity |
| Tables.PutParentKeepsIntegrity | src/resources/api/index.php:229-282 | inserting or replacing a parent keeps integrity |
| Tables.DropChildKeepsIntegrity | src/resources/api/index.php:622-671 | removing one child keeps integrity |
| Listing.Pick | src/resources/api/index.php:133-145 | a sort value is used only if it is on the whitelist, otherwise the default |
| Listing.LooseOnListIsStrict | src/weekly/api/index.php:714-719 | on a whitelist holding no numeric string, the loose `in_array` (where two numeric strings compare as numbers) accepts exactly the values identical to an entry |
| Listing.Select | src/resources/api/index.php:116-169 | the rows a search keeps are exactly the stored rows having some searched field that matches `LIKE '%term%'`, with `%`, `_` and `\` inside the term read as pattern characters, compared with or without case as the collation says |
| Listing.LikeAgreesWithContains | src/resources/api/index.php:125-157 | for a term without `%`, `_` or `\`, `LIKE '%term%'` holds exactly when the term occurs in the value |
| Listing.UnderscoreMatchesAny | src/resources/api/index.php:125-157 | the term `_` matches every non-empty value, so such a search lists every row with a non-empty searched field |
| Listing.BackslashValueMissed | src/resources/api/index.php:125-157 | a value consisting of one backslash is not found by searching for itself, because the backslash escapes the closing `%` |
| Listing.EmptyTermKeepsAll | src/resources/api/index.php:125-128 | with no search term, or an empty one, every stored row with a searched field is listed |
| Listing.RowFoundByOwnField | src/resources/api/index.php:125-157 | searching for the whole of one of a row's searched fields finds that row, provided the field holds no backslash |
| Resources.ListPlan | src/resources/api/index.php:125-157 | the search term is present exactly when `search` is non-empty, and is then trimmed; the sort column is the requested one if whitelisted, else `created_at`; the direction is the lower-cased request if it is `asc`/`desc`, else `desc` |
| Resources.ListResources | src/resources/api/index.php:116-169 | listing answers 200, changes nothing, and returns exactly the rows the plan's search selects |
| Resources.GetResource | src/resources/api/index.php:183-212 | 400 exactly when the id is missing, empty or not numeric; 200 with that row exactly when it exists; 404 otherwise |
| Resources.CreateThenGet | src/resources/api/index.php:183-282 | a created resource is fetched back by its printed id with the sanitised fields it was stored with, exactly when that id is not 0 (which `!$id` refuses) |
| Resources.CreateResource | src/resources/api/index.php:229-282 | 400 exactly when title or link is blank or the link is not a URL; 500 exactly when the insert fails; otherwise 201 and the new row holds the sanitised fields under the fresh id |
| Resources.UpdateResource | src/resources/api/index.php:299-399 | 400 exactly when the id is missing or not numeric, or names a row while no field is given or a given link is not a URL; 404 exactly when the id names no row; 500 exactly when the update statement fails or would change nothing, with the store unchanged; 200 exactly when some field is given, a given link is a URL and the update changes the row; the updated row takes each given field and keeps the rest |
| Resources.RepeatedUpdateFails | src/resources/api/index.php:387-393 | repeating a successful update changes no row, so MySQL's changed-row count makes it fail |
| Resources.DeleteResource | src/resources/api/index.php:415-478 | 400 for a bad id, 404 for an absent one, 500 exactly when a statement fails (store unchanged); on 200 the store is the cascade |
| Resources.DeleteLeavesNoComments | src/resources/api/index.php:415-478 | after a successful delete, no comment of the deleted resource is left |
| Resources.ListComments | src/resources/api/index.php:496-532 | 400 exactly for a bad id; otherwise the comments returned are exactly those of that resource, and none for an absent resource when the store is consistent |
| Resources.CreateComment | src/resources/api/index.php:549-608 | 400 exactly when a field is blank or "0" after trimming, or the resource id is not numeric; 404 exactly when the resource is absent; 500 exactly when the request is accepted and the insert fails, with nothing changed; otherwise 201 and the comment is stored under the fresh id pointing at that resource |
| Resources.DeleteComment | src/resources/api/index.php:622-671 | 400 for a bad id, 404 for an absent comment, 500 exactly when the comment exists and the delete fails (nothing changed); otherwise 200 and exactly that comment is gone |
| Resources.ValidateRequiredFields | src/resources/api/index.php:861-879 | the missing fields are exactly the required ones whose value is blank, in the order given, and the request is valid exactly when none is |
| Resources.NoneMissing | src/resources/api/index.php:874-877 | the missing list is empty exactly when every required field is present and non-blank |
| Resources.Route | src/resources/api/index.php:678-787 | 405 exactly for an unknown verb; reads never write; an error answer never writes; a create adds at most the fresh id; every request keeps integrity |
| Resources.Write | src/resources/api/index.php:709-756 | a writing verb is never answered 405; a refused write changes nothing; a create adds at most the fresh id; every write keeps integrity |
| Assignments.FilesRoundTrip | src/assignments/api/index.php:170-176 | the `files` column decodes to the array that was stored, and to the empty array when none was given |
| Assignments.MissingFilesReadEmpty | src/assignments/api/index.php:170-176 | a row whose `files` column is null reads as having no files |
| Assignments.Shown | src/assignments/api/index.php:170-176 | a listed assignment shows its stored fields with `files` decoded |
| Assignments.ListPlan | src/assignments/api/index.php:131-148 | the term is the raw `search` when non-empty; the column is the whitelisted `sort` or `created_at`; the direction is `DESC` exactly when `order` lower-cases to `desc`, else `ASC` |
| Assignments.WhitelistsAreStrict | src/assignments/api/index.php:140-146 | the loose `in_array` on the sort and order whitelists accepts exactly the identical entries |
| Assignments.ListAssignments | src/assignments/api/index.php:124-180 | listing answers 200, changes nothing, and returns exactly the rows the plan's search selects |
| Assignments.GetAssignment | src/assignments/api/index.php:193-238 | 400 exactly for an empty id; 200 with the row and decoded files exactly when it exists; 404 otherwise |
| Assignments.CreateThenGet | src/assignments/api/index.php:193-313 | a created assignment is fetched back by its printed id, showing the escaped title, the trimmed due date and the submitted files, exactly when that id is not 0 |
| Assignments.CreateAssignment | src/assignments/api/index.php:254-313 | 400 exactly when title, description or due date is blank or the due date is not a real `Y-m-d` date; 500 exactly when the request is accepted and the insert fails, with the store unchanged; otherwise 201 with a row holding the trimmed fields and the encoded files |
| Assignments.UpdateAssignment | src/assignments/api/index.php:330-429 | 404 exactly when the id names no row; 400 exactly when the id is missing, a given due date is invalid or nothing is given; 500 exactly when the request is accepted and the update fails; otherwise 200, the row takes each given field, and an update that changes nothing answers `success: false` with the store unchanged |
| Assignments.UpdateKeepsDueDatesValid | src/assignments/api/index.php:373-384 | if every stored due date is valid, it still is after any update |
| Assignments.DeleteAssignment | src/assignments/api/index.php:442-490 | 400 exactly for a non-positive id, 404 for an absent one, 500 exactly when one of the two statements fails; otherwise 200 and the store is the cascade; on failure the parents are unchanged although the comments may be gone |
| Assignments.ListComments | src/assignments/api/index.php:507-536 | 400 exactly for an empty id; otherwise exactly that assignment's comments |
| Assignments.CreateComment | src/assignments/api/index.php:551-615 | 400 exactly when a field is blank; 404 exactly when the assignment is absent; 500 exactly when the request is accepted and the insert fails; otherwise 200 and the comment is stored under the fresh id |
| Assignments.DeleteComment | src/assignments/api/index.php:628-677 | an empty or unknown id answers 200 with `success: false`; 500 exactly when the id names a comment and the delete statement fails (the router's `catch`); otherwise a success, and exactly that comment is gone |
| Assignments.Route | src/assignments/api/index.php:684-857 | OPTIONS answers 204; 405 exactly for an unknown verb; a missing resource is 400; reads never write; every request keeps integrity |
| Assignments.Write | src/assignments/api/index.php:735-857 | a known writing verb is never answered 405 or 204 and keeps integrity |
| Discussion.ListPlan | src/discussion/api/index.php:130-150 | the term is `search` when non-empty; the column is the whitelisted `sort` or `created_at`; the direction is the lower-cased `order` if `asc`/`desc`, else `desc` |
| Discussion.ListTopics | src/discussion/api/index.php:117-173 | listing answers 200, changes nothing, and returns exactly the topics the search selects |
| Discussion.GetTopic | src/discussion/api/index.php:183-225 | 400 exactly for an empty id; 200 with the topic exactly when it exists; 404 otherwise |
| Discussion.CreateThenGet | src/discussion/api/index.php:183-300 | a created topic is fetched back by the id the reply reports, with its sanitised fields, exactly when that id is not `empty()` |
| Discussion.CreateTopic | src/discussion/api/index.php:238-300 | 400 exactly when a required field is blank; 409 exactly when the topic id is already used; 500 exactly when the request is accepted and the insert fails; otherwise 201 with the sanitised topic stored |
| Discussion.CreateTopicTwiceConflicts | src/discussion/api/index.php:259-268 | posting the same topic again after it was created answers 409 |
| Discussion.UpdateTopic | src/discussion/api/index.php:312-387 | 404 exactly when the topic is absent; 400 exactly when the id is missing or nothing is given; 500 exactly when the request is accepted and the update fails; otherwise 200, even when no column changes, and the topic takes each given field |
| Discussion.RepeatedUpdateSucceeds | src/discussion/api/index.php:364-386 | repeating a successful topic update changes nothing and still answers 200, since the affected-row count is not consulted |
| Discussion.DeleteTopic | src/discussion/api/index.php:397-451 | 400 for an empty id, 404 for an absent topic, 500 exactly when one of the two statements fails; otherwise 200 and the store is the cascade; on failure the topics are unchanged |
| Discussion.ListReplies | src/discussion/api/index.php:465-498 | 400 exactly for an empty topic id; otherwise exactly that topic's replies |
| Discussion.CreateReply | src/discussion/api/index.php:511-584 | 400 exactly when a field is blank; 404 exactly when the topic is absent; 409 exactly when the reply id is taken; 500 exactly when the request is accepted and the insert fails; otherwise 201 and the reply is stored under its topic |
| Discussion.DeleteReply | src/discussion/api/index.php:594-639 | 400 for an empty id, 404 for an absent reply, 500 exactly when the reply exists and the delete fails; otherwise 200 and exactly that reply is gone |
| Discussion.IsValidResource | src/discussion/api/index.php:816-821 | only `topics` and `replies` are valid resources |
| Discussion.Route | src/discussion/api/index.php:646-760 | without a session the answer is 401 and nothing changes; OPTIONS answers 200; an invalid resource is 400; reads never write; every request keeps integrity |
| Discussion.Write | src/discussion/api/index.php:669-732 | an unknown verb is 405 and a 405 never writes; writes keep integrity |
| Weekly.ListPlan | src/weekly/api/index.php:122-150 | the term is the trimmed `search` when that is non-empty; the column is the whitelisted `sort` or `start_date`; the direction is `DESC` exactly when `order` lower-cases to `desc` |
| Weekly.WhitelistsAreStrict | src/weekly/api/index.php:122-140 | `isValidSortField`'s loose `in_array` on the sort and order whitelists accepts exactly the identical entries |
| Weekly.ListWeeks | src/weekly/api/index.php:103-163 | listing answers 200, changes nothing, and returns exactly the weeks the search selects |
| Weekly.GetWeek | src/weekly/api/index.php:174-198 | 400 exactly for an empty id; 200 with the week exactly when it exists; 404 otherwise |
| Weekly.CreateThenGet | src/weekly/api/index.php:174-264 | a created week is fetched back by its printed id with the fields it was stored with, exactly when that id is not 0 |
| Weekly.CreateWeek | src/weekly/api/index.php:213-264 | 400 exactly when a required field is blank or the date is invalid; 500 exactly when the request is accepted and the insert fails; otherwise 201 with the week stored |
| Weekly.UpdateWeek | src/weekly/api/index.php:278-355 | 404 exactly when the week is absent; 400 exactly for a missing id, an invalid date or nothing to set; 500 exactly when the request is accepted and the update fails; otherwise 200 and the week takes each given field |
| Weekly.DeleteWeek | src/weekly/api/index.php:366-403 | 400 for an empty id, 404 for an absent week, 500 exactly when one of the two statements fails; otherwise 200 and the store is the cascade; on failure the weeks are unchanged |
| Weekly.ListComments | src/weekly/api/index.php:418-436 | 400 exactly for an empty week id; otherwise exactly that week's comments |
| Weekly.CreateComment | src/weekly/api/index.php:449-501 | 400 exactly when a field is blank; 404 exactly when the week is absent; 500 exactly when the request is accepted and the insert fails; otherwise 201 and the comment is stored under that week |
| Weekly.DeleteComment | src/weekly/api/index.php:512-542 | 400 for an empty id, 404 for an absent comment, 500 exactly when the comment exists and the delete fails; otherwise 200 and exactly that comment is gone |
| Weekly.ResourceOf | src/weekly/api/index.php:553-555 | the resource defaults to `weeks` when the parameter is empty |
| Weekly.Route | src/weekly/api/index.php:549-633 | OPTIONS answers 200; an unknown resource is an error; `PUT` on comments is 405; every error uses the `error` envelope; reads never write; every request keeps integrity |
| Weekly.RouteWeeks | src/weekly/api/index.php:559-585 | on weeks, 405 exactly for a verb unknown after upper-casing |
| Weekly.RouteComments | src/weekly/api/index.php:588-608 | on comments, 405 exactly for an unknown verb or `PUT`, and a 405 never writes |
| Admin.ListPlan | src/admin/api/index.php:116-129 | the sort column is used exactly when whitelisted, and the direction exactly when the column is and `order` is `asc` or `desc` |
| Admin.ListStudents | src/admin/api/index.php:102-152 | listing answers 200, changes nothing, and returns exactly the students the search selects |
| Admin.ListingHidesPasswords | src/admin/api/index.php:102-190 | two stores that differ only in passwords give identical list and lookup answers |
| Admin.GetStudent | src/admin/api/index.php:163-190 | 200 with the student exactly when the id exists, else 404 |
| Admin.CreateThenGet | src/admin/api/index.php:163-332 | a created student is found by its trimmed id and shows its trimmed name and email, without the password |
| Admin.ListAccounts | src/admin/api/index.php:82-91 | the accounts listed are exactly the non-admin users, each with its name and email; admins are never listed |
| Admin.CreateAccount | src/admin/api/index.php:192-240 | 400 exactly when a field is blank or the email is invalid; 409 exactly when the email is taken; 500 exactly when the request is accepted and the insert fails; otherwise 201 with the hashed password stored |
| Admin.CreateStudent | src/admin/api/index.php:252-332 | 400 exactly when a field is blank or the email is invalid (the password length is not checked); 409 exactly when the student id or email is taken; 500 exactly when the request is accepted and the insert fails; otherwise 201 and the student is stored; unique emails stay unique |
| Admin.Given | src/admin/api/index.php:370-385 | a field counts as given exactly when it is present and not blank, and then reads trimmed |
| Admin.UpdateStudent | src/admin/api/index.php:344-409 | 404 exactly for an absent student; 400 exactly for a missing id or nothing given; 500 exactly when the update statement fails, the new email is another student's, or nothing would change, and then the store is unchanged; on 200 each given field is set and the row changed; unique emails stay unique |
| Admin.UpdateStudentDuplicateEmailRefused | src/admin/api/index.php:17-21 | with two students, moving the second onto the first's email answers 500 and leaves both rows as they were, because the email column is unique |
| Admin.DeleteAccount | src/admin/api/index.php:411-441 | 400 exactly for a missing or blank email; 404 for an absent user; 500 exactly when the user exists and the delete fails; otherwise 200 and exactly that user is gone |
| Admin.AddThenDeleteUser | src/admin/api/index.php:411-441 | deleting a just-added non-admin user by its trimmed email succeeds exactly when `empty()` does not call the email empty, and restores the users; the listing shows the user while it exists |
| Admin.AccountLifecycle | src/admin/api/index.php:192-240 | a created account is a non-admin one that the account listing shows; deleting it by its stored email succeeds exactly when `empty()` does not call that email empty, and then gives back the users and students as they were |
| Admin.DeleteStudent | src/admin/api/index.php:451-498 | 400 exactly for a missing or blank id; 404 for an absent student; 500 exactly when the student exists and the delete fails; otherwise 200 and exactly that student is gone |
| Admin.ChangePassword | src/admin/api/index.php:510-589 | 400 exactly for missing fields or a password under 8 characters; then 404 for an absent student, 401 for a wrong current password; 500 exactly when the update fails or the new hash equals the stored one; otherwise 200 and only that student's password changes |
| Admin.ChangeAccountPassword | src/admin/api/index.php:590-657 | 400 for missing fields or an invalid email; 404 for an absent user; 401 for a wrong current password; then 400 for a short password; 500 exactly when the update fails or the new hash equals the stored one; otherwise 200 and only that user's password changes |
| Admin.PasswordChecksInDifferentOrder | src/admin/api/index.php:515-573 | the same request with a short new password and a wrong current one is 400 from one handler and 401 from the other |
| Admin.UpdateAccount | src/admin/api/index.php:659-693 | 400 exactly when a field is blank or either email is invalid; 404 exactly when the old email names no user; 409 exactly when the email changes to one already taken; 500 exactly when the update fails; otherwise 200 and the user moves to the new email with the new name |
| Php.Trimmed | src/admin/api/index.php:660-662 | a body field read as `trim($x ?? "")` is empty exactly when the field is missing or blank |
| Admin.SameEmailNeverConflicts | src/admin/api/index.php:680-687 | keeping one's own email is never a conflict |
| Admin.RouteKeepsEmailsUnique | src/admin/api/index.php:699-771 | every request keeps student emails unique |
| Admin.Route | src/admin/api/index.php:699-771 | without a session the answer is 401 and nothing changes; OPTIONS answers 200; 405 exactly for an unknown verb; reads and failures never write |
| ManageUsers.DataId | src/admin/manage_users.js:74-75 | a row's `data-id` is the id as text, and reads back as the number for a numeric id |
| ManageUsers.FindDuplicate | src/admin/manage_users.js:174-179 | the duplicate check finds a match exactly when some student's id is loosely equal to the typed id |
| ManageUsers.AddStudent | src/admin/manage_users.js:157-194 | an empty field or a taken id is refused with the matching notice and the list unchanged; the add is accepted exactly when every field is filled and the id is unused, and then the student is appended |
| ManageUsers.AddTwiceRefused | src/admin/manage_users.js:174-179 | adding a second student with an id just added is refused as a duplicate |
| ManageUsers.DeleteAsWritten | src/admin/manage_users.js:211-214 | the delete as written keeps exactly the students whose id is not strictly equal to the `data-id` string |
| ManageUsers.DeleteAsWrittenMissesNumericIds | src/admin/manage_users.js:211-214 | a student with the numeric id 7 survives a click on its own delete button |
| ManageUsers.DeleteStudent | src/admin/manage_users.js:207-215 | the corrected delete keeps exactly the students whose rendered id differs from the clicked one, in order |
| ManageUsers.DeleteRemovesClickedStudent | src/admin/manage_users.js:207-215 | clicking a row's delete button removes that student |
| ManageUsers.DeleteAgreesOnStringIds | src/admin/manage_users.js:211-214 | when every id is a string the corrected delete and the delete as written agree |
| ManageUsers.Search | src/admin/manage_users.js:228-240 | an empty term shows everyone; otherwise exactly the students whose name contains the term ignoring case, in order |
| ManageUsers.SearchIdempotent | src/admin/manage_users.js:228-240 | searching the search result again changes nothing |
| ManageUsers.ToggleDir | src/admin/manage_users.js:266-269 | the new direction is `desc` exactly when the current one is `asc` |
| ManageUsers.ToggleTwice | src/admin/manage_users.js:266-269 | two clicks restore the direction |
| ManageUsers.ColumnAt | src/admin/manage_users.js:259-264 | only the first three columns are sortable |
| ManageUsers.IdOrderIsPreorder | src/admin/manage_users.js:271-284 | among students whose ids all have a numeric value, the id comparison is total and transitive |
| ManageUsers.NaNIdBreaksOrder | src/admin/manage_users.js:276-280 | an id with no numeric value compares as equal to every id, so with ids 1, "x" and 0 the comparison is not transitive |
| ManageUsers.SortBy | src/admin/manage_users.js:256-287 | the direction toggles; the students are permuted; the id column sorts them when every listed student's id has a numeric value, a text column when `localeCompare` orders the listed students; a non-sortable column with two or more students leaves them unrendered and unchanged |
| ManageUsers.ChangePasswordForm | src/admin/manage_users.js:116-140 | mismatch, too short and success are reported exactly in their cases, and only success clears the form |
| ManageUsers.FormAgreesWithServer | src/admin/manage_users.js:128-135 | with matching entries, and counting both lengths in characters, the form accepts a new password exactly when the server's `changePassword` does not answer 400 for it |
| WeeklyAdmin.TrimmedLines | src/weekly/admin.js:98 | one trimmed line per newline-separated piece of the textarea |
| WeeklyAdmin.ParseLinks | src/weekly/admin.js:98 | the links are exactly the non-empty trimmed lines, in order, never more than the lines |
| WeeklyAdmin.LinksAreTrimmed | src/weekly/admin.js:98 | no parsed link has surrounding whitespace |
| WeeklyAdmin.ParseJoinedLinks | src/weekly/admin.js:98 | writing trimmed one-line links one per line and parsing gives them back |
| WeeklyAdmin.EmptyTextNoLinks | src/weekly/admin.js:98 | an empty textarea parses to no links |
| WeeklyAdmin.AddWeek | src/weekly/admin.js:91-109 | the new week is appended with id `week_` plus the clock, the given fields and the parsed links; the old weeks are kept |
| WeeklyAdmin.DeleteWeek | src/weekly/admin.js:120-127 | exactly the weeks with another id are kept, in order |
| WeeklyAdmin.AddThenDelete | src/weekly/admin.js:91-127 | deleting a week just added under an unused id restores the list |
| WeeklyAdmin.DeleteIdempotent | src/weekly/admin.js:120-127 | a second delete with the same id changes nothing |

## Left out

- Input and output: HTTP headers, CORS, reading `php://input`, `json_encode`/`json_decode` and echoing. A request is given already decoded and an answer is a value.
- The database connection, SQL text and PDO binding. Each statement is modelled by its effect on the two maps; the row order of `ORDER BY` is not modelled, only the plan's column and direction.
- Listing.Select: compares with a given case mode and ASCII lower-casing, not MySQL collations.
- Foreign routines are parameters, not modelled: `filter_var` for URLs and emails, `strip_tags`, `htmlspecialchars`, `password_hash`/`password_verify`, JavaScript `localeCompare` and `Number`.
- Sessions and the `auth` endpoint and guard scripts. Only the handler's authenticated-or-not flag is kept.
- Concurrency: each request runs alone on the store; transactions are modelled only as all-or-nothing.
- Php.IsNumeric: accepts optionally signed integers with surrounding whitespace; decimals and exponents, which PHP also accepts, read as not numeric.
- Admin.ChangePassword: the minimum length counts characters, whereas `strlen` counts bytes.
- Admin.ChangeAccountPassword: the minimum length counts characters, whereas `strlen` counts bytes.
- ManageUsers.ChangePasswordForm: the minimum length counts UTF-16 code units in the browser and characters here.
- ManageUsers.Search: `toLowerCase` is modelled as ASCII lower-casing.
- ManageUsers.SortBy: the id column is proved sorted only when `Number` gives a value for the id of every listed student. A NaN id compares as equal to every id, which breaks transitivity (`ManageUsers.NaNIdBreaksOrder`), so no order is promised then. Text columns are proved sorted only when the given `localeCompare` is a total preorder.
- ManageUsers.SortBy: the comparator that throws on the actions column is modelled as the array left unchanged and not re-rendered.
- JSON numbers and booleans in a request body are given to the model as the text PHP turns them into (`5` as "5", `true` as "1", `false` as ""), which is how `trim`, `strval`, `empty()` and parameter binding see them. A JSON array or object where a handler expects a string is read as an absent field (usually a 400); PHP 8 would instead raise a `TypeError` in `trim` or `htmlspecialchars`.
- Listing.RowFoundByOwnField: a value holding a backslash need not be found by searching for itself, because `LIKE` reads the backslash as an escape (`Listing.BackslashValueMissed`).
- Weekly.CreateComment: the comment's `week_id` column is modelled as an integer column, read like the week's `id`. The table the code writes, `comments_week`, is not declared in the source; the header comment gives the `comments` table a `week_id VARCHAR(50)`. Under a text column, a comment posted with `week_id` "05" would be stored as "05". It would then be neither listed by `?id=5` nor deleted with week 5.
- Discussion.CreateTopic: topic ids are compared exactly. Under a case-insensitive collation MySQL's `=` also ignores case, so `T1` would clash with a stored `t1` in the source but not in the model. The same holds for the other lookups by topic id.
- Discussion.CreateReply: reply and topic ids are compared exactly, not under the collation's case folding.
- Admin.CreateStudent: student ids and emails are compared exactly. Under a case-insensitive collation, `A@x.com` conflicts with a stored `a@x.com` in the source, but is accepted with 201 by the model. The same holds for the other lookups by id or email.
- Admin.CreateAccount: emails are compared exactly, not under the collation's case folding.
- Week ids in the week editor are strings; the editor's fetch of `weeks.json` and the table rendering are not modelled.
- DOM rendering and page start-up in both scripts (`renderTable`, `createStudentRow`, the loaders) are not modelled; they draw the arrays the model keeps.
- The resources, weekly list and detail pages and the common guards are not part of this model.
- Admin.ListAccounts: the handler is modelled but the router in the source never calls it.
- Php.IntCast: an id bound as a string against an integer column is read by its integer prefix, as `(int)` reads it. MySQL compares decimal and exponent spellings such as "1.5" or "1e1" as numbers, so for those ids the database can find a different row, or none.
- ManageUsers.FormAgreesWithServer: both password lengths are counted in characters. The browser counts UTF-16 code units and `strlen` counts bytes, so for a non-ASCII password the form and the server can disagree. For example, "éééééé" is 6 code units but 12 bytes in UTF-8.

## Findings

| source | as written | input that shows it | evidently intended | confidence | as-written member | corrected member |
|---|---|---|---|---|---|---|
| src/admin/manage_users.js:211-214 | the delete keeps students whose `id !== dataset.id`; `dataset.id` is always a string, so a numeric id loaded from JSON is never strictly equal to it | a list holding `{name: "Ali", id: 7}` and a click on its delete button (`data-id` "7"): nothing is removed | remove the student whose rendered id is the one clicked, as the add handler's loose `==` comparison already treats `7` and `"7"` alike | not executed | ManageUsers.DeleteAsWrittenMissesNumericIds | ManageUsers.DeleteStudent |

=== FILE: admin.dfy ===
/** The administration endpoint: the `students` table (keyed by `student_id`)
    and the student accounts in the `users` table (keyed by `email`), with
    password changes. Every request needs a logged-in session. */
module Admin {
  import opened Base
  import opened Strings
  import opened Php
  import opened Listing
  import opened Http

  /** A row of `students`; `password` holds a hash. */
  datatype Student = Student(rowId: int, name: string, email: string, password: string, createdAt: int)

  /** A row of `users`. */
  datatype User = User(name: string, password: string, isAdmin: bool)

  datatype Db = Db(students: map<string, Student>, users: map<string, User>)

  /** A student as listings show it: every column but `password`. */
  datatype StudentView = StudentView(rowId: int, studentId: string, name: string, email: string, createdAt: int)

  function View(studentId: string, s: Student): (v: StudentView)
    ensures v.studentId == studentId && v.name == s.name && v.email == s.email && v.rowId == s.rowId
  {
    StudentView(s.rowId, studentId, s.name, s.email, s.createdAt)
  }

  /** A student account as `getUserStudents` shows it. */
  datatype Account = Account(name: string, email: string)

  /** The list query: a search whenever `search` is set (even to ""), an
      ORDER BY column only when `sort` is whitelisted, and a direction only
      then and only when `order` is exactly `asc` or `desc`. */
  datatype StudentPlan = StudentPlan(term: Option<string>, column: Option<string>, direction: Option<string>)

  datatype Payload =
    | StudentList(plan: StudentPlan, rows: map<string, StudentView>)
    | OneStudent(student: StudentView)
    | AccountList(accounts: map<string, Account>)
    | Done

  type Reply = Outcome<Db, Payload>

  /** `{"status": "error", "message": ...}` */
  function Fail(db: Db, status: int): Reply {
    Outcome(status, db, Failure("message"))
  }

  const SortColumns: seq<string> := ["name", "student_id", "email"]
  const Directions: seq<string> := ["asc", "desc"]

  function ListPlan(q: Query): (p: StudentPlan)
    ensures p.term == Param(q, "search")
    ensures p.column.Some? <==> Allowed(Param(q, "sort"), SortColumns)
    ensures p.column.Some? ==> p.column.value in SortColumns && p.column.value == q["sort"]
    ensures p.direction.Some? <==> p.column.Some? && Allowed(Param(q, "order"), Directions)
    ensures p.direction.Some? ==> p.direction.value in Directions && p.direction.value == q["order"]
  {
    var sort := Param(q, "sort");
    var order := Param(q, "order");
    if Allowed(sort, SortColumns) then
      StudentPlan(Param(q, "search"), sort, if Allowed(order, Directions) then order else None)
    else StudentPlan(Param(q, "search"), None, None)
  }

  function SearchFields(studentId: string, s: Student): seq<string> {
    [s.name, studentId, s.email]
  }

  /** `getStudents`: the matching students, without their passwords. */
  function ListStudents(db: Db, ctx: Ctx, q: Query): (r: Reply)
    ensures r.status == OK && r.store == db && r.envelope.Success?
    ensures r.envelope.data.StudentList? && r.envelope.data.plan == ListPlan(q)
    ensures var rows := r.envelope.data.rows;
      && rows.Keys <= db.students.Keys
      && (forall k :: k in rows ==> rows[k] == View(k, db.students[k]))
      && (forall k :: k in db.students ==>
            (k in rows <==> Matches(SearchFields(k, db.students[k]), Param(q, "search"), ctx.caseInsensitive)))
  {
    var plan := ListPlan(q);
    var rows := map k | k in db.students && Matches(SearchFields(k, db.students[k]), plan.term, ctx.caseInsensitive)
                  :: View(k, db.students[k]);
    Outcome(OK, db, Success(StudentList(plan, rows)))
  }

  /** Two stores that differ only in the students' password hashes. */
  predicate SameButPasswords(a: Db, b: Db) {
    && a.students.Keys == b.students.Keys
    && forall k :: k in a.students ==> a.students[k].(password := "") == b.students[k].(password := "")
  }

  /** Listings never reveal a password: the reply is the same whatever the
      stored hashes are. */
  lemma ListingHidesPasswords(a: Db, b: Db, ctx: Ctx, q: Query, id: string)
    requires SameButPasswords(a, b)
    ensures ListStudents(a, ctx, q).envelope == ListStudents(b, ctx, q).envelope
    ensures GetStudent(a, id).envelope == GetStudent(b, id).envelope
  {
    var ra := ListStudents(a, ctx, q).envelope.data.rows;
    var rb := ListStudents(b, ctx, q).envelope.data.rows;
    forall k | k in a.students
      ensures View(k, a.students[k]) == View(k, b.students[k])
      ensures SearchFields(k, a.students[k]) == SearchFields(k, b.students[k])
    {
      assert a.students[k].(password := "") == b.students[k].(password := "");
    }
    assert ra == rb;
  }

  /** `getStudentById`: looks the id up as given. */
  function GetStudent(db: Db, id: string): (r: Reply)
    ensures r.store == db
    ensures r.status in {OK, NOT_FOUND}
    ensures r.status == OK <==> id in db.students
    ensures r.status == OK ==> r.envelope == Success(OneStudent(View(id, db.students[id])))
  {
    if id in db.students then Outcome(OK, db, Success(OneStudent(View(id, db.students[id]))))
    else Fail(db, NOT_FOUND)
  }

  /** `getUserStudents`: name and email of every non-admin user. */
  function ListAccounts(db: Db): (r: Reply)
    ensures r.status == OK && r.store == db && r.envelope.Success? && r.envelope.data.AccountList?
    ensures var rows := r.envelope.data.accounts;
      forall e :: e in rows <==> e in db.users && !db.users[e].isAdmin
    ensures var rows := r.envelope.data.accounts;
      forall e :: e in rows ==> rows[e] == Account(db.users[e].name, e)
  {
    Outcome(OK, db, Success(AccountList(map e | e in db.users && !db.users[e].isAdmin :: Account(db.users[e].name, e))))
  }

  /** `createUserStudent`: a non-admin account; the trimmed email must be
      valid and not yet used. */
  function CreateAccount(db: Db, ctx: Ctx, body: Body): (r: Reply)
    ensures r.status in {CREATED, BAD_REQUEST, CONFLICT, SERVER_ERROR}
    ensures r.status != CREATED ==> r.store == db
    ensures r.status == BAD_REQUEST <==>
      || Empty(Field(body, "name")) || Empty(Field(body, "email")) || Empty(Field(body, "password"))
      || !ctx.foreign.validEmail(Trim(body["email"].s))
    ensures r.status == CONFLICT <==> r.status != BAD_REQUEST && Trim(body["email"].s) in db.users
    ensures r.status == SERVER_ERROR <==>
      r.status != BAD_REQUEST && Trim(body["email"].s) !in db.users && ctx.failAt == Some(InsertStmt)
    ensures r.status == CREATED ==>
      var email := Trim(body["email"].s);
      && email !in db.users
      && r.store == db.(users := db.users[email := User(
           Trim(body["name"].s), ctx.foreign.hash(Trim(body["password"].s)), false)])
  {
    var name := Field(body, "name");
    var email := Field(body, "email");
    var password := Field(body, "password");
    if Empty(name) || Empty(email) || Empty(password) then Fail(db, BAD_REQUEST)
    else
      var e := Trim(email.value);
      if !ctx.foreign.validEmail(e) then Fail(db, BAD_REQUEST)
      else if e in db.users then Fail(db, CONFLICT)
      else if ctx.failAt == Some(InsertStmt) then Fail(db, SERVER_ERROR)
      else
        var u := User(Trim(name.value), ctx.foreign.hash(Trim(password.value)), false);
        Outcome(CREATED, db.(users := db.users[e := u]), Success(Done))
  }

  /** Some student already has this id or this email. */
  predicate Taken(db: Db, studentId: string, email: string) {
    studentId in db.students || exists k | k in db.students :: db.students[k].email == email
  }

  /** No two students share an email address: the `email` column is
      declared UNIQUE. `createStudent` checks it before inserting; for
      `updateStudent` the index itself refuses the statement. */
  ghost predicate EmailsUnique(db: Db) {
    forall a, b :: a in db.students && b in db.students && a != b ==> db.students[a].email != db.students[b].email
  }

  /** What `createStudent` refuses: a field unset or `empty()`, or an email
      that is not valid once trimmed. */
  predicate IncompleteStudent(ctx: Ctx, body: Body) {
    || Empty(Field(body, "student_id")) || Empty(Field(body, "name"))
    || Empty(Field(body, "email")) || Empty(Field(body, "password"))
    || !ctx.foreign.validEmail(Trim(body["email"].s))
  }

  /** `createStudent`: all four fields non-empty, a valid trimmed email, and
      neither the trimmed id nor the email in use. */
  function CreateStudent(db: Db, ctx: Ctx, body: Body): (r: Reply)
    ensures r.status in {CREATED, BAD_REQUEST, CONFLICT, SERVER_ERROR}
    ensures r.status != CREATED ==> r.store == db
    ensures r.status == BAD_REQUEST <==> IncompleteStudent(ctx, body)
    ensures r.status == CONFLICT <==>
      r.status != BAD_REQUEST && Taken(db, Trim(body["student_id"].s), Trim(body["email"].s))
    ensures r.status == SERVER_ERROR <==>
      && !IncompleteStudent(ctx, body) && !Taken(db, Trim(body["student_id"].s), Trim(body["email"].s))
      && ctx.failAt == Some(InsertStmt)
    ensures r.status == CREATED ==>
      var id := Trim(body["student_id"].s);
      && !Taken(db, id, Trim(body["email"].s))
      && r.store == db.(students := db.students[id := Student(
           ctx.nextId, Trim(body["name"].s), Trim(body["email"].s),
           ctx.foreign.hash(Trim(body["password"].s)), ctx.now)])
    ensures EmailsUnique(db) ==> EmailsUnique(r.store)
  {
    if IncompleteStudent(ctx, body) then Fail(db, BAD_REQUEST)
    else
      var id := Trim(body["student_id"].s);
      var e := Trim(body["email"].s);
      if Taken(db, id, e) then Fail(db, CONFLICT)
      else if ctx.failAt == Some(InsertStmt) then Fail(db, SERVER_ERROR)
      else
        var s := Student(ctx.nextId, Trim(body["name"].s), e, ctx.foreign.hash(Trim(body["password"].s)), ctx.now);
        Outcome(CREATED, db.(students := db.students[id := s]), Success(Done))
  }

  /** A created student is found by the trimmed id it was stored under, and
      shows the trimmed name and email but not the password. */
  lemma CreateThenGet(db: Db, ctx: Ctx, body: Body)
    requires CreateStudent(db, ctx, body).status == CREATED
    ensures var got := GetStudent(CreateStudent(db, ctx, body).store, Trim(body["student_id"].s));
      && got.status == OK
      && got.envelope == Success(OneStudent(StudentView(
           ctx.nextId, Trim(body["student_id"].s), Trim(body["name"].s), Trim(body["email"].s), ctx.now)))
  {
  }

  /** A field `updateStudent` writes: set, and non-blank after trimming. */
  function Given(body: Body, k: string): (v: Option<string>)
    ensures v.Some? <==> !Blank(Field(body, k))
    ensures v.Some? ==> v.value == Trim(body[k].s) && v.value != ""
  {
    if Blank(Field(body, k)) then None else Some(Trim(body[k].s))
  }

  function Revised(s: Student, body: Body): Student {
    s.(name := Given(body, "name").GetOr(s.name), email := Given(body, "email").GetOr(s.email))
  }

  /** Another student than `id` already has `email`. */
  predicate EmailHeldByOther(db: Db, id: string, email: string) {
    exists k | k in db.students :: k != id && db.students[k].email == email
  }

  /** Why the UPDATE of `updateStudent` does not report a changed row: the
      statement fails, the UNIQUE index on `email` refuses it, or it writes
      the values the row already holds. */
  predicate UpdateFails(db: Db, ctx: Ctx, id: string, current: Student, revised: Student) {
    ctx.failAt == Some(UpdateStmt) || EmailHeldByOther(db, id, revised.email) || revised == current
  }

  /** `updateStudent`: name and email, trimmed, are written when non-blank.
      The email is not validated; a duplicate is refused by the UNIQUE index,
      whose exception the router turns into a server error, and an update
      that changes nothing reports a server error too. */
  function UpdateStudent(db: Db, ctx: Ctx, body: Body): (r: Reply)
    ensures r.status in {OK, BAD_REQUEST, NOT_FOUND, SERVER_ERROR}
    ensures r.status != OK ==> r.store == db
    ensures r.status == NOT_FOUND <==> !Empty(Field(body, "student_id")) && body["student_id"].s !in db.students
    ensures r.status == BAD_REQUEST <==>
      || Empty(Field(body, "student_id"))
      || (body["student_id"].s in db.students && Given(body, "name").None? && Given(body, "email").None?)
    ensures r.status == SERVER_ERROR <==>
      && !Empty(Field(body, "student_id")) && body["student_id"].s in db.students
      && (Given(body, "name").Some? || Given(body, "email").Some?)
      && var id := body["student_id"].s;
         UpdateFails(db, ctx, id, db.students[id], Revised(db.students[id], body))
    ensures r.status == OK ==>
      var id := body["student_id"].s;
      && Revised(db.students[id], body) != db.students[id]
      && !EmailHeldByOther(db, id, Revised(db.students[id], body).email)
      && r.store == db.(students := db.students[id := Revised(db.students[id], body)])
      && r.store.students[id].password == db.students[id].password
    ensures EmailsUnique(db) ==> EmailsUnique(r.store)
  {
    var sid := Field(body, "student_id");
    if Empty(sid) then Fail(db, BAD_REQUEST)
    else if sid.value !in db.students then Fail(db, NOT_FOUND)
    else if Given(body, "name").None? && Given(body, "email").None? then Fail(db, BAD_REQUEST)
    else
      var s := Revised(db.students[sid.value], body);
      if UpdateFails(db, ctx, sid.value, db.students[sid.value], s) then Fail(db, SERVER_ERROR)
      else
        var students := db.students[sid.value := s];
        assert EmailsUnique(db) ==> EmailsUnique(db.(students := students)) by {
          if EmailsUnique(db) {
            forall a, b | a in students && b in students && a != b
              ensures students[a].email != students[b].email
            {
              if a != sid.value && b != sid.value {
                assert db.students[a].email != db.students[b].email;
              }
            }
          }
        }
        Outcome(OK, db.(students := students), Success(Done))
  }

  /** Giving a student another student's email is refused: the store keeps
      its two distinct emails. */
  lemma UpdateStudentDuplicateEmailRefused(ctx: Ctx)
    requires ctx.failAt == None
    ensures var db := Db(map["s1" := Student(1, "A", "a@x", "h", 0), "s2" := Student(2, "B", "b@x", "h", 0)], map[]);
      var r := UpdateStudent(db, ctx, map["student_id" := Text("s2"), "email" := Text("a@x")]);
      EmailsUnique(db) && r.status == SERVER_ERROR && r.store == db
  {
    var db := Db(map["s1" := Student(1, "A", "a@x", "h", 0), "s2" := Student(2, "B", "b@x", "h", 0)], map[]);
    var body := map["student_id" := Text("s2"), "email" := Text("a@x")];
    assert Trim("a@x") == "a@x" by {
      TrimByFixesClean("a@x", IsPhpSpace);
    }
    assert Given(body, "name").None?;
    assert Given(body, "email") == Some("a@x");
    var s := Revised(db.students["s2"], body);
    assert s == Student(2, "B", "a@x", "h", 0);
    assert EmailHeldByOther(db, "s2", s.email) by {
      assert "s1" in db.students && db.students["s1"].email == s.email;
    }
  }

  /** `deleteUserStudent`: deletes the account with exactly this email. */
  function DeleteAccount(db: Db, ctx: Ctx, body: Body): (r: Reply)
    ensures r.status in {OK, BAD_REQUEST, NOT_FOUND, SERVER_ERROR}
    ensures r.status != OK ==> r.store == db
    ensures r.status == BAD_REQUEST <==> Empty(Field(body, "email")) || Blank(Field(body, "email"))
    ensures r.status == NOT_FOUND <==> r.status != BAD_REQUEST && body["email"].s !in db.users
    ensures r.status == SERVER_ERROR <==>
      r.status != BAD_REQUEST && body["email"].s in db.users && ctx.failAt == Some(DeleteRowStmt)
    ensures r.status == OK ==> r.store == db.(users := db.users - {body["email"].s})
  {
    var email := Field(body, "email");
    if Empty(email) || Trim(email.value) == "" then Fail(db, BAD_REQUEST)
    else if email.value !in db.users then Fail(db, NOT_FOUND)
    else if ctx.failAt == Some(DeleteRowStmt) then Fail(db, SERVER_ERROR)
    else Outcome(OK, db.(users := db.users - {email.value}), Success(Done))
  }

  /** Adding a fresh non-admin user and deleting it by its email. */
  lemma {:induction false} AddThenDeleteUser(db: Db, e: string, u: User, ctx2: Ctx)
    requires e !in db.users && !u.isAdmin && Trim(e) == e
    requires ctx2.failAt == None
    ensures var created := db.(users := db.users[e := u]);
      var deleted := DeleteAccount(created, ctx2, map["email" := Text(e)]);
      && e in ListAccounts(created).envelope.data.accounts
      && (!EmptyString(e) <==> deleted.status == OK)
      && (deleted.status == OK ==> deleted.store.users == db.users && deleted.store.students == db.students)
  {
    var created := db.(users := db.users[e := u]);
    var del := map["email" := Text(e)];
    assert Field(del, "email") == Some(e);
    assert created.users - {e} == db.users;
  }

  /** A created account is a non-admin one that the account listing shows,
      and deleting it by the email it was stored under gives the accounts
      back as they were (an email `empty()` calls "0" cannot be deleted). */
  lemma AccountLifecycle(db: Db, ctx: Ctx, body: Body, ctx2: Ctx)
    requires CreateAccount(db, ctx, body).status == CREATED
    requires ctx2.failAt == None
    ensures var e := Trim(body["email"].s);
      var created := CreateAccount(db, ctx, body).store;
      var deleted := DeleteAccount(created, ctx2, map["email" := Text(e)]);
      && e in ListAccounts(created).envelope.data.accounts
      && !created.users[e].isAdmin
      && (!EmptyString(e) <==> deleted.status == OK)
      && (deleted.status == OK ==> deleted.store.users == db.users && deleted.store.students == db.students)
  {
    var e := Trim(body["email"].s);
    var u := User(Trim(body["name"].s), ctx.foreign.hash(Trim(body["password"].s)), false);
    TrimByIdempotent(body["email"].s, IsPhpSpace);
    AddThenDeleteUser(db, e, u, ctx2);
  }

  /** `deleteStudent` */
  function DeleteStudent(db: Db, ctx: Ctx, id: Option<string>): (r: Reply)
    ensures r.status in {OK, BAD_REQUEST, NOT_FOUND, SERVER_ERROR}
    ensures r.status != OK ==> r.store == db
    ensures r.status == BAD_REQUEST <==> Empty(id) || Trim(id.value) == ""
    ensures r.status == NOT_FOUND <==> r.status != BAD_REQUEST && id.value !in db.students
    ensures r.status == SERVER_ERROR <==>
      r.status != BAD_REQUEST && id.value in db.students && ctx.failAt == Some(DeleteRowStmt)
    ensures r.status == OK ==> r.store == db.(students := db.students - {id.value})
  {
    if Empty(id) || Trim(id.value) == "" then Fail(db, BAD_REQUEST)
    else if id.value !in db.students then Fail(db, NOT_FOUND)
    else if ctx.failAt == Some(DeleteRowStmt) then Fail(db, SERVER_ERROR)
    else Outcome(OK, db.(students := db.students - {id.value}), Success(Done))
  }

  const MIN_PASSWORD: nat := 8

  /** The three fields a password change needs, none `empty()`. */
  predicate PasswordFieldsGiven(body: Body, who: string) {
    !Empty(Field(body, who)) && !Empty(Field(body, "current_password")) && !Empty(Field(body, "new_password"))
  }

  /** `changePassword`: missing fields, then a short new password (before any
      lookup), then an unknown student, then a wrong current password. Only
      the student's password hash changes. */
  function ChangePassword(db: Db, ctx: Ctx, body: Body): (r: Reply)
    ensures r.status in {OK, BAD_REQUEST, UNAUTHORIZED, NOT_FOUND, SERVER_ERROR}
    ensures r.status != OK ==> r.store == db
    ensures r.status == BAD_REQUEST <==>
      !PasswordFieldsGiven(body, "student_id") || |body["new_password"].s| < MIN_PASSWORD
    ensures r.status == NOT_FOUND <==> r.status != BAD_REQUEST && body["student_id"].s !in db.students
    ensures r.status == UNAUTHORIZED <==>
      && r.status != BAD_REQUEST && body["student_id"].s in db.students
      && !ctx.foreign.verify(body["current_password"].s, db.students[body["student_id"].s].password)
    ensures r.status == SERVER_ERROR <==>
      && r.status != BAD_REQUEST && body["student_id"].s in db.students
      && var s := db.students[body["student_id"].s];
         && ctx.foreign.verify(body["current_password"].s, s.password)
         && (ctx.failAt == Some(UpdateStmt) || ctx.foreign.hash(body["new_password"].s) == s.password)
    ensures r.status == OK ==>
      var id := body["student_id"].s;
      && |body["new_password"].s| >= MIN_PASSWORD
      && ctx.foreign.verify(body["current_password"].s, db.students[id].password)
      && r.store.users == db.users
      && r.store.students == db.students[id := db.students[id].(password := ctx.foreign.hash(body["new_password"].s))]
  {
    if !PasswordFieldsGiven(body, "student_id") then Fail(db, BAD_REQUEST)
    else
      var id := body["student_id"].s;
      var newPassword := body["new_password"].s;
      if |newPassword| < MIN_PASSWORD then Fail(db, BAD_REQUEST)
      else if id !in db.students then Fail(db, NOT_FOUND)
      else if !ctx.foreign.verify(body["current_password"].s, db.students[id].password) then Fail(db, UNAUTHORIZED)
      else if ctx.failAt == Some(UpdateStmt) then Fail(db, SERVER_ERROR)
      else
        var s := db.students[id].(password := ctx.foreign.hash(newPassword));
        if s == db.students[id] then Fail(db, SERVER_ERROR)
        else Outcome(OK, db.(students := db.students[id := s]), Success(Done))
  }

  /** `changeUserPassword`: the same checks for an account, but the email is
      trimmed and validated and the length check comes after the password
      check. */
  function ChangeAccountPassword(db: Db, ctx: Ctx, body: Body): (r: Reply)
    ensures r.status in {OK, BAD_REQUEST, UNAUTHORIZED, NOT_FOUND, SERVER_ERROR}
    ensures r.status != OK ==> r.store == db
    ensures r.status == BAD_REQUEST <==>
      || !PasswordFieldsGiven(body, "email") || !ctx.foreign.validEmail(Trim(body["email"].s))
      || (&& Trim(body["email"].s) in db.users
          && ctx.foreign.verify(body["current_password"].s, db.users[Trim(body["email"].s)].password)
          && |body["new_password"].s| < MIN_PASSWORD)
    ensures r.status == NOT_FOUND <==>
      PasswordFieldsGiven(body, "email") && ctx.foreign.validEmail(Trim(body["email"].s))
      && Trim(body["email"].s) !in db.users
    ensures r.status == UNAUTHORIZED <==>
      && PasswordFieldsGiven(body, "email") && ctx.foreign.validEmail(Trim(body["email"].s))
      && Trim(body["email"].s) in db.users
      && !ctx.foreign.verify(body["current_password"].s, db.users[Trim(body["email"].s)].password)
    ensures r.status == SERVER_ERROR <==>
      && PasswordFieldsGiven(body, "email") && ctx.foreign.validEmail(Trim(body["email"].s))
      && Trim(body["email"].s) in db.users
      && var u := db.users[Trim(body["email"].s)];
         && ctx.foreign.verify(body["current_password"].s, u.password)
         && |body["new_password"].s| >= MIN_PASSWORD
         && (ctx.failAt == Some(UpdateStmt) || ctx.foreign.hash(body["new_password"].s) == u.password)
    ensures r.status == OK ==>
      PasswordFieldsGiven(body, "email") &&
      var e := Trim(body["email"].s);
      && ctx.foreign.validEmail(e) && e in db.users
      && |body["new_password"].s| >= MIN_PASSWORD
      && ctx.foreign.verify(body["current_password"].s, db.users[e].password)
      && r.store.students == db.students
      && r.store.users == db.users[e := db.users[e].(password := ctx.foreign.hash(body["new_password"].s))]
  {
    if !PasswordFieldsGiven(body, "email") then Fail(db, BAD_REQUEST)
    else
      var e := Trim(body["email"].s);
      var newPassword := body["new_password"].s;
      if !ctx.foreign.validEmail(e) then Fail(db, BAD_REQUEST)
      else if e !in db.users then Fail(db, NOT_FOUND)
      else if !ctx.foreign.verify(body["current_password"].s, db.users[e].password) then Fail(db, UNAUTHORIZED)
      else if |newPassword| < MIN_PASSWORD then Fail(db, BAD_REQUEST)
      else if ctx.failAt == Some(UpdateStmt) then Fail(db, SERVER_ERROR)
      else
        var u := db.users[e].(password := ctx.foreign.hash(newPassword));
        if u == db.users[e] then Fail(db, SERVER_ERROR)
        else Outcome(OK, db.(users := db.users[e := u]), Success(Done))
  }

  /** The two password changes check in a different order: for a student a
      short new password is refused before the current one is verified, for
      an account only after it. */
  lemma PasswordChecksInDifferentOrder(db: Db, ctx: Ctx, body: Body)
    requires PasswordFieldsGiven(body, "student_id") && PasswordFieldsGiven(body, "email")
    requires |body["new_password"].s| < MIN_PASSWORD
    requires ctx.foreign.validEmail(Trim(body["email"].s)) && Trim(body["email"].s) in db.users
    requires !ctx.foreign.verify(body["current_password"].s, db.users[Trim(body["email"].s)].password)
    ensures ChangePassword(db, ctx, body).status == BAD_REQUEST
    ensures ChangeAccountPassword(db, ctx, body).status == UNAUTHORIZED
  {
  }

  /** What `updateUserStudent` refuses as a bad request: a field blank after
      trimming, or either email invalid. */
  predicate IncompleteAccountEdit(ctx: Ctx, body: Body) {
    || Trimmed(body, "old_email") == "" || Trimmed(body, "name") == "" || Trimmed(body, "email") == ""
    || !ctx.foreign.validEmail(Trimmed(body, "old_email")) || !ctx.foreign.validEmail(Trimmed(body, "email"))
  }

  /** `updateUserStudent`: renames an account and moves it to a new email;
      the duplicate check runs only when the email actually changes. */
  function UpdateAccount(db: Db, ctx: Ctx, body: Body): (r: Reply)
    ensures r.status in {OK, BAD_REQUEST, NOT_FOUND, CONFLICT, SERVER_ERROR}
    ensures r.status != OK ==> r.store == db
    ensures r.status == BAD_REQUEST <==> IncompleteAccountEdit(ctx, body)
    ensures r.status == NOT_FOUND <==> !IncompleteAccountEdit(ctx, body) && Trimmed(body, "old_email") !in db.users
    ensures r.status == SERVER_ERROR <==>
      var oldEmail := Trimmed(body, "old_email");
      var newEmail := Trimmed(body, "email");
      && !IncompleteAccountEdit(ctx, body) && oldEmail in db.users
      && (oldEmail == newEmail || newEmail !in db.users)
      && ctx.failAt == Some(UpdateStmt)
    ensures r.status == CONFLICT <==>
      var oldEmail := Trimmed(body, "old_email");
      var newEmail := Trimmed(body, "email");
      && oldEmail != "" && Trimmed(body, "name") != "" && newEmail != ""
      && ctx.foreign.validEmail(oldEmail) && ctx.foreign.validEmail(newEmail)
      && oldEmail in db.users && oldEmail != newEmail && newEmail in db.users
    ensures r.status == OK ==>
      var oldEmail := Trimmed(body, "old_email");
      var newEmail := Trimmed(body, "email");
      && oldEmail in db.users && (oldEmail == newEmail || newEmail !in db.users)
      && r.store.students == db.students
      && r.store.users == (db.users - {oldEmail})[newEmail := db.users[oldEmail].(name := Trimmed(body, "name"))]
  {
    var oldEmail := Trimmed(body, "old_email");
    var name := Trimmed(body, "name");
    var newEmail := Trimmed(body, "email");
    if IncompleteAccountEdit(ctx, body) then Fail(db, BAD_REQUEST)
    else if oldEmail !in db.users then Fail(db, NOT_FOUND)
    else if oldEmail != newEmail && newEmail in db.users then Fail(db, CONFLICT)
    else if ctx.failAt == Some(UpdateStmt) then Fail(db, SERVER_ERROR)
    else Outcome(OK, db.(users := (db.users - {oldEmail})[newEmail := db.users[oldEmail].(name := name)]), Success(Done))
  }

  /** Every request keeps the students' emails distinct. */
  lemma RouteKeepsEmailsUnique(db: Db, ctx: Ctx, req: Request)
    requires EmailsUnique(db)
    ensures EmailsUnique(Route(db, ctx, req).store)
  {
    var r := Route(db, ctx, req);
    if r.store != db && r.store.students != db.students {
      var students := r.store.students;
      forall a, b | a in students && b in students && a != b
        ensures students[a].email != students[b].email
      {
        if req.verb == "POST" && Param(req.query, "action") == Some("change_password") {
          var id := req.body["student_id"].s;
          assert students == db.students[id := db.students[id].(password := ctx.foreign.hash(req.body["new_password"].s))];
          assert students[a].email == db.students[a].email;
        } else if req.verb == "DELETE" {
          assert students[a] == db.students[a] && students[b] == db.students[b];
        }
      }
    }
  }

  /** Keeping one's own email is never a conflict. */
  lemma SameEmailNeverConflicts(db: Db, ctx: Ctx, body: Body)
    requires Trimmed(body, "old_email") == Trimmed(body, "email")
    ensures UpdateAccount(db, ctx, body).status != CONFLICT
  {
  }

  /** The router: the session gate first, then the preflight, then `action`
      within each method. A DELETE takes the student id from the query string
      first and the body second. */
  function Route(db: Db, ctx: Ctx, req: Request): (r: Reply)
    ensures !req.authenticated ==> r.status == UNAUTHORIZED && r.store == db
    ensures req.authenticated && req.verb == "OPTIONS" ==> r.status == OK && r.store == db
    ensures r.status == METHOD_NOT_ALLOWED <==> req.authenticated && req.verb != "OPTIONS" && !KnownMethod(req.verb)
    ensures req.verb == "GET" ==> r.store == db
    ensures r.status != OK && r.status != CREATED ==> r.store == db
  {
    var q := req.query;
    var action := Param(q, "action");
    var body := req.body;
    if !req.authenticated then Fail(db, UNAUTHORIZED)
    else if req.verb == "OPTIONS" then Outcome(OK, db, Success(Done))
    else if req.verb == "GET" then
      if Empty(Param(q, "student_id")) then ListStudents(db, ctx, q) else GetStudent(db, q["student_id"])
    else if req.verb == "POST" then
      if action == Some("change_password") then ChangePassword(db, ctx, body)
      else if action == Some("change_user_password") then ChangeAccountPassword(db, ctx, body)
      else if action == Some("create_user_student") then CreateAccount(db, ctx, body)
      else CreateStudent(db, ctx, body)
    else if req.verb == "PUT" then
      if action == Some("update_user_student") then UpdateAccount(db, ctx, body) else UpdateStudent(db, ctx, body)
    else if req.verb == "DELETE" then
      if action == Some("delete_user_student") then DeleteAccount(db, ctx, body)
      else DeleteStudent(db, ctx, Coalesce(Param(q, "student_id"), Field(body, "student_id")))
    else Fail(db, METHOD_NOT_ALLOWED)
  }
}

=== FILE: assignments.dfy ===
/** The assignments endpoint: assignments (title, description, due date,
    attached file names) and their comments. Statements run without a
    transaction, and a failing statement raises an exception that the router
    turns into a 500. */
module Assignments {
  import opened Base
  import opened Strings
  import opened Php
  import opened Dates
  import opened Listing
  import opened Tables
  import opened Http

  /** The `files` column as stored: SQL NULL, the empty string, or the JSON
      encoding of a list of file names. */
  datatype FilesColumn = NoFiles | BlankFiles | Encoded(names: seq<string>)

  datatype Assignment = Assignment(
    title: string, description: string, dueDate: string, files: FilesColumn,
    createdAt: int, updatedAt: int)

  datatype Comment = Comment(assignmentId: int, author: string, text: string, createdAt: int)

  /** An assignment as a response shows it, with `files` decoded. */
  datatype AssignmentView = AssignmentView(
    title: string, description: string, dueDate: string, files: seq<string>,
    createdAt: int, updatedAt: int)

  type Db = Tables<int, Assignment, int, Comment>

  function AssignmentOf(c: Comment): int {
    c.assignmentId
  }

  datatype Payload =
    | AssignmentList(plan: Plan, rows: map<int, AssignmentView>)
    | OneAssignment(id: int, row: AssignmentView)
    | NewId(id: int)
    | CommentList(comments: map<int, Comment>)
    | NewComment(commentId: int, comment: Comment)
    | Done

  type Reply = Outcome<Db, Payload>

  /** A reply that sets an error status and carries `{"error": ...}`. */
  function Fail(db: Db, status: int): Reply {
    Outcome(status, db, Failure("error"))
  }

  /** A reply left at the default status 200 that carries
      `{"success": false, "message": ...}`. */
  function SoftFail(db: Db): Reply {
    Outcome(OK, db, Failure("message"))
  }

  /** The submitted `files` value, whatever its JSON type. */
  function FilesField(body: Body): Option<Value> {
    if "files" in body then Some(body["files"]) else None
  }

  /** `json_encode` of the submitted files; anything but an array is stored
      as the empty array. */
  function EncodeFiles(v: Option<Value>): (c: FilesColumn)
    ensures c.Encoded?
  {
    if v.Some? && v.value.List? then Encoded(v.value.items) else Encoded([])
  }

  /** Reading `files` back: a NULL or empty column reads as no files. */
  function DecodeFiles(c: FilesColumn): seq<string> {
    if c.Encoded? then c.names else []
  }

  /** Stored files read back as the submitted array, or as `[]` when what was
      submitted was not an array. */
  lemma FilesRoundTrip(v: Option<Value>)
    ensures DecodeFiles(EncodeFiles(v)) == if v.Some? && v.value.List? then v.value.items else []
  {
  }

  /** A column that was never written, or written as "", reads as no files. */
  lemma MissingFilesReadEmpty(c: FilesColumn)
    requires !c.Encoded?
    ensures DecodeFiles(c) == []
  {
  }

  function Shown(a: Assignment): (v: AssignmentView)
    ensures v.files == DecodeFiles(a.files)
    ensures v.title == a.title && v.description == a.description && v.dueDate == a.dueDate
  {
    AssignmentView(a.title, a.description, a.dueDate, DecodeFiles(a.files), a.createdAt, a.updatedAt)
  }

  const SortColumns: seq<string> := ["title", "due_date", "created_at"]
  const Directions: seq<string> := ["asc", "desc"]

  /** The list query tests `sort` and `order` with the loose `in_array`; on
      these whitelists it accepts exactly the identical entries. */
  lemma WhitelistsAreStrict(v: string)
    ensures LooseOnList(v, SortColumns) <==> OnList(v, SortColumns)
    ensures LooseOnList(v, Directions) <==> OnList(v, Directions)
  {
    forall i | 0 <= i < |SortColumns|
      ensures !IsNumeric(SortColumns[i])
    {
      NotNumericFromStart(SortColumns[i]);
    }
    LooseOnListIsStrict(v, SortColumns);
    forall i | 0 <= i < |Directions|
      ensures !IsNumeric(Directions[i])
    {
      NotNumericFromStart(Directions[i]);
    }
    LooseOnListIsStrict(v, Directions);
  }

  /** The list query: a search for any `search` other than "", used without
      trimming; a whitelisted sort column defaulting to `created_at`; the
      direction accepted in any case and emitted upper-cased, default `ASC`. */
  function ListPlan(q: Query): (p: Plan)
    ensures p.column in SortColumns
    ensures p.direction == "ASC" || p.direction == "DESC"
    ensures p.term.Some? <==> "search" in q && q["search"] != ""
    ensures p.term.Some? ==> p.term.value == q["search"]
    ensures "sort" in q && q["sort"] in SortColumns ==> p.column == q["sort"]
    ensures !("sort" in q && q["sort"] in SortColumns) ==> p.column == "created_at"
    ensures "order" in q && Lower(q["order"]) == "desc" ==> p.direction == "DESC"
    ensures !("order" in q && Lower(q["order"]) == "desc") ==> p.direction == "ASC"
  {
    var order := Param(q, "order");
    var direction :=
      if order.Some? && Lower(order.value) in Directions then
        UpperOfLower(order.value);
        Upper(order.value)
      else "ASC";
    Plan(
      if "search" in q && q["search"] != "" then Some(q["search"]) else None,
      Pick(Param(q, "sort"), SortColumns, "created_at"),
      direction)
  }

  function SearchFields(a: Assignment): seq<string> {
    [a.title, a.description]
  }

  /** `getAllAssignments`: the matching assignments with their files decoded. */
  function ListAssignments(db: Db, ctx: Ctx, q: Query): (r: Reply)
    ensures r.status == OK && r.store == db && r.envelope.Success?
    ensures r.envelope.data.AssignmentList? && r.envelope.data.plan == ListPlan(q)
    ensures var rows := r.envelope.data.rows;
      && rows.Keys <= db.parents.Keys
      && (forall k :: k in rows ==> rows[k] == Shown(db.parents[k]))
      && (forall k :: k in db.parents ==>
            (k in rows <==> Matches(SearchFields(db.parents[k]), ListPlan(q).term, ctx.caseInsensitive)))
  {
    var plan := ListPlan(q);
    var kept := Select(db.parents, SearchFields, plan.term, ctx.caseInsensitive);
    Outcome(OK, db, Success(AssignmentList(plan, map k | k in kept :: Shown(kept[k]))))
  }

  /** `getAssignmentById` */
  function GetAssignment(db: Db, id: string): (r: Reply)
    ensures r.store == db
    ensures r.status in {OK, BAD_REQUEST, NOT_FOUND}
    ensures r.status == BAD_REQUEST <==> EmptyString(id)
    ensures r.status == OK <==> !EmptyString(id) && IntCast(id) in db.parents
    ensures r.status == OK ==> r.envelope == Success(OneAssignment(IntCast(id), Shown(db.parents[IntCast(id)])))
  {
    if EmptyString(id) then Fail(db, BAD_REQUEST)
    else
      var k := IntCast(id);
      if k in db.parents then Outcome(OK, db, Success(OneAssignment(k, Shown(db.parents[k]))))
      else Fail(db, NOT_FOUND)
  }

  /** What `createAssignment` refuses: a title, description or due date
      missing or blank after trimming, or a trimmed due date that is not a
      real `Y-m-d` date. */
  predicate IncompleteAssignment(body: Body) {
    || Blank(Field(body, "title")) || Blank(Field(body, "description")) || Blank(Field(body, "due_date"))
    || !ValidDate(Trim(body["due_date"].s))
  }

  /** `createAssignment`: title, description and due date must be non-blank
      after trimming, and the trimmed due date must be a real `Y-m-d` date.
      Title and description are stored escaped, the due date as given
      (trimmed), and the files as an encoded array. */
  function CreateAssignment(db: Db, ctx: Ctx, body: Body): (r: Reply)
    requires ctx.nextId !in db.parents
    ensures r.status in {CREATED, BAD_REQUEST, SERVER_ERROR}
    ensures r.status != CREATED ==> r.store == db
    ensures r.status == BAD_REQUEST <==> IncompleteAssignment(body)
    ensures r.status == SERVER_ERROR <==> !IncompleteAssignment(body) && ctx.failAt == Some(InsertStmt)
    ensures r.status == CREATED ==>
      && r.envelope == Success(NewId(ctx.nextId))
      && r.store.children == db.children
      && r.store.parents.Keys == db.parents.Keys + {ctx.nextId}
      && (forall k :: k in db.parents ==> r.store.parents[k] == db.parents[k])
      && var a := r.store.parents[ctx.nextId];
         && a.title == ctx.foreign.escape(Trim(body["title"].s))
         && a.description == ctx.foreign.escape(Trim(body["description"].s))
         && ValidDate(a.dueDate) && a.dueDate == Trim(body["due_date"].s)
         && DecodeFiles(a.files) == (if FilesField(body).Some? && body["files"].List? then body["files"].items else [])
         && a.createdAt == a.updatedAt == ctx.now
  {
    if IncompleteAssignment(body) then Fail(db, BAD_REQUEST)
    else if ctx.failAt == Some(InsertStmt) then Fail(db, SERVER_ERROR)
    else
      var f := ctx.foreign;
      var dueDate := Trim(body["due_date"].s);
      FilesRoundTrip(FilesField(body));
      var row := Assignment(f.escape(Trim(body["title"].s)), f.escape(Trim(body["description"].s)), dueDate,
                            EncodeFiles(FilesField(body)), ctx.now, ctx.now);
      Outcome(CREATED, db.(parents := db.parents[ctx.nextId := row]), Success(NewId(ctx.nextId)))
  }

  /** A created assignment can be fetched back by its printed id, unless the
      id is 0, which `empty()` refuses; it shows the trimmed due date and
      the submitted files. */
  lemma CreateThenGet(db: Db, ctx: Ctx, body: Body)
    requires ctx.nextId !in db.parents
    requires CreateAssignment(db, ctx, body).status == CREATED
    ensures var got := GetAssignment(CreateAssignment(db, ctx, body).store, Decimal(ctx.nextId));
      && (got.status == OK <==> ctx.nextId != 0)
      && (got.status == OK ==>
            && got.envelope.data.id == ctx.nextId
            && got.envelope.data.row.title == ctx.foreign.escape(Trim(body["title"].s))
            && got.envelope.data.row.dueDate == Trim(body["due_date"].s)
            && got.envelope.data.row.files == (if FilesField(body).Some? && body["files"].List? then body["files"].items else []))
  {
    IntCastDecimal(ctx.nextId);
    DecimalEmptyOnlyZero(ctx.nextId);
  }

  /** The row an update asks for: each field present in the body is replaced
      (title and description trimmed and escaped, the due date trimmed, the
      files encoded) and `updated_at` is set to the clock. */
  function Revised(ctx: Ctx, row: Assignment, body: Body): Assignment {
    var title := Field(body, "title");
    var description := Field(body, "description");
    var dueDate := Field(body, "due_date");
    row.(
      title := if title.Some? then ctx.foreign.escape(Trim(title.value)) else row.title,
      description := if description.Some? then ctx.foreign.escape(Trim(description.value)) else row.description,
      dueDate := if dueDate.Some? then Trim(dueDate.value) else row.dueDate,
      files := if FilesField(body).Some? then EncodeFiles(FilesField(body)) else row.files,
      updatedAt := ctx.now)
  }

  /** No field of the update is present. */
  predicate NothingToSet(body: Body) {
    Field(body, "title").None? && Field(body, "description").None? && Field(body, "due_date").None?
    && FilesField(body).None?
  }

  /** `updateAssignment`. A present but invalid due date is refused before
      anything is written. An update that changes nothing answers
      `success: false` with the default status 200. */
  function UpdateAssignment(db: Db, ctx: Ctx, body: Body): (r: Reply)
    ensures r.status in {OK, BAD_REQUEST, NOT_FOUND, SERVER_ERROR}
    ensures r.status != OK || r.envelope.Failure? ==> r.store == db
    ensures r.status == NOT_FOUND <==> !Blank(Field(body, "id")) && IntCast(body["id"].s) !in db.parents
    ensures r.status == BAD_REQUEST <==>
      || Blank(Field(body, "id"))
      || (IntCast(body["id"].s) in db.parents
          && ((Field(body, "due_date").Some? && !ValidDate(Trim(body["due_date"].s))) || NothingToSet(body)))
    ensures r.status == SERVER_ERROR <==>
      && !Blank(Field(body, "id")) && IntCast(body["id"].s) in db.parents
      && !(Field(body, "due_date").Some? && !ValidDate(Trim(body["due_date"].s))) && !NothingToSet(body)
      && ctx.failAt == Some(UpdateStmt)
    ensures r.status == OK ==>
      var k := IntCast(body["id"].s);
      && k in db.parents
      && r.store == db.(parents := db.parents[k := Revised(ctx, db.parents[k], body)])
      && (r.envelope.Success? <==> Revised(ctx, db.parents[k], body) != db.parents[k])
      && ValidDate(r.store.parents[k].dueDate) == (ValidDate(db.parents[k].dueDate) || Field(body, "due_date").Some?)
  {
    var id := Field(body, "id");
    if Blank(id) then Fail(db, BAD_REQUEST)
    else
      var k := IntCast(id.value);
      if k !in db.parents then Fail(db, NOT_FOUND)
      else
        var dueDate := Field(body, "due_date");
        if dueDate.Some? && !ValidDate(Trim(dueDate.value)) then Fail(db, BAD_REQUEST)
        else if NothingToSet(body) then Fail(db, BAD_REQUEST)
        else if ctx.failAt == Some(UpdateStmt) then Fail(db, SERVER_ERROR)
        else
          var row := Revised(ctx, db.parents[k], body);
          if row == db.parents[k] then SoftFail(db)
          else Outcome(OK, db.(parents := db.parents[k := row]), Success(Done))
  }

  /** `deleteAssignment`: comments first, then the assignment, as two
      separate statements; a failure of the second leaves the comments gone. */
  function DeleteAssignment(db: Db, ctx: Ctx, id: string): (r: Reply)
    ensures r.status in {OK, BAD_REQUEST, NOT_FOUND, SERVER_ERROR}
    ensures r.status == BAD_REQUEST <==> IntCast(id) <= 0
    ensures r.status == NOT_FOUND <==> IntCast(id) > 0 && IntCast(id) !in db.parents
    ensures r.status == SERVER_ERROR <==> IntCast(id) > 0 && IntCast(id) in db.parents && HitsStatement(DeleteFault(ctx))
    ensures r.status == OK ==> r.store == Cascade(db, AssignmentOf, IntCast(id))
    ensures r.status != OK ==> r.store.parents == db.parents
    ensures r.status != OK ==>
      r.store == db || r.store.children == DropChildren(db.children, AssignmentOf, IntCast(id))
  {
    var k := IntCast(id);
    if k <= 0 then Fail(db, BAD_REQUEST)
    else if k !in db.parents then Fail(db, NOT_FOUND)
    else
      var (done, after) := SequentialDelete(db, AssignmentOf, k, DeleteFault(ctx));
      if done then Outcome(OK, after, Success(Done)) else Fail(after, SERVER_ERROR)
  }

  /** `getCommentsByAssignment`: the comments of one assignment. */
  function ListComments(db: Db, id: string): (r: Reply)
    ensures r.store == db
    ensures r.status in {OK, BAD_REQUEST}
    ensures r.status == BAD_REQUEST <==> EmptyString(id)
    ensures r.status == OK ==> r.envelope.Success? && r.envelope.data.CommentList?
    ensures r.status == OK ==> var rows := r.envelope.data.comments;
      forall j :: (j in rows <==> j in db.children && db.children[j].assignmentId == IntCast(id))
  {
    if EmptyString(id) then Fail(db, BAD_REQUEST)
    else Outcome(OK, db, Success(CommentList(ChildrenOf(db.children, AssignmentOf, IntCast(id)))))
  }

  /** `createComment`: the three keys must be present, author and text
      non-blank after trimming, and the assignment must exist. Success keeps
      the default status 200 and echoes the stored comment. */
  function CreateComment(db: Db, ctx: Ctx, body: Body): (r: Reply)
    requires ctx.nextId !in db.children
    ensures r.status in {OK, BAD_REQUEST, NOT_FOUND, SERVER_ERROR}
    ensures r.status != OK ==> r.store == db
    ensures r.status == BAD_REQUEST <==>
      || Field(body, "assignment_id").None? || Blank(Field(body, "author")) || Blank(Field(body, "text"))
    ensures r.status == NOT_FOUND <==> r.status != BAD_REQUEST && IntCast(body["assignment_id"].s) !in db.parents
    ensures r.status == SERVER_ERROR <==>
      && r.status != BAD_REQUEST && IntCast(body["assignment_id"].s) in db.parents
      && ctx.failAt == Some(InsertStmt)
    ensures r.status == OK ==>
      var c := Comment(IntCast(body["assignment_id"].s), Trim(body["author"].s), Trim(body["text"].s), ctx.now);
      && r.envelope == Success(NewComment(ctx.nextId, c))
      && r.store == db.(children := db.children[ctx.nextId := c])
      && c.assignmentId in db.parents
  {
    var aid := Field(body, "assignment_id");
    var author := Field(body, "author");
    var text := Field(body, "text");
    if aid.None? || author.None? || text.None? then Fail(db, BAD_REQUEST)
    else
      var k := IntCast(aid.value);
      var a := Trim(author.value);
      var t := Trim(text.value);
      if a == "" || t == "" then Fail(db, BAD_REQUEST)
      else if k !in db.parents then Fail(db, NOT_FOUND)
      else if ctx.failAt == Some(InsertStmt) then Fail(db, SERVER_ERROR)
      else
        var c := Comment(k, a, t, ctx.now);
        Outcome(OK, db.(children := db.children[ctx.nextId := c]), Success(NewComment(ctx.nextId, c)))
  }

  /** `deleteComment`: a missing or unknown id answers `success: false` with
      status 200; only a failing delete statement reaches the router's 500. */
  function DeleteComment(db: Db, ctx: Ctx, id: string): (r: Reply)
    ensures r.status in {OK, SERVER_ERROR}
    ensures r.status == SERVER_ERROR || r.envelope.Failure? ==> r.store == db
    ensures r.envelope.Success? <==> !EmptyString(id) && IntCast(id) in db.children && ctx.failAt != Some(DeleteRowStmt)
    ensures r.status == SERVER_ERROR <==> !EmptyString(id) && IntCast(id) in db.children && ctx.failAt == Some(DeleteRowStmt)
    ensures r.envelope.Success? ==> r.store == db.(children := db.children - {IntCast(id)})
  {
    if EmptyString(id) then SoftFail(db)
    else
      var j := IntCast(id);
      if j !in db.children then SoftFail(db)
      else if ctx.failAt == Some(DeleteRowStmt) then Fail(db, SERVER_ERROR)
      else Outcome(OK, db.(children := db.children - {j}), Success(Done))
  }

  /** The router: `resource` selects assignments or comments; a missing
      `resource` is refused before the method is looked at. */
  function Route(db: Db, ctx: Ctx, req: Request): (r: Reply)
    requires ctx.nextId !in db.parents && ctx.nextId !in db.children
    ensures req.verb == "OPTIONS" ==> r.status == NO_CONTENT
    ensures r.status == METHOD_NOT_ALLOWED <==>
      req.verb != "OPTIONS" && !Empty(Param(req.query, "resource")) && !KnownMethod(req.verb)
    ensures req.verb != "OPTIONS" && Empty(Param(req.query, "resource")) ==> r.status == BAD_REQUEST
    ensures (KnownMethod(req.verb) && !Empty(Param(req.query, "resource"))
             && req.query["resource"] != "assignments" && req.query["resource"] != "comments")
            ==> r.status == BAD_REQUEST
    ensures req.verb == "GET" || req.verb == "OPTIONS" ==> r.store == db
    ensures Integrity(db, AssignmentOf) ==> Integrity(r.store, AssignmentOf)
  {
    var q := req.query;
    var resource := Param(q, "resource");
    if req.verb == "OPTIONS" then Outcome(NO_CONTENT, db, Success(Done))
    else if Empty(resource) then Fail(db, BAD_REQUEST)
    else if !KnownMethod(req.verb) then Fail(db, METHOD_NOT_ALLOWED)
    else if resource.value != "assignments" && resource.value != "comments" then Fail(db, BAD_REQUEST)
    else
      var onAssignments := resource.value == "assignments";
      if req.verb == "GET" then
        if onAssignments then
          if "id" in q then GetAssignment(db, q["id"]) else ListAssignments(db, ctx, q)
        else if "assignment_id" in q then ListComments(db, q["assignment_id"])
        else Fail(db, BAD_REQUEST)
      else Write(db, ctx, req, onAssignments)
  }

  /** The writing half of the router: POST, PUT and DELETE on assignments
      or comments. */
  function Write(db: Db, ctx: Ctx, req: Request, onAssignments: bool): (r: Reply)
    requires ctx.nextId !in db.parents && ctx.nextId !in db.children
    requires KnownMethod(req.verb) && req.verb != "GET"
    ensures r.status != METHOD_NOT_ALLOWED && r.status != NO_CONTENT
    ensures Integrity(db, AssignmentOf) ==> Integrity(r.store, AssignmentOf)
  {
    if req.verb == "POST" then Post(db, ctx, req.body, onAssignments)
    else if req.verb == "PUT" then
      if onAssignments then UpdateAssignment(db, ctx, req.body) else Fail(db, BAD_REQUEST)
    else
      if "id" !in req.query then Fail(db, BAD_REQUEST)
      else Delete(db, ctx, req.query["id"], onAssignments)
  }

  /** A `POST` creates an assignment or a comment, as the path says. */
  function Post(db: Db, ctx: Ctx, body: Body, onAssignments: bool): (r: Reply)
    requires ctx.nextId !in db.parents && ctx.nextId !in db.children
    ensures r.status != METHOD_NOT_ALLOWED && r.status != NO_CONTENT
    ensures Integrity(db, AssignmentOf) ==> Integrity(r.store, AssignmentOf)
  {
    if onAssignments then CreateAssignment(db, ctx, body) else CreateComment(db, ctx, body)
  }

  /** A `DELETE` removes an assignment with its comments, or one comment. */
  function Delete(db: Db, ctx: Ctx, id: string, onAssignments: bool): (r: Reply)
    ensures r.status != METHOD_NOT_ALLOWED && r.status != NO_CONTENT
    ensures Integrity(db, AssignmentOf) ==> Integrity(r.store, AssignmentOf)
  {
    if onAssignments then DeleteAssignment(db, ctx, id) else DeleteComment(db, ctx, id)
  }

  /** Every accepted update leaves the assignment with a real due date if it
      had one or if the update supplied one. */
  lemma UpdateKeepsDueDatesValid(db: Db, ctx: Ctx, body: Body)
    requires forall k :: k in db.parents ==> ValidDate(db.parents[k].dueDate)
    ensures var r := UpdateAssignment(db, ctx, body);
      forall k :: k in r.store.parents ==> ValidDate(r.store.parents[k].dueDate)
  {
  }
}

=== FILE: base.dfy ===
/** The optional-value type used throughout the model: a PHP `null` or an
    unset array key is `None`. */
module Base {

  datatype Option<+T> = None | Some(value: T) {

    function GetOr(default: T): T {
      match this
      case Some(v) => v
      case None => default
    }
  }
}

=== FILE: dates.dfy ===
/** `validateDate`: `DateTime::createFromFormat('Y-m-d', $s)` followed by
    `format('Y-m-d') === $s`. Parsing rolls an out-of-range month or day over
    into the next month or year, and the year field reads at most four digits,
    so the round trip succeeds exactly on zero-padded, four-digit-year,
    real calendar dates. */
module Dates {
  import opened Strings
  import opened Php

  /** Gregorian leap years. */
  predicate IsLeap(y: int) {
    (y % 4 == 0 && y % 100 != 0) || y % 400 == 0
  }

  function DaysIn(y: int, m: int): (n: int)
    requires 1 <= m <= 12
    ensures 28 <= n <= 31
  {
    if m == 2 then (if IsLeap(y) then 29 else 28)
    else if m == 4 || m == 6 || m == 9 || m == 11 then 30
    else 31
  }

  /** A day that exists in the calendar, with a year `Y-m-d` prints in four digits. */
  predicate RealDate(y: int, m: int, d: int) {
    0 <= y <= 9999 && 1 <= m <= 12 && 1 <= d <= DaysIn(y, m)
  }

  /** `n` as exactly `width` digits, zero-padded on the left. */
  function Pad(n: nat, width: nat): (s: string)
    requires n < Pow10(width)
    ensures |s| == width
    ensures forall k :: 0 <= k < |s| ==> IsDigit(s[k])
  {
    if width == 0 then "" else Pad(n / 10, width - 1) + [DigitChar(n % 10)]
  }

  function Pow10(k: nat): (p: nat)
    ensures p >= 1
  {
    if k == 0 then 1 else 10 * Pow10(k - 1)
  }

  lemma {:induction false} PadValue(n: nat, width: nat)
    requires n < Pow10(width)
    ensures DigitsValue(Pad(n, width)) == n
  {
    if width > 0 {
      var s := Pad(n, width);
      PadValue(n / 10, width - 1);
      assert s[..|s| - 1] == Pad(n / 10, width - 1);
    }
  }

  lemma {:induction false} PadOfValue(s: string)
    requires forall k :: 0 <= k < |s| ==> IsDigit(s[k])
    ensures DigitsValue(s) < Pow10(|s|)
    ensures Pad(DigitsValue(s), |s|) == s
  {
    if |s| > 0 {
      var init := s[..|s| - 1];
      PadOfValue(init);
      var v := DigitsValue(s);
      var d := s[|s| - 1] as int - '0' as int;
      assert v == DigitsValue(init) * 10 + d;
      assert v / 10 == DigitsValue(init) && v % 10 == d;
      assert DigitChar(d) == s[|s| - 1];
      assert s == init + [s[|s| - 1]];
    }
  }

  /** `$d->format('Y-m-d')` */
  function FormatYmd(y: nat, m: nat, d: nat): (s: string)
    requires y <= 9999 && m <= 99 && d <= 99
    ensures |s| == 10 && s[4] == '-' && s[7] == '-'
  {
    Pad(y, 4) + "-" + Pad(m, 2) + "-" + Pad(d, 2)
  }

  /** The shape `DDDD-DD-DD`. */
  predicate Shaped(s: string) {
    && |s| == 10 && s[4] == '-' && s[7] == '-'
    && (forall k :: 0 <= k < 4 ==> IsDigit(s[k]))
    && (forall k :: 5 <= k < 7 ==> IsDigit(s[k]))
    && (forall k :: 8 <= k < 10 ==> IsDigit(s[k]))
  }

  function YearOf(s: string): nat
    requires Shaped(s)
  {
    DigitsValue(s[0..4])
  }

  function MonthOf(s: string): nat
    requires Shaped(s)
  {
    DigitsValue(s[5..7])
  }

  function DayOf(s: string): nat
    requires Shaped(s)
  {
    DigitsValue(s[8..10])
  }

  /** `validateDate($s)` */
  predicate ValidDate(s: string) {
    Shaped(s) && RealDate(YearOf(s), MonthOf(s), DayOf(s))
  }

  /** Every string the check accepts is the printed form of the date it names. */
  lemma ValidDateIsFormatted(s: string)
    requires ValidDate(s)
    ensures FormatYmd(YearOf(s), MonthOf(s), DayOf(s)) == s
  {
    PadOfValue(s[0..4]);
    PadOfValue(s[5..7]);
    PadOfValue(s[8..10]);
    assert s == s[0..4] + "-" + s[5..7] + "-" + s[8..10];
  }

  /** The three fields of a printed date sit at fixed positions. */
  lemma FormatYmdFields(y: nat, m: nat, d: nat)
    requires y <= 9999 && m <= 99 && d <= 99
    ensures Shaped(FormatYmd(y, m, d))
    ensures FormatYmd(y, m, d)[0..4] == Pad(y, 4)
    ensures FormatYmd(y, m, d)[5..7] == Pad(m, 2)
    ensures FormatYmd(y, m, d)[8..10] == Pad(d, 2)
  {
    var a, b, c := Pad(y, 4), Pad(m, 2), Pad(d, 2);
    var s := FormatYmd(y, m, d);
    assert s == a + "-" + b + "-" + c;
    assert s[0..4] == a;
    assert s[5..7] == b;
    assert s[8..10] == c;
    forall k | 0 <= k < 10 && k != 4 && k != 7
      ensures IsDigit(s[k])
    {
      if k < 4 {
        assert s[k] == a[k];
      } else if k < 7 {
        assert s[k] == b[k - 5];
      } else {
        assert s[k] == c[k - 8];
      }
    }
  }

  /** Every real date, printed, passes the check and reads back as itself. */
  lemma FormattedDateIsValid(y: nat, m: nat, d: nat)
    requires RealDate(y, m, d)
    ensures ValidDate(FormatYmd(y, m, d))
    ensures YearOf(FormatYmd(y, m, d)) == y
    ensures MonthOf(FormatYmd(y, m, d)) == m
    ensures DayOf(FormatYmd(y, m, d)) == d
  {
    FormatYmdFields(y, m, d);
    PadValue(y, 4);
    PadValue(m, 2);
    PadValue(d, 2);
  }

  /** February 30 does not exist, so "2024-02-30" is refused even though it
      has the right shape. */
  lemma February30Refused()
    ensures Shaped("2024-02-30") && !ValidDate("2024-02-30")
  {
    assert "2024-02-30"[5..7] == "02";
    assert "2024-02-30"[8..10] == "30";
    assert DigitsValue("02") == 2 by {
      assert "02"[..1] == "0";
    }
    assert DigitsValue("30") == 30 by {
      assert "30"[..1] == "3";
    }
  }

  /** 29 February exists only in leap years. */
  lemma LeapDay(y: nat)
    requires y <= 9999
    ensures RealDate(y, 2, 29) <==> IsLeap(y)
  {
  }
}

=== FILE: discussion.dfy ===
/** The discussion-board endpoint: topics and their replies, both keyed by
    client-chosen string ids. Every request needs a logged-in session. */
module Discussion {
  import opened Base
  import opened Strings
  import opened Php
  import opened Listing
  import opened Tables
  import opened Http

  datatype Topic = Topic(subject: string, message: string, author: string, createdAt: int)
  datatype Reply = Reply(topicId: string, text: string, author: string, createdAt: int)

  /** `topics` keyed by `topic_id`, `replies` keyed by `reply_id`. */
  type Db = Tables<string, Topic, string, Reply>

  function TopicOf(r: Reply): string {
    r.topicId
  }

  datatype Payload =
    | TopicList(plan: Plan, rows: map<string, Topic>)
    | OneTopic(topicId: string, topic: Topic)
    | TopicCreated(newTopicId: string)
    | ReplyList(replies: map<string, Reply>)
    | ReplyCreated(newReplyId: string)
    | Done

  type Answer = Outcome<Db, Payload>

  function Fail(db: Db, status: int): Answer {
    Outcome(status, db, Failure("message"))
  }

  const SortColumns: seq<string> := ["subject", "author", "created_at"]
  const Directions: seq<string> := ["asc", "desc"]

  /** The list query: a search for a non-empty `search`, used untrimmed; a
      whitelisted sort column defaulting to `created_at`; the lower-cased
      order, defaulting to `desc`. */
  function ListPlan(q: Query): (p: Plan)
    ensures p.column in SortColumns && p.direction in Directions
    ensures p.term.Some? <==> !Empty(Param(q, "search"))
    ensures p.term.Some? ==> p.term.value == q["search"]
    ensures "sort" in q && q["sort"] in SortColumns ==> p.column == q["sort"]
    ensures !("sort" in q && q["sort"] in SortColumns) ==> p.column == "created_at"
    ensures "order" in q && Lower(q["order"]) in Directions ==> p.direction == Lower(q["order"])
    ensures !("order" in q && Lower(q["order"]) in Directions) ==> p.direction == "desc"
  {
    var search := Param(q, "search");
    Plan(
      if Empty(search) then None else search,
      Pick(Param(q, "sort"), SortColumns, "created_at"),
      Pick(Some(Lower(Param(q, "order").GetOr("desc"))), Directions, "desc"))
  }

  function SearchFields(t: Topic): seq<string> {
    [t.subject, t.message, t.author]
  }

  /** `getAllTopics` */
  function ListTopics(db: Db, ctx: Ctx, q: Query): (r: Answer)
    ensures r.status == OK && r.store == db && r.envelope.Success?
    ensures r.envelope.data.TopicList? && r.envelope.data.plan == ListPlan(q)
    ensures var rows := r.envelope.data.rows;
      && rows.Keys <= db.parents.Keys
      && (forall k :: k in rows ==> rows[k] == db.parents[k])
      && (forall k :: k in db.parents ==>
            (k in rows <==> Matches(SearchFields(db.parents[k]), ListPlan(q).term, ctx.caseInsensitive)))
  {
    var plan := ListPlan(q);
    Outcome(OK, db, Success(TopicList(plan, Select(db.parents, SearchFields, plan.term, ctx.caseInsensitive))))
  }

  /** `getTopicById`: the id is looked up as given. */
  function GetTopic(db: Db, id: Option<string>): (r: Answer)
    ensures r.store == db
    ensures r.status in {OK, BAD_REQUEST, NOT_FOUND}
    ensures r.status == BAD_REQUEST <==> Empty(id)
    ensures r.status == OK <==> !Empty(id) && id.value in db.parents
    ensures r.status == OK ==> r.envelope == Success(OneTopic(id.value, db.parents[id.value]))
  {
    if Empty(id) then Fail(db, BAD_REQUEST)
    else if id.value in db.parents then Outcome(OK, db, Success(OneTopic(id.value, db.parents[id.value])))
    else Fail(db, NOT_FOUND)
  }

  /** `createTopic`: all four fields must be non-empty; they are stored
      sanitized, and an already used (sanitized) `topic_id` answers 409. */
  function CreateTopic(db: Db, ctx: Ctx, body: Body): (r: Answer)
    ensures r.status in {CREATED, BAD_REQUEST, CONFLICT, SERVER_ERROR}
    ensures r.status != CREATED ==> r.store == db
    ensures r.status == BAD_REQUEST <==>
      Empty(Field(body, "topic_id")) || Empty(Field(body, "subject"))
      || Empty(Field(body, "message")) || Empty(Field(body, "author"))
    ensures r.status == CONFLICT <==>
      r.status != BAD_REQUEST && Sanitize(ctx.foreign, body["topic_id"].s) in db.parents
    ensures r.status == SERVER_ERROR <==>
      && r.status != BAD_REQUEST && Sanitize(ctx.foreign, body["topic_id"].s) !in db.parents
      && ctx.failAt == Some(InsertStmt)
    ensures r.status == CREATED ==>
      var id := Sanitize(ctx.foreign, body["topic_id"].s);
      && id !in db.parents
      && r.envelope == Success(TopicCreated(id))
      && r.store == db.(parents := db.parents[id := Topic(
           Sanitize(ctx.foreign, body["subject"].s), Sanitize(ctx.foreign, body["message"].s),
           Sanitize(ctx.foreign, body["author"].s), ctx.now)])
  {
    var tid := Field(body, "topic_id");
    var subject := Field(body, "subject");
    var message := Field(body, "message");
    var author := Field(body, "author");
    if Empty(tid) || Empty(subject) || Empty(message) || Empty(author) then Fail(db, BAD_REQUEST)
    else
      var f := ctx.foreign;
      var id := Sanitize(f, tid.value);
      if id in db.parents then Fail(db, CONFLICT)
      else if ctx.failAt == Some(InsertStmt) then Fail(db, SERVER_ERROR)
      else
        var t := Topic(Sanitize(f, subject.value), Sanitize(f, message.value), Sanitize(f, author.value), ctx.now);
        Outcome(CREATED, db.(parents := db.parents[id := t]), Success(TopicCreated(id)))
  }

  /** Posting the same topic twice creates one row: the second attempt is a
      409 that changes nothing. */
  lemma CreateTopicTwiceConflicts(db: Db, ctx: Ctx, body: Body)
    requires CreateTopic(db, ctx, body).status == CREATED
    ensures var once := CreateTopic(db, ctx, body).store;
      && CreateTopic(once, ctx, body).status == CONFLICT
      && CreateTopic(once, ctx, body).store == once
      && |once.parents| == |db.parents| + 1
  {
  }

  /** A created topic can be fetched back by the id the reply reports,
      unless sanitizing left that id `empty()`. */
  lemma CreateThenGet(db: Db, ctx: Ctx, body: Body)
    requires CreateTopic(db, ctx, body).status == CREATED
    ensures var created := CreateTopic(db, ctx, body);
      var id := created.envelope.data.newTopicId;
      var got := GetTopic(created.store, Some(id));
      && (got.status == OK <==> !EmptyString(id))
      && (got.status == OK ==> got.envelope == Success(OneTopic(id, Topic(
            Sanitize(ctx.foreign, body["subject"].s), Sanitize(ctx.foreign, body["message"].s),
            Sanitize(ctx.foreign, body["author"].s), ctx.now))))
  {
  }

  /** The topic an update asks for: a non-empty subject or message replaces
      the stored one, sanitized. */
  function Revised(f: Foreign, t: Topic, body: Body): Topic {
    var subject := Field(body, "subject");
    var message := Field(body, "message");
    t.(subject := if Empty(subject) then t.subject else Sanitize(f, subject.value),
       message := if Empty(message) then t.message else Sanitize(f, message.value))
  }

  /** `updateTopic`: success even when no column actually changes. */
  function UpdateTopic(db: Db, ctx: Ctx, body: Body): (r: Answer)
    ensures r.status in {OK, BAD_REQUEST, NOT_FOUND, SERVER_ERROR}
    ensures r.status != OK ==> r.store == db
    ensures r.status == NOT_FOUND <==>
      !Empty(Field(body, "topic_id")) && Sanitize(ctx.foreign, body["topic_id"].s) !in db.parents
    ensures r.status == BAD_REQUEST <==>
      || Empty(Field(body, "topic_id"))
      || (Sanitize(ctx.foreign, body["topic_id"].s) in db.parents
          && Empty(Field(body, "subject")) && Empty(Field(body, "message")))
    ensures r.status == SERVER_ERROR <==>
      && !Empty(Field(body, "topic_id")) && Sanitize(ctx.foreign, body["topic_id"].s) in db.parents
      && !(Empty(Field(body, "subject")) && Empty(Field(body, "message")))
      && ctx.failAt == Some(UpdateStmt)
    ensures r.status == OK <==>
      && !Empty(Field(body, "topic_id")) && Sanitize(ctx.foreign, body["topic_id"].s) in db.parents
      && !(Empty(Field(body, "subject")) && Empty(Field(body, "message")))
      && ctx.failAt != Some(UpdateStmt)
    ensures r.status == OK ==>
      var id := Sanitize(ctx.foreign, body["topic_id"].s);
      && r.envelope.Success?
      && r.store == db.(parents := db.parents[id := Revised(ctx.foreign, db.parents[id], body)])
      && r.store.parents[id].author == db.parents[id].author
  {
    var tid := Field(body, "topic_id");
    if Empty(tid) then Fail(db, BAD_REQUEST)
    else
      var id := Sanitize(ctx.foreign, tid.value);
      if id !in db.parents then Fail(db, NOT_FOUND)
      else if Empty(Field(body, "subject")) && Empty(Field(body, "message")) then Fail(db, BAD_REQUEST)
      else if ctx.failAt == Some(UpdateStmt) then Fail(db, SERVER_ERROR)
      else Outcome(OK, db.(parents := db.parents[id := Revised(ctx.foreign, db.parents[id], body)]), Success(Done))
  }

  /** Sending the same update twice: the second one changes nothing, and
      still answers 200, because the affected-row count is not consulted. */
  lemma RepeatedUpdateSucceeds(db: Db, ctx: Ctx, body: Body)
    requires UpdateTopic(db, ctx, body).status == OK
    ensures var once := UpdateTopic(db, ctx, body).store;
      && UpdateTopic(once, ctx, body).status == OK
      && UpdateTopic(once, ctx, body).store == once
  {
    var id := Sanitize(ctx.foreign, body["topic_id"].s);
    var once := UpdateTopic(db, ctx, body).store;
    assert Revised(ctx.foreign, once.parents[id], body) == once.parents[id];
    assert once.parents[id := once.parents[id]] == once.parents;
  }

  /** `deleteTopic`: replies, then the topic, as two separate statements. */
  function DeleteTopic(db: Db, ctx: Ctx, id: Option<string>): (r: Answer)
    ensures r.status in {OK, BAD_REQUEST, NOT_FOUND, SERVER_ERROR}
    ensures r.status == BAD_REQUEST <==> Empty(id)
    ensures r.status == NOT_FOUND <==> !Empty(id) && Sanitize(ctx.foreign, id.value) !in db.parents
    ensures r.status == SERVER_ERROR <==>
      !Empty(id) && Sanitize(ctx.foreign, id.value) in db.parents && HitsStatement(DeleteFault(ctx))
    ensures r.status == OK ==> r.store == Cascade(db, TopicOf, Sanitize(ctx.foreign, id.value))
    ensures r.status != OK ==> r.store.parents == db.parents
    ensures r.status != OK ==>
      r.store == db || (id.Some? && r.store.children == DropChildren(db.children, TopicOf, Sanitize(ctx.foreign, id.value)))
  {
    if Empty(id) then Fail(db, BAD_REQUEST)
    else
      var k := Sanitize(ctx.foreign, id.value);
      if k !in db.parents then Fail(db, NOT_FOUND)
      else
        var (done, after) := SequentialDelete(db, TopicOf, k, DeleteFault(ctx));
        if done then Outcome(OK, after, Success(Done)) else Fail(after, SERVER_ERROR)
  }

  /** `getRepliesByTopicId` */
  function ListReplies(db: Db, ctx: Ctx, id: Option<string>): (r: Answer)
    ensures r.store == db
    ensures r.status in {OK, BAD_REQUEST}
    ensures r.status == BAD_REQUEST <==> Empty(id)
    ensures r.status == OK ==> r.envelope.Success? && r.envelope.data.ReplyList?
    ensures r.status == OK ==> var rows := r.envelope.data.replies;
      forall j :: (j in rows <==> j in db.children && db.children[j].topicId == Sanitize(ctx.foreign, id.value))
  {
    if Empty(id) then Fail(db, BAD_REQUEST)
    else Outcome(OK, db, Success(ReplyList(ChildrenOf(db.children, TopicOf, Sanitize(ctx.foreign, id.value)))))
  }

  /** `createReply`: the topic must exist (404) and, only then, the reply id
      must be new (409). */
  function CreateReply(db: Db, ctx: Ctx, body: Body): (r: Answer)
    ensures r.status in {CREATED, BAD_REQUEST, NOT_FOUND, CONFLICT, SERVER_ERROR}
    ensures r.status != CREATED ==> r.store == db
    ensures r.status == BAD_REQUEST <==>
      Empty(Field(body, "reply_id")) || Empty(Field(body, "topic_id"))
      || Empty(Field(body, "text")) || Empty(Field(body, "author"))
    ensures r.status == NOT_FOUND <==>
      r.status != BAD_REQUEST && Sanitize(ctx.foreign, body["topic_id"].s) !in db.parents
    ensures r.status == CONFLICT <==>
      && r.status != BAD_REQUEST && Sanitize(ctx.foreign, body["topic_id"].s) in db.parents
      && Sanitize(ctx.foreign, body["reply_id"].s) in db.children
    ensures r.status == SERVER_ERROR <==>
      && r.status != BAD_REQUEST && Sanitize(ctx.foreign, body["topic_id"].s) in db.parents
      && Sanitize(ctx.foreign, body["reply_id"].s) !in db.children
      && ctx.failAt == Some(InsertStmt)
    ensures r.status == CREATED ==>
      var f := ctx.foreign;
      var id := Sanitize(f, body["reply_id"].s);
      && r.envelope == Success(ReplyCreated(id))
      && r.store.parents == db.parents
      && r.store.children == db.children[id := Reply(
           Sanitize(f, body["topic_id"].s), Sanitize(f, body["text"].s), Sanitize(f, body["author"].s), ctx.now)]
      && r.store.children[id].topicId in db.parents
  {
    var rid := Field(body, "reply_id");
    var tid := Field(body, "topic_id");
    var text := Field(body, "text");
    var author := Field(body, "author");
    if Empty(rid) || Empty(tid) || Empty(text) || Empty(author) then Fail(db, BAD_REQUEST)
    else
      var f := ctx.foreign;
      var id := Sanitize(f, rid.value);
      var topic := Sanitize(f, tid.value);
      if topic !in db.parents then Fail(db, NOT_FOUND)
      else if id in db.children then Fail(db, CONFLICT)
      else if ctx.failAt == Some(InsertStmt) then Fail(db, SERVER_ERROR)
      else
        var reply := Reply(topic, Sanitize(f, text.value), Sanitize(f, author.value), ctx.now);
        Outcome(CREATED, db.(children := db.children[id := reply]), Success(ReplyCreated(id)))
  }

  /** `deleteReply` */
  function DeleteReply(db: Db, ctx: Ctx, id: Option<string>): (r: Answer)
    ensures r.status in {OK, BAD_REQUEST, NOT_FOUND, SERVER_ERROR}
    ensures r.status != OK ==> r.store == db
    ensures r.status == BAD_REQUEST <==> Empty(id)
    ensures r.status == NOT_FOUND <==> !Empty(id) && Sanitize(ctx.foreign, id.value) !in db.children
    ensures r.status == SERVER_ERROR <==>
      !Empty(id) && Sanitize(ctx.foreign, id.value) in db.children && ctx.failAt == Some(DeleteRowStmt)
    ensures r.status == OK ==> r.store == db.(children := db.children - {Sanitize(ctx.foreign, id.value)})
  {
    if Empty(id) then Fail(db, BAD_REQUEST)
    else
      var k := Sanitize(ctx.foreign, id.value);
      if k !in db.children then Fail(db, NOT_FOUND)
      else if ctx.failAt == Some(DeleteRowStmt) then Fail(db, SERVER_ERROR)
      else Outcome(OK, db.(children := db.children - {k}), Success(Done))
  }

  /** `isValidResource` */
  function IsValidResource(resource: Option<string>): (b: bool)
    ensures b <==> resource == Some("topics") || resource == Some("replies")
  {
    Allowed(resource, ["topics", "replies"])
  }

  /** The router. The session gate runs before anything else, then the
      preflight, then the resource check, then the method dispatch. A body
      that decodes to nothing (`!$data`) is refused for POST. */
  function Route(db: Db, ctx: Ctx, req: Request): (r: Answer)
    ensures !req.authenticated ==> r.status == UNAUTHORIZED && r.store == db
    ensures req.authenticated && req.verb == "OPTIONS" ==> r.status == OK && r.store == db
    ensures req.authenticated && req.verb != "OPTIONS" && !IsValidResource(Param(req.query, "resource")) ==>
      r.status == BAD_REQUEST && r.store == db
    ensures r.status == METHOD_NOT_ALLOWED ==> r.store == db
    ensures (req.authenticated && req.verb != "OPTIONS" && IsValidResource(Param(req.query, "resource"))
             && !KnownMethod(req.verb)) ==> r.status == METHOD_NOT_ALLOWED
    ensures req.verb == "GET" ==> r.store == db
    ensures Integrity(db, TopicOf) ==> Integrity(r.store, TopicOf)
  {
    var q := req.query;
    if !req.authenticated then Fail(db, UNAUTHORIZED)
    else if req.verb == "OPTIONS" then Outcome(OK, db, Success(Done))
    else if !IsValidResource(Param(q, "resource")) then Fail(db, BAD_REQUEST)
    else
      var topics := q["resource"] == "topics";
      if req.verb == "GET" then
        if topics then
          if Empty(Param(q, "id")) then ListTopics(db, ctx, q) else GetTopic(db, Param(q, "id"))
        else ListReplies(db, ctx, Param(q, "topic_id"))
      else Write(db, ctx, req, topics)
  }

  /** The writing half of the router: POST, PUT and DELETE on a valid
      resource; anything else is refused with 405. */
  function Write(db: Db, ctx: Ctx, req: Request, topics: bool): (r: Answer)
    requires req.verb != "GET"
    ensures r.status == METHOD_NOT_ALLOWED ==> r.store == db
    ensures !KnownMethod(req.verb) ==> r.status == METHOD_NOT_ALLOWED
    ensures Integrity(db, TopicOf) ==> Integrity(r.store, TopicOf)
  {
    var q := req.query;
    if req.verb == "POST" then
      if req.body == map[] then Fail(db, BAD_REQUEST)
      else if topics then CreateTopic(db, ctx, req.body)
      else CreateReply(db, ctx, req.body)
    else if req.verb == "PUT" then
      if "id" !in q then Fail(db, BAD_REQUEST)
      else if topics then UpdateTopic(db, ctx, req.body)
      else Fail(db, METHOD_NOT_ALLOWED)
    else if req.verb == "DELETE" then
      if "id" !in q then Fail(db, BAD_REQUEST)
      else if topics then DeleteTopic(db, ctx, Param(q, "id"))
      else DeleteReply(db, ctx, Param(q, "id"))
    else Fail(db, METHOD_NOT_ALLOWED)
  }
}

=== FILE: http.dfy ===
/** Requests, replies and the per-request environment shared by the five
    endpoints. A handler is a pure function from a store and a request to a
    status code, a response envelope and the next store. */
module Http {
  import opened Base
  import opened Php
  import opened Tables

  const OK: int := 200
  const CREATED: int := 201
  const NO_CONTENT: int := 204
  const BAD_REQUEST: int := 400
  const UNAUTHORIZED: int := 401
  const NOT_FOUND: int := 404
  const METHOD_NOT_ALLOWED: int := 405
  const CONFLICT: int := 409
  const SERVER_ERROR: int := 500

  /** The JSON body of a reply: a success carrying its payload, or a failure
      whose message sits under the key `messageKey` ("message" or "error",
      depending on the endpoint). Message texts are not modelled. */
  datatype Envelope<T> = Success(data: T) | Failure(messageKey: string)

  /** What a handler produces: the HTTP status, the store after the request,
      and the envelope it echoes. */
  datatype Outcome<S, T> = Outcome(status: int, store: S, envelope: Envelope<T>)

  /** A write statement that the environment makes fail (a PDO error or a
      `false` from `execute`). */
  datatype Stmt = InsertStmt | UpdateStmt | DeleteRowStmt | DeleteStmt(step: DeleteStep)

  /** Everything a request depends on besides the store and its own
      parameters: the library routines, the clock (`NOW()`), the id the
      store's auto-increment hands out next (`lastInsertId`), the collation's
      case sensitivity for `LIKE`, and an optional injected statement failure. */
  datatype Ctx = Ctx(foreign: Foreign, now: int, nextId: int, caseInsensitive: bool, failAt: Option<Stmt>)

  /** The failing step of a parent deletion, if the injected failure is one. */
  function DeleteFault(ctx: Ctx): (r: Option<DeleteStep>)
    ensures r.Some? <==> ctx.failAt.Some? && ctx.failAt.value.DeleteStmt?
  {
    match ctx.failAt
    case Some(DeleteStmt(step)) => Some(step)
    case _ => None
  }

  /** An HTTP request after PHP has parsed it; `authenticated` is whether the
      session carries `logged_in`. */
  datatype Request = Request(verb: string, query: Query, body: Body, authenticated: bool)

  /** The methods every router dispatches on. */
  predicate KnownMethod(m: string) {
    m == "GET" || m == "POST" || m == "PUT" || m == "DELETE"
  }
}

=== FILE: listing.dfy ===
/** What the list endpoints hand to the store: a search term bound as a
    `LIKE '%term%'` parameter, and an ORDER BY column and direction taken
    from a fixed whitelist. The rows a search keeps are computed here too. */
module Listing {
  import opened Base
  import opened Strings
  import opened Php

  /** A list query: the optional search term, the ORDER BY column and the
      direction keyword, exactly as they are spliced into the SQL text. */
  datatype Plan = Plan(term: Option<string>, column: string, direction: string)

  /** The value bound to `:search`. */
  function LikePattern(term: string): (p: string)
    ensures |p| == |term| + 2
    ensures p[0] == '%' && p[|p| - 1] == '%' && p[1..|p| - 1] == term
  {
    "%" + term + "%"
  }

  /** A whitelist check on a string (`isValidSortField` in the weekly
      endpoint, `validateAllowedValue` in the assignments endpoint): the
      whitelists hold no numeric strings, so loose and strict `in_array`
      agree and only an identical entry is accepted. */
  function OnList(value: string, allowed: seq<string>): (b: bool)
    ensures b <==> exists i | 0 <= i < |allowed| :: allowed[i] == value
  {
    value in allowed
  }

  /** PHP's loose `==` on two strings: two numeric strings compare as
      numbers, anything else compares as text. */
  predicate LooseEquals(a: string, b: string) {
    if IsNumeric(a) && IsNumeric(b) then IntCast(a) == IntCast(b) else a == b
  }

  /** `in_array($value, $allowed)` without the strict flag. */
  predicate LooseOnList(value: string, allowed: seq<string>) {
    exists i | 0 <= i < |allowed| :: LooseEquals(value, allowed[i])
  }

  /** On a whitelist without numeric strings the loose `in_array` accepts
      exactly what the strict check does, so either spelling of the check
      lets through only identical entries. */
  lemma LooseOnListIsStrict(value: string, allowed: seq<string>)
    requires forall i | 0 <= i < |allowed| :: !IsNumeric(allowed[i])
    ensures LooseOnList(value, allowed) <==> OnList(value, allowed)
  {
    if OnList(value, allowed) {
      var i :| 0 <= i < |allowed| && allowed[i] == value;
      assert LooseEquals(value, allowed[i]);
    }
  }

  /** `in_array($x, $allowed)` for strings */
  predicate Allowed(x: Option<string>, allowed: seq<string>) {
    x.Some? && x.value in allowed
  }

  /** `x` when it is whitelisted, otherwise the fixed default. */
  function Pick(x: Option<string>, allowed: seq<string>, default: string): (r: string)
    requires default in allowed
    ensures r in allowed
    ensures Allowed(x, allowed) ==> r == x.value
    ensures !Allowed(x, allowed) ==> r == default
  {
    if Allowed(x, allowed) then x.value else default
  }

  /** The case folding the store's collation applies in `LIKE`. */
  function Fold(caseInsensitive: bool, s: string): string {
    if caseInsensitive then Lower(s) else s
  }

  /** MySQL's `s LIKE p` with the default escape character: `%` matches any
      run of characters, `_` any one character, and `\` makes the next
      pattern character literal (a `\` that ends the pattern stands for
      itself). Every other pattern character matches only itself. */
  predicate Like(s: string, p: string)
    decreases |p|, |s|
  {
    if |p| == 0 then |s| == 0
    else if p[0] == '%' then Like(s, p[1..]) || (|s| > 0 && Like(s[1..], p))
    else if |s| == 0 then false
    else if p[0] == '_' then Like(s[1..], p[1..])
    else if p[0] == '\\' && |p| > 1 then s[0] == p[1] && Like(s[1..], p[2..])
    else s[0] == p[0] && Like(s[1..], p[1..])
  }

  /** A character `LIKE` reads as a pattern character. */
  predicate Wild(c: char) {
    c == '%' || c == '_' || c == '\\'
  }

  /** A term in which `LIKE` sees only literal characters. */
  predicate Plain(t: string) {
    forall k | 0 <= k < |t| :: !Wild(t[k])
  }

  /** A lone `%` matches every string. */
  lemma {:induction false} PercentMatchesAll(s: string)
    ensures Like(s, "%")
  {
    if |s| > 0 {
      PercentMatchesAll(s[1..]);
    }
  }

  /** A leading `%` may skip any prefix of the subject. */
  lemma {:induction false} PercentSkips(s: string, q: string, i: nat)
    requires i <= |s| && Like(s[i..], q)
    ensures Like(s, "%" + q)
  {
    assert ("%" + q)[1..] == q;
    if i > 0 {
      assert s[1..][i - 1..] == s[i..];
      PercentSkips(s[1..], q, i - 1);
    }
  }

  /** A match after a leading `%` starts somewhere in the subject. */
  lemma {:induction false} PercentFindsStart(s: string, q: string)
    requires Like(s, "%" + q)
    ensures exists i | 0 <= i <= |s| :: Like(s[i..], q)
  {
    assert ("%" + q)[1..] == q;
    if Like(s, q) {
      assert s[0..] == s;
    } else {
      PercentFindsStart(s[1..], q);
      var i :| 0 <= i <= |s[1..]| && Like(s[1..][i..], q);
      assert s[1..][i..] == s[i + 1..];
    }
  }

  /** A plain prefix of the pattern matches exactly that prefix of the subject. */
  lemma {:induction false} PlainPrefix(t: string, u: string, q: string)
    requires Plain(t)
    ensures Like(t + u, t + q) <== Like(u, q)
  {
    if |t| > 0 && Like(u, q) {
      assert (t + u)[0] == t[0] && (t + q)[0] == t[0] && !Wild(t[0]);
      assert (t + u)[1..] == t[1..] + u && (t + q)[1..] == t[1..] + q;
      assert Plain(t[1..]) by {
        forall k | 0 <= k < |t[1..]| ensures !Wild(t[1..][k]) {
          assert t[1..][k] == t[k + 1];
        }
      }
      PlainPrefix(t[1..], u, q);
    } else if Like(u, q) {
      assert t + u == u && t + q == q;
    }
  }

  /** Conversely, a subject matching a plain-prefixed pattern starts with that prefix. */
  lemma {:induction false} PlainPrefixFound(t: string, u: string, q: string)
    requires Plain(t) && Like(u, t + q)
    ensures t <= u && Like(u[|t|..], q)
  {
    if |t| > 0 {
      assert (t + q)[0] == t[0] && !Wild(t[0]);
      assert (t + q)[1..] == t[1..] + q;
      assert |u| > 0 && u[0] == t[0] && Like(u[1..], t[1..] + q);
      assert Plain(t[1..]) by {
        forall k | 0 <= k < |t[1..]| ensures !Wild(t[1..][k]) {
          assert t[1..][k] == t[k + 1];
        }
      }
      PlainPrefixFound(t[1..], u[1..], q);
      assert u[1..][|t| - 1..] == u[|t|..];
      assert t == [t[0]] + t[1..] && u[..|t|] == [u[0]] + u[1..][..|t| - 1];
    } else {
      assert t + q == q && u[0..] == u;
    }
  }

  /** On a term without pattern characters, `LIKE '%term%'` is exactly the
      substring test. */
  lemma LikeAgreesWithContains(s: string, t: string)
    requires Plain(t)
    ensures Like(s, LikePattern(t)) <==> Contains(s, t)
  {
    assert LikePattern(t) == "%" + (t + "%");
    if Contains(s, t) {
      var i :| 0 <= i <= |s| && t <= s[i..];
      var rest := s[i + |t|..];
      assert s[i..] == t + rest;
      PercentMatchesAll(rest);
      PlainPrefix(t, rest, "%");
      PercentSkips(s, t + "%", i);
    }
    if Like(s, LikePattern(t)) {
      PercentFindsStart(s, t + "%");
      var i :| 0 <= i <= |s| && Like(s[i..], t + "%");
      PlainPrefixFound(t, s[i..], "%");
    }
  }

  /** A value without `\\` matches itself used as a pattern, whatever follows. */
  lemma {:induction false} SelfLike(g: string, u: string, q: string)
    requires '\\' !in g && Like(u, q)
    ensures Like(g + u, g + q)
  {
    if |g| > 0 {
      assert (g + u)[0] == g[0] && (g + q)[0] == g[0];
      assert (g + u)[1..] == g[1..] + u && (g + q)[1..] == g[1..] + q;
      assert g[0] in g;
      SelfLike(g[1..], u, q);
      if g[0] == '%' {
        assert Like(g[1..] + u, g + q);
      }
    } else {
      assert g + u == u && g + q == q;
    }
  }

  /** Case folding keeps the pattern characters and the pattern's shape. */
  lemma FoldPattern(caseInsensitive: bool, t: string)
    ensures Fold(caseInsensitive, LikePattern(t)) == LikePattern(Fold(caseInsensitive, t))
    ensures '\\' !in t ==> '\\' !in Fold(caseInsensitive, t)
  {
    if caseInsensitive {
      assert Lower(LikePattern(t)) == LikePattern(Lower(t));
    }
  }

  /** `f1 LIKE '%t%' OR f2 LIKE '%t%' OR ...`, with no term matching everything. */
  predicate Matches(fields: seq<string>, term: Option<string>, caseInsensitive: bool) {
    term.None? || exists i | 0 <= i < |fields| ::
      Like(Fold(caseInsensitive, fields[i]), Fold(caseInsensitive, LikePattern(term.value)))
  }

  /** The rows of a table a search keeps, each row unchanged. */
  function Select<K, P>(rows: map<K, P>, fields: P -> seq<string>, term: Option<string>, caseInsensitive: bool)
    : (r: map<K, P>)
    ensures r.Keys <= rows.Keys
    ensures forall k :: k in r ==> r[k] == rows[k] && Matches(fields(rows[k]), term, caseInsensitive)
    ensures forall k :: k in rows && Matches(fields(rows[k]), term, caseInsensitive) ==> k in r
  {
    map k | k in rows && Matches(fields(rows[k]), term, caseInsensitive) :: rows[k]
  }

  /** A search with the empty term (`LIKE '%%'`) keeps every row that has a
      searchable field, just like no search at all. */
  lemma EmptyTermKeepsAll<K, P>(rows: map<K, P>, fields: P -> seq<string>, caseInsensitive: bool)
    requires forall k :: k in rows ==> |fields(rows[k])| > 0
    ensures Select(rows, fields, Some(""), caseInsensitive) == rows
    ensures Select(rows, fields, None, caseInsensitive) == rows
  {
    forall k | k in rows
      ensures Matches(fields(rows[k]), Some(""), caseInsensitive)
    {
      var v := Fold(caseInsensitive, fields(rows[k])[0]);
      FoldPattern(caseInsensitive, "");
      assert Fold(caseInsensitive, "") == "";
      assert LikePattern("")[1..] == "%";
      PercentMatchesAll(v);
    }
  }

  /** A row is found by any of its own searchable values that holds no
      escape character. */
  lemma RowFoundByOwnField<K, P>(rows: map<K, P>, fields: P -> seq<string>, k: K, i: nat, caseInsensitive: bool)
    requires k in rows && i < |fields(rows[k])| && '\\' !in fields(rows[k])[i]
    ensures k in Select(rows, fields, Some(fields(rows[k])[i]), caseInsensitive)
  {
    var f := fields(rows[k])[i];
    var g := Fold(caseInsensitive, f);
    FoldPattern(caseInsensitive, f);
    PercentMatchesAll("");
    SelfLike(g, "", "%");
    assert g + "" == g;
    assert LikePattern(g) == "%" + (g + "%");
  }

  /** The search term `_` is a wildcard: it keeps every row with a non-empty
      searchable value. */
  lemma UnderscoreMatchesAny(v: string, caseInsensitive: bool)
    requires |v| > 0
    ensures Matches([v], Some("_"), caseInsensitive)
  {
    var g := Fold(caseInsensitive, v);
    FoldPattern(caseInsensitive, "_");
    assert Fold(caseInsensitive, "_") == "_";
    assert LikePattern("_") == "%" + ("_" + "%");
    PercentMatchesAll(g[1..]);
    assert ("_" + "%")[1..] == "%";
    assert g[0..] == g;
    PercentSkips(g, "_" + "%", 0);
    assert Like(Fold(caseInsensitive, [v][0]), Fold(caseInsensitive, LikePattern("_")));
  }

  /** A value that is a lone backslash is not found by searching for itself:
      the pattern `%\\%` asks for a literal `%` at the end. */
  lemma BackslashValueMissed(caseInsensitive: bool)
    ensures !Matches(["\\"], Some("\\"), caseInsensitive)
  {
    FoldPattern(caseInsensitive, "\\");
    assert Fold(caseInsensitive, "\\") == "\\";
    var p := LikePattern("\\");
    assert p[1..] == "\\%";
    assert "\\"[1..] == "";
    assert !Like("", "\\%");
    assert !Like("\\", "\\%");
    assert !Like("", p);
  }
}

=== FILE: manageusers.dfy ===
/** The in-page student table of the admin portal: adding, deleting,
    searching and sorting students held in memory, and the password form's
    checks. Nothing here talks to the server. */
module ManageUsers {
  import opened Base
  import opened Strings
  import opened Seqs
  import opened Sorting
  import opened Php
  import Admin
  import Http

  /** A student id as JavaScript holds it: a number when it came from the
      loaded JSON, a string when it was typed into the form. */
  datatype JsId = Num(n: int) | Str(s: string)

  datatype Student = Student(name: string, id: JsId, email: string)

  /** The string a `data-id` attribute holds after `dataset.id = id`. */
  function DataId(id: JsId): (d: string)
    ensures id.Str? ==> d == id.s
    ensures id.Num? ==> IntCast(d) == id.n
  {
    match id
    case Num(n) =>
      IntCastDecimal(n);
      Decimal(n)
    case Str(s) => s
  }

  /** `id == v` for a string `v`: a number is compared with `Number(v)`,
      which is `None` when it is NaN or not an integer. */
  predicate LooseEquals(id: JsId, v: string, number: string -> Option<int>) {
    match id
    case Num(n) => number(v) == Some(n)
    case Str(s) => s == v
  }

  /** `id === v` for a string `v`: a number never equals a string. */
  predicate StrictEquals(id: JsId, v: string) {
    id.Str? && id.s == v
  }

  /** The alerts the page shows. */
  datatype Notice = FillAll | DuplicateId | PasswordMismatch | PasswordTooShort | PasswordUpdated

  /** Some student's id is loosely equal to `id`. */
  predicate IdTaken(students: seq<Student>, id: string, number: string -> Option<int>) {
    exists k :: 0 <= k < |students| && LooseEquals(students[k].id, id, number)
  }

  /** The duplicate scan of `handleAddStudent`, stopping at the first hit. */
  method FindDuplicate(students: seq<Student>, id: string, number: string -> Option<int>) returns (found: bool)
    ensures found <==> IdTaken(students, id, number)
  {
    var i := 0;
    while i < |students|
      invariant 0 <= i <= |students|
      invariant forall j :: 0 <= j < i ==> !LooseEquals(students[j].id, id, number)
    {
      if LooseEquals(students[i].id, id, number) {
        return true;
      }
      i := i + 1;
    }
    return false;
  }

  /** `handleAddStudent`: refuses a missing field, then an id already
      present; otherwise appends the typed student. */
  function AddStudent(students: seq<Student>, name: string, id: string, email: string,
                      number: string -> Option<int>): (r: (seq<Student>, Option<Notice>))
    ensures r.1 == Some(FillAll) <==> name == "" || id == "" || email == ""
    ensures r.1 == Some(DuplicateId) <==> name != "" && id != "" && email != "" && IdTaken(students, id, number)
    ensures r.1.None? <==> name != "" && id != "" && email != "" && !IdTaken(students, id, number)
    ensures r.1.Some? ==> r.0 == students
    ensures r.1.None? ==> |r.0| == |students| + 1 && r.0[..|students|] == students
                          && r.0[|students|] == Student(name, Str(id), email)
  {
    if name == "" || id == "" || email == "" then (students, Some(FillAll))
    else if IdTaken(students, id, number) then (students, Some(DuplicateId))
    else (students + [Student(name, Str(id), email)], None)
  }

  /** Adding the same id twice: the second attempt is refused. */
  lemma AddTwiceRefused(students: seq<Student>, name: string, id: string, email: string,
                        name2: string, email2: string, number: string -> Option<int>)
    requires AddStudent(students, name, id, email, number).1.None?
    requires name2 != "" && email2 != ""
    ensures AddStudent(AddStudent(students, name, id, email, number).0, name2, id, email2, number).1 == Some(DuplicateId)
  {
    var added := AddStudent(students, name, id, email, number).0;
    assert LooseEquals(added[|students|].id, id, number);
  }

  function KeepAsWritten(dataId: string): Student -> bool {
    (s: Student) => !StrictEquals(s.id, dataId)
  }

  /** `handleTableClick` as written: keeps every student whose id is not
      strictly equal to the button's `data-id` string. */
  function DeleteAsWritten(students: seq<Student>, dataId: string): (r: seq<Student>)
    ensures forall x :: x in r <==> x in students && !StrictEquals(x.id, dataId)
    ensures Subsequence(r, students)
  {
    FilterIsSubsequence(students, KeepAsWritten(dataId));
    Filter(students, KeepAsWritten(dataId))
  }

  /** With a numeric id, clicking the student's own Delete button removes
      nothing. */
  lemma DeleteAsWrittenMissesNumericIds()
    ensures var students := [Student("Ali", Num(7), "ali@uob.edu.bh")];
      DataId(students[0].id) == "7" && DeleteAsWritten(students, DataId(students[0].id)) == students
  {
    var students := [Student("Ali", Num(7), "ali@uob.edu.bh")];
    assert Digits(7) == "7";
    FilterKeepsAll(students, KeepAsWritten("7"));
  }

  function KeepOthers(dataId: string): Student -> bool {
    (s: Student) => DataId(s.id) != dataId
  }

  /** `handleTableClick` as intended: the button's `data-id` is compared with
      each student's id written the same way. */
  function DeleteStudent(students: seq<Student>, dataId: string): (r: seq<Student>)
    ensures forall x :: x in r <==> x in students && DataId(x.id) != dataId
    ensures Subsequence(r, students)
  {
    FilterIsSubsequence(students, KeepOthers(dataId));
    Filter(students, KeepOthers(dataId))
  }

  /** Clicking a row's Delete button removes that row's student. */
  lemma DeleteRemovesClickedStudent(students: seq<Student>, i: nat)
    requires i < |students|
    ensures students[i] !in DeleteStudent(students, DataId(students[i].id))
  {
  }

  /** On string ids, which is all the form can add, the two deletes agree. */
  lemma DeleteAgreesOnStringIds(students: seq<Student>, dataId: string)
    requires forall k :: 0 <= k < |students| ==> students[k].id.Str?
    ensures DeleteAsWritten(students, dataId) == DeleteStudent(students, dataId)
  {
    FilterAgree(students, KeepAsWritten(dataId), KeepOthers(dataId));
  }

  function NameHas(term: string): Student -> bool {
    (s: Student) => Contains(Lower(s.name), term)
  }

  /** `handleSearch`: the students whose lowercased name contains the
      lowercased term, in table order; an empty term shows everyone. */
  function Search(students: seq<Student>, term: string): (r: seq<Student>)
    ensures term == "" ==> r == students
    ensures term != "" ==> forall x :: x in r <==> x in students && Contains(Lower(x.name), Lower(term))
    ensures Subsequence(r, students)
  {
    var t := Lower(term);
    if t == "" then
      assert forall k :: 0 <= k < |students| ==> NameHas(t)(students[k]) by {
        forall k | 0 <= k < |students| {
          ContainsEmpty(Lower(students[k].name));
        }
      }
      FilterKeepsAll(students, NameHas(t));
      FilterIsSubsequence(students, NameHas(t));
      students
    else
      FilterIsSubsequence(students, NameHas(t));
      Filter(students, NameHas(t))
  }

  /** Searching the shown rows again with the same term shows the same rows. */
  lemma SearchIdempotent(students: seq<Student>, term: string)
    ensures Search(Search(students, term), term) == Search(students, term)
  {
    if Lower(term) != "" {
      FilterIdempotent(students, NameHas(Lower(term)));
    }
  }

  /** The header's next direction: `desc` after `asc`, `asc` otherwise
      (including the first click, when none is recorded). */
  function ToggleDir(current: Option<string>): (d: string)
    ensures d == "asc" || d == "desc"
    ensures d == "desc" <==> current == Some("asc")
  {
    if current == Some("asc") then "desc" else "asc"
  }

  /** Clicking a header twice returns it to the direction it had. */
  lemma ToggleTwice(d: string)
    requires d == "asc" || d == "desc"
    ensures ToggleDir(Some(ToggleDir(Some(d)))) == d
  {
  }

  datatype Column = NameColumn | IdColumn | EmailColumn

  /** The property a header sorts by, from its cell index. */
  function ColumnAt(index: int): (c: Option<Column>)
    ensures c.Some? <==> 0 <= index <= 2
  {
    if index == 0 then Some(NameColumn)
    else if index == 1 then Some(IdColumn)
    else if index == 2 then Some(EmailColumn)
    else None
  }

  /** `Number(id)`: a number as is, a string through `Number`. */
  function NumberOf(id: JsId, number: string -> Option<int>): Option<int> {
    match id
    case Num(n) => Some(n)
    case Str(s) => number(s)
  }

  /** The comparator's "not after" relation. A NaN difference counts as
      equal, like `0`. */
  function IdOrder(number: string -> Option<int>, ascending: bool): (Student, Student) -> bool {
    (a: Student, b: Student) =>
      match (NumberOf(a.id, number), NumberOf(b.id, number))
      case (Some(x), Some(y)) => if ascending then x <= y else y <= x
      case _ => true
  }

  function TextOrder(column: Column, localeCompare: (string, string) -> int, ascending: bool): (Student, Student) -> bool {
    (a: Student, b: Student) =>
      var x := if column == NameColumn then a.name else a.email;
      var y := if column == NameColumn then b.name else b.email;
      if ascending then localeCompare(x, y) <= 0 else localeCompare(y, x) <= 0
  }

  /** Every student's id has a numeric value: `Number(id)` is not NaN. */
  predicate IdsNumeric(students: seq<Student>, number: string -> Option<int>) {
    forall x :: x in students ==> NumberOf(x.id, number).Some?
  }

  /** Among students whose ids all have numeric values, the id comparison is
      a total preorder (NaN ids, which compare as equal to everything, are
      what breaks transitivity otherwise). */
  lemma IdOrderIsPreorder(students: seq<Student>, number: string -> Option<int>, ascending: bool)
    requires IdsNumeric(students, number)
    ensures TotalPreorderOn(IdOrder(number, ascending), multiset(students))
  {
    var le := IdOrder(number, ascending);
    var m := multiset(students);
    forall a, b | a in m && b in m
      ensures le(a, b) || le(b, a)
    {
      assert a in students && b in students;
      assert NumberOf(a.id, number).Some? && NumberOf(b.id, number).Some?;
    }
    forall a, b, c | a in m && b in m && c in m && le(a, b) && le(b, c)
      ensures le(a, c)
    {
      assert a in students && b in students && c in students;
      assert NumberOf(a.id, number).Some? && NumberOf(b.id, number).Some? && NumberOf(c.id, number).Some?;
    }
  }

  /** A NaN id breaks the order: with ids 1, "x" and 0 (ascending), 1 is not
      after "x" and "x" is not after 0, yet 1 is after 0. */
  lemma NaNIdBreaksOrder(number: string -> Option<int>)
    requires number("x") == None
    ensures var le := IdOrder(number, true);
      le(Student("a", Num(1), "a@x"), Student("b", Str("x"), "b@x"))
      && le(Student("b", Str("x"), "b@x"), Student("c", Num(0), "c@x"))
      && !le(Student("a", Num(1), "a@x"), Student("c", Num(0), "c@x"))
  {
  }

  datatype SortResult = SortResult(dir: string, students: seq<Student>, rendered: bool)

  /** `handleSort`: toggles the header's direction and sorts by its column.
      A header past the third (the actions column) has no property; the
      comparator then throws, which leaves the array as it was, unless there
      are fewer than two students to compare. */
  function SortBy(students: seq<Student>, index: int, current: Option<string>,
                  number: string -> Option<int>, localeCompare: (string, string) -> int): (r: SortResult)
    ensures r.dir == ToggleDir(current)
    ensures multiset(r.students) == multiset(students)
    ensures r.rendered <==> ColumnAt(index).Some? || |students| < 2
    ensures !r.rendered ==> r.students == students
    ensures ColumnAt(index) == Some(IdColumn) && IdsNumeric(students, number) ==>
      Sorted(r.students, IdOrder(number, r.dir == "asc"))
    ensures ColumnAt(index).Some? && ColumnAt(index) != Some(IdColumn)
            && TotalPreorderOn(TextOrder(ColumnAt(index).value, localeCompare, r.dir == "asc"), multiset(students)) ==>
      Sorted(r.students, TextOrder(ColumnAt(index).value, localeCompare, r.dir == "asc"))
  {
    var dir := ToggleDir(current);
    match ColumnAt(index)
    case None => SortResult(dir, students, |students| < 2)
    case Some(IdColumn) =>
      var sorted := InsertionSort(students, IdOrder(number, dir == "asc"));
      assert IdsNumeric(students, number) ==> Sorted(sorted, IdOrder(number, dir == "asc")) by {
        if IdsNumeric(students, number) {
          IdOrderIsPreorder(students, number, dir == "asc");
        }
      }
      SortResult(dir, sorted, true)
    case Some(c) => SortResult(dir, InsertionSort(students, TextOrder(c, localeCompare, dir == "asc")), true)
  }

  /** The page's minimum password length; the server's is `Admin.MIN_PASSWORD`. */
  const MIN_PASSWORD: nat := 8

  /** `handleChangePassword`: a mismatch is reported first, a short password
      second; the three inputs are cleared only on success. The current
      password is never checked and nothing is sent. */
  function ChangePasswordForm(newPassword: string, confirm: string): (r: (Notice, bool))
    ensures r.0 == PasswordMismatch <==> newPassword != confirm
    ensures r.0 == PasswordTooShort <==> newPassword == confirm && |newPassword| < MIN_PASSWORD
    ensures r.0 == PasswordUpdated <==> newPassword == confirm && |newPassword| >= MIN_PASSWORD
    ensures r.1 <==> r.0 == PasswordUpdated
  {
    if newPassword != confirm then (PasswordMismatch, false)
    else if |newPassword| < MIN_PASSWORD then (PasswordTooShort, false)
    else (PasswordUpdated, true)
  }

  /** The page's form and the server's `changePassword` draw the length line
      in the same place: for a confirmed new password, the form accepts
      exactly what the server does not refuse as a bad request. */
  lemma FormAgreesWithServer(newPassword: string, db: Admin.Db, ctx: Http.Ctx, body: Body)
    requires Admin.PasswordFieldsGiven(body, "student_id")
    requires body["new_password"].s == newPassword
    ensures ChangePasswordForm(newPassword, newPassword).1 <==> Admin.ChangePassword(db, ctx, body).status != Http.BAD_REQUEST
  {
  }
}

=== FILE: php.dfy ===
/** The PHP runtime behaviour the handlers lean on: request values after
    `json_decode`, `empty()`, `(int)` casts (which also stand for MySQL
    comparing an integer column with an integer-shaped string), `is_numeric`,
    decimal printing, and the library routines the model takes as
    parameters. */
module Php {
  import opened Base
  import opened Strings

  /** A field of a decoded JSON request body: a scalar (read as its string
      form) or an array of strings (`files`, `links`). */
  datatype Value = Text(s: string) | List(items: seq<string>)

  /** `$_GET` */
  type Query = map<string, string>

  /** The decoded request body; a missing key and a JSON `null` are both absent. */
  type Body = map<string, Value>

  /** `$_GET[k] ?? null` */
  function Param(q: Query, k: string): Option<string> {
    if k in q then Some(q[k]) else None
  }

  /** `$data[k] ?? null` for a field read as a string; an array in a string
      slot is read as absent. */
  function Field(b: Body, k: string): Option<string> {
    if k in b && b[k].Text? then Some(b[k].s) else None
  }

  /** `$a ?? $b` */
  function Coalesce(a: Option<string>, b: Option<string>): Option<string> {
    if a.Some? then a else b
  }

  /** PHP `empty()` of a string, and equally `!$s`: only "" and "0" are empty. */
  predicate EmptyString(s: string) {
    s == "" || s == "0"
  }

  /** `empty($x)` of a possibly unset string. */
  predicate Empty(v: Option<string>) {
    v.None? || EmptyString(v.value)
  }

  /** `!isset($x) || trim($x) === ''` */
  predicate Blank(v: Option<string>) {
    v.None? || Trim(v.value) == ""
  }

  /** A body field read as `trim($x ?? "")`: empty exactly when the field is
      missing or blank. */
  function Trimmed(body: Body, k: string): (s: string)
    ensures s == "" <==> Blank(Field(body, k))
  {
    if Field(body, k).Some? then Trim(body[k].s) else ""
  }

  /** `!isset($x) || empty(trim($x))` */
  predicate BlankOrZero(v: Option<string>) {
    v.None? || EmptyString(Trim(v.value))
  }

  /** `empty()` is strictly more eager than a blank check only on "0". */
  lemma BlankOrZeroCases(v: Option<string>)
    ensures BlankOrZero(v) <==> Blank(v) || Trim(v.value) == "0"
  {
  }

  /** Whitespace skipped in front of a number by `(int)` and `is_numeric`. */
  predicate IsNumberSpace(c: char) {
    c == ' ' || c == '\t' || c == '\n' || c == '\r' || c == '\U{000B}' || c == '\U{000C}'
  }

  function DigitChar(d: nat): (c: char)
    requires d < 10
    ensures IsDigit(c)
  {
    ('0' as int + d) as char
  }

  /** Value of a run of decimal digits. */
  function DigitsValue(s: string): nat
    requires forall k :: 0 <= k < |s| ==> IsDigit(s[k])
  {
    if |s| == 0 then 0
    else
      assert IsDigit(s[|s| - 1]);
      DigitsValue(s[..|s| - 1]) * 10 + (s[|s| - 1] as int - '0' as int)
  }

  /** Decimal digits of `n`, most significant first, without leading zeros. */
  function Digits(n: nat): (s: string)
    ensures |s| > 0
    ensures forall k :: 0 <= k < |s| ==> IsDigit(s[k])
    ensures |s| > 1 ==> s[0] != '0'
  {
    if n < 10 then [DigitChar(n)] else Digits(n / 10) + [DigitChar(n % 10)]
  }

  /** PHP's string form of an integer (also JavaScript's `String(n)`). */
  function Decimal(n: int): string {
    if n < 0 then "-" + Digits(-n) else Digits(n)
  }

  lemma {:induction false} DigitsValueOfDigits(n: nat)
    ensures DigitsValue(Digits(n)) == n
  {
    if n >= 10 {
      var s := Digits(n);
      DigitsValueOfDigits(n / 10);
      assert s[..|s| - 1] == Digits(n / 10);
    }
  }

  /** `(int)$s`: skip leading whitespace, read an optional sign and the
      longest run of digits; no digits reads as 0. Where a handler binds the
      raw string against an integer column, the model reads the id with this
      cast too; MySQL agrees on integer spellings but compares decimals and
      exponents such as "1.5" or "1e1" as numbers, which this cast does not. */
  function IntCast(s: string): int {
    var t := s[LeadingRun(s, IsNumberSpace)..];
    if |t| > 0 && (t[0] == '-' || t[0] == '+') then
      var u := t[1..];
      var v: int := DigitsValue(u[..LeadingRun(u, IsDigit)]);
      if t[0] == '-' then -v else v
    else
      DigitsValue(t[..LeadingRun(t, IsDigit)])
  }

  lemma LeadingRunAll(s: string, p: char -> bool)
    requires forall k :: 0 <= k < |s| ==> p(s[k])
    ensures LeadingRun(s, p) == |s|
  {
  }

  /** Printing an integer and casting it back gives the same integer. */
  lemma IntCastDecimal(n: int)
    ensures IntCast(Decimal(n)) == n
  {
    var s := Decimal(n);
    assert LeadingRun(s, IsNumberSpace) == 0;
    assert s[0..] == s;
    var m: nat := if n < 0 then -n else n;
    LeadingRunAll(Digits(m), IsDigit);
    DigitsValueOfDigits(m);
    if n < 0 {
      var t := s[LeadingRun(s, IsNumberSpace)..];
      assert t == s;
      assert t[0] == '-';
      assert t[1..] == Digits(m);
      assert t[1..][..|Digits(m)|] == Digits(m);
    } else {
      assert Digits(m)[..|Digits(m)|] == Digits(m);
    }
  }

  /** `is_numeric($s)` restricted to integers: optional surrounding whitespace,
      an optional sign, and at least one digit. */
  predicate IsNumeric(s: string) {
    var core := TrimBy(s, IsNumberSpace);
    var body := if |core| > 0 && (core[0] == '-' || core[0] == '+') then core[1..] else core;
    |body| > 0 && forall k :: 0 <= k < |body| ==> IsDigit(body[k])
  }

  /** The printed form of an integer is `empty()` only for zero, so an
      auto-increment id, which is never zero, survives an `empty()` check. */
  lemma DecimalEmptyOnlyZero(n: int)
    ensures EmptyString(Decimal(n)) <==> n == 0
  {
    assert Decimal(0) == "0";
    if n != 0 && Decimal(n) == "0" {
      IntCastDecimal(n);
      IntCastDecimal(0);
    }
  }

  /** A numeric string starts with whitespace, a sign or a digit. */
  lemma NumericFirstChar(s: string)
    requires IsNumeric(s)
    ensures |s| > 0 && (IsNumberSpace(s[0]) || IsDigit(s[0]) || s[0] == '-' || s[0] == '+')
  {
    var core := TrimBy(s, IsNumberSpace);
    if LeadingRun(s, IsNumberSpace) == 0 {
      assert core == s[0..|core|];
    }
  }

  /** A string that starts with a character `is_numeric` cannot skip or read
      is not numeric. */
  lemma NotNumericFromStart(s: string)
    requires |s| > 0 && !IsNumberSpace(s[0]) && !IsDigit(s[0]) && s[0] != '-' && s[0] != '+'
    ensures !IsNumeric(s)
  {
    if IsNumeric(s) {
      NumericFirstChar(s);
    }
  }

  /** Every printed integer passes `is_numeric`. */
  lemma DecimalIsNumeric(n: int)
    ensures IsNumeric(Decimal(n))
  {
    var s := Decimal(n);
    TrimByFixesClean(s, IsNumberSpace);
  }

  /** Library routines the handlers call but whose behaviour is not part of
      this model: `filter_var` with FILTER_VALIDATE_URL / FILTER_VALIDATE_EMAIL,
      `strip_tags`, `htmlspecialchars`, `password_hash` and `password_verify`. */
  datatype Foreign = Foreign(
    validUrl: string -> bool,
    validEmail: string -> bool,
    stripTags: string -> string,
    escape: string -> string,
    hash: string -> string,
    verify: (string, string) -> bool)

  /** `sanitizeInput`: trim, strip tags, escape HTML special characters. */
  function Sanitize(f: Foreign, s: string): string {
    f.escape(f.stripTags(Trim(s)))
  }
}

=== FILE: resources.dfy ===
/** The course-resources endpoint: resources (title, description, link) and
    their comments, with a transactional cascade on deletion. */
module Resources {
  import opened Base
  import opened Strings
  import opened Seqs
  import opened Php
  import opened Listing
  import opened Tables
  import opened Http

  datatype Resource = Resource(title: string, description: string, link: string, createdAt: int)
  datatype Comment = Comment(resourceId: int, author: string, text: string, createdAt: int)

  /** The `resources` table and the `comments` table, keyed by their ids. */
  type Db = Tables<int, Resource, int, Comment>

  function ResourceOf(c: Comment): int {
    c.resourceId
  }

  datatype Payload =
    | ResourceList(plan: Plan, rows: map<int, Resource>)
    | OneResource(id: int, row: Resource)
    | NewId(id: int)
    | CommentList(comments: map<int, Comment>)
    | Done

  type Reply = Outcome<Db, Payload>

  function Fail(db: Db, status: int): Reply {
    Outcome(status, db, Failure("message"))
  }

  /** `!$id || !is_numeric($id)` rejects the id. */
  predicate UsableId(v: Option<string>) {
    !Empty(v) && IsNumeric(v.value)
  }

  const SortColumns: seq<string> := ["title", "created_at"]
  const Directions: seq<string> := ["asc", "desc"]

  /** The list query: a search only for a non-empty `search`, matched after
      trimming; the sort column and the lower-cased direction come from
      whitelists with defaults `created_at` and `desc`. */
  function ListPlan(q: Query): (p: Plan)
    ensures p.column in SortColumns && p.direction in Directions
    ensures p.term.Some? <==> !Empty(Param(q, "search"))
    ensures p.term.Some? ==> p.term.value == Trim(q["search"])
    ensures "sort" in q && q["sort"] in SortColumns ==> p.column == q["sort"]
    ensures !("sort" in q && q["sort"] in SortColumns) ==> p.column == "created_at"
    ensures "order" in q && Lower(q["order"]) in Directions ==> p.direction == Lower(q["order"])
    ensures !("order" in q && Lower(q["order"]) in Directions) ==> p.direction == "desc"
  {
    var search := Param(q, "search");
    var order := Param(q, "order");
    Plan(
      if Empty(search) then None else Some(Trim(search.value)),
      Pick(Param(q, "sort"), SortColumns, "created_at"),
      Pick(if order.Some? then Some(Lower(order.value)) else None, Directions, "desc"))
  }

  function SearchFields(r: Resource): seq<string> {
    [r.title, r.description]
  }

  /** `getAllResources`: never fails, never writes. */
  function ListResources(db: Db, ctx: Ctx, q: Query): (r: Reply)
    ensures r.status == OK && r.store == db && r.envelope.Success?
    ensures r.envelope.data.ResourceList? && r.envelope.data.plan == ListPlan(q)
    ensures var rows := r.envelope.data.rows;
      && rows.Keys <= db.parents.Keys
      && (forall k :: k in rows ==> rows[k] == db.parents[k])
      && (forall k :: k in db.parents ==>
            (k in rows <==> Matches(SearchFields(db.parents[k]), ListPlan(q).term, ctx.caseInsensitive)))
  {
    var plan := ListPlan(q);
    Outcome(OK, db, Success(ResourceList(plan, Select(db.parents, SearchFields, plan.term, ctx.caseInsensitive))))
  }

  /** `getResourceById` */
  function GetResource(db: Db, id: Option<string>): (r: Reply)
    ensures r.store == db
    ensures r.status in {OK, BAD_REQUEST, NOT_FOUND}
    ensures r.status == BAD_REQUEST <==> !UsableId(id)
    ensures r.status == OK <==> UsableId(id) && IntCast(id.value) in db.parents
    ensures r.status == OK ==> r.envelope == Success(OneResource(IntCast(id.value), db.parents[IntCast(id.value)]))
  {
    if !UsableId(id) then Fail(db, BAD_REQUEST)
    else
      var k := IntCast(id.value);
      if k in db.parents then Outcome(OK, db, Success(OneResource(k, db.parents[k])))
      else Fail(db, NOT_FOUND)
  }

  /** `createResource`: title and link must survive trimming and must not be
      "0"; the sanitized link must be a URL; an empty description is stored
      as "". */
  function CreateResource(db: Db, ctx: Ctx, body: Body): (r: Reply)
    requires ctx.nextId !in db.parents
    ensures r.status in {CREATED, BAD_REQUEST, SERVER_ERROR}
    ensures r.status != CREATED ==> r.store == db
    ensures r.status == BAD_REQUEST <==>
      || BlankOrZero(Field(body, "title")) || BlankOrZero(Field(body, "link"))
      || !ctx.foreign.validUrl(Sanitize(ctx.foreign, Field(body, "link").value))
    ensures r.status == SERVER_ERROR <==> r.status != BAD_REQUEST && ctx.failAt == Some(InsertStmt)
    ensures r.status == CREATED ==>
      && r.envelope == Success(NewId(ctx.nextId))
      && r.store.children == db.children
      && r.store.parents == db.parents[ctx.nextId := Resource(
           Sanitize(ctx.foreign, body["title"].s),
           if Empty(Field(body, "description")) then "" else Sanitize(ctx.foreign, body["description"].s),
           Sanitize(ctx.foreign, body["link"].s),
           ctx.now)]
  {
    var title := Field(body, "title");
    var link := Field(body, "link");
    if BlankOrZero(title) || BlankOrZero(link) then Fail(db, BAD_REQUEST)
    else
      var f := ctx.foreign;
      var cleanLink := Sanitize(f, link.value);
      if !f.validUrl(cleanLink) then Fail(db, BAD_REQUEST)
      else
        var description := Field(body, "description");
        var row := Resource(Sanitize(f, title.value), if Empty(description) then "" else Sanitize(f, description.value), cleanLink, ctx.now);
        if ctx.failAt == Some(InsertStmt) then Fail(db, SERVER_ERROR)
        else Outcome(CREATED, db.(parents := db.parents[ctx.nextId := row]), Success(NewId(ctx.nextId)))
  }

  /** The row an update asks for: every field that is not `empty()` in the
      body is replaced by its sanitized value. */
  function Revised(f: Foreign, row: Resource, body: Body): Resource {
    var title := Field(body, "title");
    var description := Field(body, "description");
    var link := Field(body, "link");
    row.(
      title := if Empty(title) then row.title else Sanitize(f, title.value),
      description := if Empty(description) then row.description else Sanitize(f, description.value),
      link := if Empty(link) then row.link else Sanitize(f, link.value))
  }

  /** The update request is well formed: some field is given, and a given link
      (checked before sanitizing) is a URL. */
  predicate UpdateAccepted(f: Foreign, body: Body) {
    var link := Field(body, "link");
    && (Empty(link) || f.validUrl(link.value))
    && !(Empty(Field(body, "title")) && Empty(Field(body, "description")) && Empty(link))
  }

  /** `updateResource`. MySQL's row count is the number of rows whose values
      actually change, so an update that rewrites a row with its own values
      answers 500. */
  function UpdateResource(db: Db, ctx: Ctx, body: Body): (r: Reply)
    ensures r.status in {OK, BAD_REQUEST, NOT_FOUND, SERVER_ERROR}
    ensures r.status != OK ==> r.store == db
    ensures r.status == NOT_FOUND <==>
      var id := Field(body, "id"); id.Some? && IsNumeric(id.value) && IntCast(id.value) !in db.parents
    ensures r.status == BAD_REQUEST <==>
      var id := Field(body, "id");
      || id.None? || !IsNumeric(id.value)
      || (IntCast(id.value) in db.parents && !UpdateAccepted(ctx.foreign, body))
    ensures r.status == SERVER_ERROR <==>
      var id := Field(body, "id");
      && id.Some? && IsNumeric(id.value) && IntCast(id.value) in db.parents
      && UpdateAccepted(ctx.foreign, body)
      && (|| ctx.failAt == Some(UpdateStmt)
          || Revised(ctx.foreign, db.parents[IntCast(id.value)], body) == db.parents[IntCast(id.value)])
    ensures r.status == OK <==>
      var id := Field(body, "id");
      && id.Some? && IsNumeric(id.value) && IntCast(id.value) in db.parents
      && UpdateAccepted(ctx.foreign, body) && ctx.failAt != Some(UpdateStmt)
      && Revised(ctx.foreign, db.parents[IntCast(id.value)], body) != db.parents[IntCast(id.value)]
    ensures r.status == OK ==>
      var k := IntCast(body["id"].s);
      && r.store.children == db.children
      && r.store.parents == db.parents[k := Revised(ctx.foreign, db.parents[k], body)]
  {
    var id := Field(body, "id");
    if id.None? || !IsNumeric(id.value) then Fail(db, BAD_REQUEST)
    else
      var k := IntCast(id.value);
      if k !in db.parents then Fail(db, NOT_FOUND)
      else if !UpdateAccepted(ctx.foreign, body) then Fail(db, BAD_REQUEST)
      else if ctx.failAt == Some(UpdateStmt) then Fail(db, SERVER_ERROR)
      else
        var row := Revised(ctx.foreign, db.parents[k], body);
        if row == db.parents[k] then Fail(db, SERVER_ERROR)
        else Outcome(OK, db.(parents := db.parents[k := row]), Success(Done))
  }

  /** Sending the same update twice: the second one changes no row and
      therefore reports a server error. */
  lemma RepeatedUpdateFails(db: Db, ctx: Ctx, body: Body)
    requires UpdateResource(db, ctx, body).status == OK
    ensures var once := UpdateResource(db, ctx, body).store;
      UpdateResource(once, ctx, body) == Fail(once, SERVER_ERROR)
  {
  }

  /** A created resource can be fetched back by its printed id, unless the
      id is 0, which `!$id` refuses. */
  lemma CreateThenGet(db: Db, ctx: Ctx, body: Body)
    requires ctx.nextId !in db.parents
    requires CreateResource(db, ctx, body).status == CREATED
    ensures var got := GetResource(CreateResource(db, ctx, body).store, Some(Decimal(ctx.nextId)));
      && (got.status == OK <==> ctx.nextId != 0)
      && (got.status == OK ==> got.envelope == Success(OneResource(ctx.nextId, Resource(
            Sanitize(ctx.foreign, body["title"].s),
            if Empty(Field(body, "description")) then "" else Sanitize(ctx.foreign, body["description"].s),
            Sanitize(ctx.foreign, body["link"].s),
            ctx.now))))
  {
    IntCastDecimal(ctx.nextId);
    DecimalIsNumeric(ctx.nextId);
    DecimalEmptyOnlyZero(ctx.nextId);
  }

  /** `deleteResource`: comments, then the resource, inside one transaction. */
  function DeleteResource(db: Db, ctx: Ctx, id: Option<string>): (r: Reply)
    ensures r.status in {OK, BAD_REQUEST, NOT_FOUND, SERVER_ERROR}
    ensures r.status != OK ==> r.store == db
    ensures r.status == BAD_REQUEST <==> !UsableId(id)
    ensures r.status == NOT_FOUND <==> UsableId(id) && IntCast(id.value) !in db.parents
    ensures r.status == SERVER_ERROR <==> UsableId(id) && IntCast(id.value) in db.parents && DeleteFault(ctx).Some?
    ensures r.status == OK ==> r.store == Cascade(db, ResourceOf, IntCast(id.value))
  {
    if !UsableId(id) then Fail(db, BAD_REQUEST)
    else
      var k := IntCast(id.value);
      if k !in db.parents then Fail(db, NOT_FOUND)
      else
        var (committed, after) := TransactionalDelete(db, ResourceOf, k, DeleteFault(ctx));
        if committed then Outcome(OK, after, Success(Done)) else Fail(after, SERVER_ERROR)
  }

  /** `getCommentsByResourceId`: the comments of the resource; an unknown
      resource simply has none. */
  function ListComments(db: Db, id: Option<string>): (r: Reply)
    ensures r.store == db
    ensures r.status in {OK, BAD_REQUEST}
    ensures r.status == BAD_REQUEST <==> !UsableId(id)
    ensures r.status == OK ==> r.envelope.Success? && r.envelope.data.CommentList?
    ensures r.status == OK ==> var rows := r.envelope.data.comments;
      forall j :: (j in rows <==> j in db.children && db.children[j].resourceId == IntCast(id.value))
    ensures r.status == OK && IntCast(id.value) !in db.parents && Integrity(db, ResourceOf) ==>
      r.envelope.data.comments == map[]
  {
    if !UsableId(id) then Fail(db, BAD_REQUEST)
    else
      var rows := ChildrenOf(db.children, ResourceOf, IntCast(id.value));
      Outcome(OK, db, Success(CommentList(rows)))
  }

  /** A comment body `createComment` refuses: a field missing or `empty()`
      after trimming, or a resource id that is not numeric. */
  predicate IncompleteComment(body: Body) {
    || BlankOrZero(Field(body, "resource_id")) || BlankOrZero(Field(body, "author"))
    || BlankOrZero(Field(body, "text")) || !IsNumeric(Field(body, "resource_id").value)
  }

  /** `createComment`: author and text are stored trimmed; the resource must exist. */
  function CreateComment(db: Db, ctx: Ctx, body: Body): (r: Reply)
    requires ctx.nextId !in db.children
    ensures r.status in {CREATED, BAD_REQUEST, NOT_FOUND, SERVER_ERROR}
    ensures r.status != CREATED ==> r.store == db
    ensures r.status == BAD_REQUEST <==> IncompleteComment(body)
    ensures r.status == NOT_FOUND <==> r.status != BAD_REQUEST && IntCast(body["resource_id"].s) !in db.parents
    ensures r.status == SERVER_ERROR <==>
      !IncompleteComment(body) && IntCast(body["resource_id"].s) in db.parents && ctx.failAt == Some(InsertStmt)
    ensures r.status == CREATED ==>
      && r.envelope == Success(NewId(ctx.nextId))
      && r.store.parents == db.parents
      && r.store.children == db.children[ctx.nextId := Comment(
           IntCast(body["resource_id"].s), Trim(body["author"].s), Trim(body["text"].s), ctx.now)]
      && r.store.children[ctx.nextId].resourceId in db.parents
  {
    if IncompleteComment(body) then Fail(db, BAD_REQUEST)
    else
      var k := IntCast(body["resource_id"].s);
      if k !in db.parents then Fail(db, NOT_FOUND)
      else if ctx.failAt == Some(InsertStmt) then Fail(db, SERVER_ERROR)
      else
        var c := Comment(k, Trim(body["author"].s), Trim(body["text"].s), ctx.now);
        Outcome(CREATED, db.(children := db.children[ctx.nextId := c]), Success(NewId(ctx.nextId)))
  }

  /** `deleteComment` */
  function DeleteComment(db: Db, ctx: Ctx, id: Option<string>): (r: Reply)
    ensures r.status in {OK, BAD_REQUEST, NOT_FOUND, SERVER_ERROR}
    ensures r.status != OK ==> r.store == db
    ensures r.status == BAD_REQUEST <==> !UsableId(id)
    ensures r.status == NOT_FOUND <==> UsableId(id) && IntCast(id.value) !in db.children
    ensures r.status == SERVER_ERROR <==>
      UsableId(id) && IntCast(id.value) in db.children && ctx.failAt == Some(DeleteRowStmt)
    ensures r.status == OK ==>
      r.store == db.(children := db.children - {IntCast(id.value)})
  {
    if !UsableId(id) then Fail(db, BAD_REQUEST)
    else
      var j := IntCast(id.value);
      if j !in db.children then Fail(db, NOT_FOUND)
      else if ctx.failAt == Some(DeleteRowStmt) then Fail(db, SERVER_ERROR)
      else Outcome(OK, db.(children := db.children - {j}), Success(Done))
  }

  /** The test `validateRequiredFields` applies to each field: unset, or
      blank after trimming. */
  function MissingIn(body: Body): string -> bool {
    f => Blank(Field(body, f))
  }

  /** `validateRequiredFields`: the fields, in order, that are unset or blank
      after trimming; the data is valid when none is. */
  method ValidateRequiredFields(body: Body, required: seq<string>) returns (valid: bool, missing: seq<string>)
    ensures missing == Filter(required, MissingIn(body))
    ensures forall f :: f in missing <==> f in required && Blank(Field(body, f))
    ensures valid <==> forall i :: 0 <= i < |required| ==> !Blank(Field(body, required[i]))
  {
    missing := [];
    var i := 0;
    while i < |required|
      invariant 0 <= i <= |required|
      invariant missing == Filter(required[..i], MissingIn(body))
    {
      MissingStep(body, required, i);
      if Blank(Field(body, required[i])) {
        missing := missing + [required[i]];
      }
      i := i + 1;
    }
    assert required[..i] == required;
    valid := |missing| == 0;
    NoneMissing(body, required, missing);
  }

  /** One more field scanned adds it to the missing list exactly when it is
      blank. */
  lemma MissingStep(body: Body, required: seq<string>, i: nat)
    requires i < |required|
    ensures Filter(required[..i + 1], MissingIn(body))
         == Filter(required[..i], MissingIn(body)) + (if Blank(Field(body, required[i])) then [required[i]] else [])
  {
    FilterAppend(required[..i], [required[i]], MissingIn(body));
    assert required[..i + 1] == required[..i] + [required[i]];
  }

  lemma NoneMissing(body: Body, required: seq<string>, missing: seq<string>)
    requires missing == Filter(required, MissingIn(body))
    ensures |missing| == 0 <==> forall i :: 0 <= i < |required| ==> !Blank(Field(body, required[i]))
  {
    if |missing| != 0 {
      assert missing[0] in missing;
    } else {
      forall i | 0 <= i < |required|
        ensures !Blank(Field(body, required[i]))
      {
        assert required[i] in required;
      }
    }
  }

  /** The router: `action` selects the comment operations; a DELETE takes its
      id from the query string first and the body second. */
  function Route(db: Db, ctx: Ctx, req: Request): (r: Reply)
    requires ctx.nextId !in db.parents && ctx.nextId !in db.children
    ensures r.status == METHOD_NOT_ALLOWED <==> req.verb != "OPTIONS" && !KnownMethod(req.verb)
    ensures req.verb == "GET" || req.verb == "OPTIONS" ==> r.store == db
    ensures req.verb == "POST" ==> r.store.parents.Keys <= db.parents.Keys + {ctx.nextId}
    ensures r.status >= 400 ==> r.store == db
    ensures Integrity(db, ResourceOf) ==> Integrity(r.store, ResourceOf)
  {
    var q := req.query;
    var action := Param(q, "action");
    if req.verb == "OPTIONS" then Outcome(OK, db, Success(Done))
    else if req.verb == "GET" then
      if action == Some("comments") then
        if "resource_id" !in q then Fail(db, BAD_REQUEST) else ListComments(db, Some(q["resource_id"]))
      else if "id" in q then GetResource(db, Some(q["id"]))
      else ListResources(db, ctx, q)
    else if KnownMethod(req.verb) then Write(db, ctx, req)
    else Fail(db, METHOD_NOT_ALLOWED)
  }

  /** The writing verbs: creation, update and the two deletions. */
  function Write(db: Db, ctx: Ctx, req: Request): (r: Reply)
    requires ctx.nextId !in db.parents && ctx.nextId !in db.children
    requires req.verb == "POST" || req.verb == "PUT" || req.verb == "DELETE"
    ensures r.status != METHOD_NOT_ALLOWED
    ensures req.verb == "POST" ==> r.store.parents.Keys <= db.parents.Keys + {ctx.nextId}
    ensures r.status >= 400 ==> r.store == db
    ensures Integrity(db, ResourceOf) ==> Integrity(r.store, ResourceOf)
  {
    var q := req.query;
    var action := Param(q, "action");
    if req.verb == "POST" then
      if action == Some("comment") then CreateComment(db, ctx, req.body) else CreateResource(db, ctx, req.body)
    else if req.verb == "DELETE" then
      if action == Some("delete_comment") then
        var id := Coalesce(Param(q, "comment_id"), Field(req.body, "comment_id"));
        if Empty(id) then Fail(db, BAD_REQUEST) else DeleteComment(db, ctx, id)
      else
        var id := Coalesce(Param(q, "id"), Field(req.body, "id"));
        if Empty(id) then Fail(db, BAD_REQUEST) else DeleteResource(db, ctx, id)
    else UpdateResource(db, ctx, req.body)
  }

  /** A deleted resource takes all its comments with it, and a failed
      deletion leaves both tables as they were. */
  lemma DeleteLeavesNoComments(db: Db, ctx: Ctx, id: string)
    requires UsableId(Some(id)) && IntCast(id) in db.parents
    ensures var r := DeleteResource(db, ctx, Some(id));
      || (r.status == OK && IntCast(id) !in r.store.parents
          && ListComments(r.store, Some(id)).envelope.data.comments == map[])
      || (r.status == SERVER_ERROR && r.store == db)
  {
  }
}

=== FILE: seqs.dfy ===
/** Order-preserving filtering of sequences (`Array.prototype.filter`). */
module Seqs {

  /** The elements of `s` that satisfy `p`, in their original order. */
  function Filter<T(!new)>(s: seq<T>, p: T -> bool): (r: seq<T>)
    ensures |r| <= |s|
    ensures forall k :: 0 <= k < |r| ==> p(r[k])
    ensures forall x :: x in r <==> x in s && p(x)
  {
    if |s| == 0 then [] else (if p(s[0]) then [s[0]] else []) + Filter(s[1..], p)
  }

  /** Filtering commutes with concatenation: kept elements never change their
      relative order, and an element appended at the end stays at the end. */
  lemma {:induction false} FilterAppend<T(!new)>(a: seq<T>, b: seq<T>, p: T -> bool)
    ensures Filter(a + b, p) == Filter(a, p) + Filter(b, p)
  {
    if |a| > 0 {
      assert (a + b)[1..] == a[1..] + b;
      FilterAppend(a[1..], b, p);
    } else {
      assert a + b == b;
    }
  }

  /** A filter that rejects nothing returns its input unchanged. */
  lemma {:induction false} FilterKeepsAll<T(!new)>(s: seq<T>, p: T -> bool)
    requires forall k :: 0 <= k < |s| ==> p(s[k])
    ensures Filter(s, p) == s
  {
    if |s| > 0 {
      FilterKeepsAll(s[1..], p);
    }
  }

  /** What a filter keeps and what it drops together make up the input:
      nothing is lost and nothing is duplicated (`q` is the negation of `p`). */
  lemma {:induction false} FilterPartition<T(!new)>(s: seq<T>, p: T -> bool, q: T -> bool)
    requires forall x :: q(x) == !p(x)
    ensures multiset(Filter(s, p)) + multiset(Filter(s, q)) == multiset(s)
  {
    if |s| > 0 {
      FilterPartition(s[1..], p, q);
      assert s == [s[0]] + s[1..];
      FilterHead(s, p);
      FilterHead(s, q);
    }
  }

  /** One step of `Filter`, stated on multisets. */
  lemma FilterHead<T(!new)>(s: seq<T>, p: T -> bool)
    requires |s| > 0
    ensures multiset(Filter(s, p)) == (if p(s[0]) then multiset{s[0]} else multiset{}) + multiset(Filter(s[1..], p))
  {
    if p(s[0]) {
      assert Filter(s, p) == [s[0]] + Filter(s[1..], p);
    } else {
      assert Filter(s, p) == Filter(s[1..], p);
    }
  }

  /** Filtering twice by the same predicate is filtering once. */
  lemma {:induction false} FilterIdempotent<T(!new)>(s: seq<T>, p: T -> bool)
    ensures Filter(Filter(s, p), p) == Filter(s, p)
  {
    FilterKeepsAll(Filter(s, p), p);
  }

  /** `a` is `b` with some elements left out and the rest in their order. */
  ghost predicate Subsequence<T>(a: seq<T>, b: seq<T>)
    decreases |b|
  {
    || |a| == 0
    || (&& |b| > 0
        && ((a[0] == b[0] && Subsequence(a[1..], b[1..])) || Subsequence(a, b[1..])))
  }

  /** A filter keeps the order of what it keeps. */
  lemma {:induction false} FilterIsSubsequence<T(!new)>(s: seq<T>, p: T -> bool)
    ensures Subsequence(Filter(s, p), s)
  {
    if |s| > 0 {
      FilterIsSubsequence(s[1..], p);
      if p(s[0]) {
        assert Filter(s, p) == [s[0]] + Filter(s[1..], p);
        assert Filter(s, p)[1..] == Filter(s[1..], p);
      } else {
        assert Filter(s, p) == Filter(s[1..], p);
      }
    }
  }

  /** Two filters that agree on every element of `s` keep the same elements. */
  lemma {:induction false} FilterAgree<T(!new)>(s: seq<T>, p: T -> bool, q: T -> bool)
    requires forall k :: 0 <= k < |s| ==> p(s[k]) == q(s[k])
    ensures Filter(s, p) == Filter(s, q)
  {
    if |s| > 0 {
      FilterAgree(s[1..], p, q);
    }
  }
}

=== FILE: sorting.dfy ===
/** Insertion sort over sequences with a caller-supplied comparison,
    standing in for `Array.prototype.sort` with a comparator. */
module Sorting {

  /** `le` is total and transitive, so it orders every sequence. */
  ghost predicate TotalPreorder<T(!new)>(le: (T, T) -> bool) {
    && (forall a, b :: le(a, b) || le(b, a))
    && (forall a, b, c :: le(a, b) && le(b, c) ==> le(a, c))
  }

  /** `le` is total and transitive among the elements of `m`: enough to order
      any arrangement of them, whatever `le` does elsewhere. */
  ghost predicate TotalPreorderOn<T(!new)>(le: (T, T) -> bool, m: multiset<T>) {
    && (forall a, b | a in m && b in m :: le(a, b) || le(b, a))
    && (forall a, b, c | a in m && b in m && c in m :: le(a, b) && le(b, c) ==> le(a, c))
  }

  /** A preorder on all values is one on every collection of them. */
  lemma PreorderIsPreorderOn<T(!new)>(le: (T, T) -> bool, m: multiset<T>)
    requires TotalPreorder(le)
    ensures TotalPreorderOn(le, m)
  {
  }

  /** Fewer elements keep a preorder. */
  lemma PreorderOnSmaller<T(!new)>(le: (T, T) -> bool, small: multiset<T>, big: multiset<T>)
    requires small <= big && TotalPreorderOn(le, big)
    ensures TotalPreorderOn(le, small)
  {
  }

  predicate Sorted<T>(s: seq<T>, le: (T, T) -> bool) {
    forall i, j :: 0 <= i < j < |s| ==> le(s[i], s[j])
  }

  /** Putting `x` in front of a sorted `s` keeps it sorted when `x` is `le`
      to the first element. */
  lemma {:induction false} FrontSorted<T(!new)>(x: T, s: seq<T>, le: (T, T) -> bool)
    requires |s| > 0 && le(x, s[0]) && Sorted(s, le)
    requires TotalPreorderOn(le, multiset(s) + multiset{x})
    ensures Sorted([x] + s, le)
  {
    var m := multiset(s) + multiset{x};
    assert x in m;
    forall k | 0 <= k < |s|
      ensures le(x, s[k])
    {
      assert s[0] in m && s[k] in m;
      if k > 0 {
        assert le(s[0], s[k]);
      }
    }
    var r := [x] + s;
    forall i, j | 0 <= i < j < |r|
      ensures le(r[i], r[j])
    {
      if i > 0 {
        assert r[i] == s[i - 1] && r[j] == s[j - 1];
      }
    }
  }

  /** Keeping the head of a sorted `s` in front of the sorted insertion into
      its tail keeps it sorted when `x` is not `le` to the head. */
  lemma {:induction false} HeadSorted<T(!new)>(x: T, s: seq<T>, tail: seq<T>, le: (T, T) -> bool)
    requires |s| > 0 && !le(x, s[0]) && Sorted(s, le)
    requires TotalPreorderOn(le, multiset(s) + multiset{x})
    requires multiset(tail) == multiset(s[1..]) + multiset{x} && Sorted(tail, le)
    ensures Sorted([s[0]] + tail, le)
  {
    var m := multiset(s) + multiset{x};
    assert s == [s[0]] + s[1..];
    assert x in m && s[0] in m;
    assert le(s[0], x);
    forall j | 0 <= j < |tail|
      ensures le(s[0], tail[j])
    {
      assert tail[j] in multiset(tail);
      if tail[j] != x {
        assert tail[j] in s[1..];
      }
    }
    var r := [s[0]] + tail;
    forall i, j | 0 <= i < j < |r|
      ensures le(r[i], r[j])
    {
      if i > 0 {
        assert r[i] == tail[i - 1] && r[j] == tail[j - 1];
      }
    }
  }

  lemma TailIsSmaller<T>(x: T, s: seq<T>)
    requires |s| > 0
    ensures multiset(s[1..]) + multiset{x} <= multiset(s) + multiset{x}
  {
    assert s == [s[0]] + s[1..];
  }

  lemma SortedTail<T>(s: seq<T>, le: (T, T) -> bool)
    requires |s| > 0 && Sorted(s, le)
    ensures Sorted(s[1..], le)
  {
    forall i, j | 0 <= i < j < |s| - 1
      ensures le(s[1..][i], s[1..][j])
    {
      assert s[1..][i] == s[i + 1] && s[1..][j] == s[j + 1];
    }
  }

  /** The front case of `Insert`, stated for any input. */
  lemma FrontStep<T(!new)>(x: T, s: seq<T>, le: (T, T) -> bool)
    requires |s| > 0 && le(x, s[0])
    ensures TotalPreorderOn(le, multiset(s) + multiset{x}) && Sorted(s, le) ==> Sorted([x] + s, le)
  {
    if TotalPreorderOn(le, multiset(s) + multiset{x}) && Sorted(s, le) {
      FrontSorted(x, s, le);
    }
  }

  /** The recursive case of `Insert`: whatever the insertion into the tail
      promises carries over to the whole. */
  lemma HeadStep<T(!new)>(x: T, s: seq<T>, tail: seq<T>, le: (T, T) -> bool)
    requires |s| > 0 && !le(x, s[0])
    requires multiset(tail) == multiset(s[1..]) + multiset{x}
    requires TotalPreorderOn(le, multiset(s[1..]) + multiset{x}) && Sorted(s[1..], le) ==> Sorted(tail, le)
    ensures TotalPreorderOn(le, multiset(s) + multiset{x}) && Sorted(s, le) ==> Sorted([s[0]] + tail, le)
  {
    if TotalPreorderOn(le, multiset(s) + multiset{x}) && Sorted(s, le) {
      TailIsSmaller(x, s);
      PreorderOnSmaller(le, multiset(s[1..]) + multiset{x}, multiset(s) + multiset{x});
      SortedTail(s, le);
      HeadSorted(x, s, tail, le);
    }
  }

  /** Inserts `x` in front of the first element it is `le` to. */
  function Insert<T(!new)>(x: T, s: seq<T>, le: (T, T) -> bool): (r: seq<T>)
    ensures multiset(r) == multiset(s) + multiset{x}
    ensures TotalPreorderOn(le, multiset(s) + multiset{x}) && Sorted(s, le) ==> Sorted(r, le)
  {
    if |s| == 0 then [x]
    else if le(x, s[0]) then
      FrontStep(x, s, le);
      [x] + s
    else
      var tail := Insert(x, s[1..], le);
      assert s == [s[0]] + s[1..];
      HeadStep(x, s, tail, le);
      [s[0]] + tail
  }

  /** The sorted rearrangement of `s`: it needs the comparison to be a total
      preorder only on the elements actually sorted. */
  function InsertionSort<T(!new)>(s: seq<T>, le: (T, T) -> bool): (r: seq<T>)
    ensures multiset(r) == multiset(s)
    ensures |r| == |s|
    ensures TotalPreorderOn(le, multiset(s)) ==> Sorted(r, le)
    ensures TotalPreorder(le) ==> Sorted(r, le)
  {
    if |s| == 0 then []
    else
      assert s == [s[0]] + s[1..];
      var rest := InsertionSort(s[1..], le);
      assert TotalPreorderOn(le, multiset(s)) ==> TotalPreorderOn(le, multiset(s[1..])) by {
        if TotalPreorderOn(le, multiset(s)) {
          PreorderOnSmaller(le, multiset(s[1..]), multiset(s));
        }
      }
      assert TotalPreorder(le) ==> TotalPreorderOn(le, multiset(s)) by {
        if TotalPreorder(le) {
          PreorderIsPreorderOn(le, multiset(s));
        }
      }
      Insert(s[0], rest, le)
  }
}

=== FILE: strings.dfy ===
/** Character classes, trimming, ASCII case folding, substring search and
    line splitting: the string primitives the PHP handlers and the two
    admin scripts are built on. */
module Strings {

  /** The characters PHP's `trim()` strips when no character list is given. */
  predicate IsPhpSpace(c: char) {
    c == ' ' || c == '\t' || c == '\n' || c == '\r' || c == '\0' || c == '\U{000B}'
  }

  /** The characters JavaScript's `String.prototype.trim` strips: the
      WhiteSpace and LineTerminator productions of ECMA-262. */
  predicate IsJsSpace(c: char) {
    || c == '\t' || c == '\n' || c == '\U{000B}' || c == '\U{000C}' || c == '\r' || c == ' '
    || c == '\U{00A0}' || c == '\U{1680}' || ('\U{2000}' <= c <= '\U{200A}')
    || c == '\U{2028}' || c == '\U{2029}' || c == '\U{202F}' || c == '\U{205F}'
    || c == '\U{3000}' || c == '\U{FEFF}'
  }

  predicate IsDigit(c: char) {
    '0' <= c <= '9'
  }

  /** Number of leading characters of `s` that satisfy `ws`. */
  function LeadingRun(s: string, ws: char -> bool): (i: nat)
    ensures i <= |s|
    ensures forall k :: 0 <= k < i ==> ws(s[k])
    ensures i < |s| ==> !ws(s[i])
  {
    if |s| == 0 || !ws(s[0]) then 0 else 1 + LeadingRun(s[1..], ws)
  }

  /** Length of `s` once its trailing run of `ws` characters is dropped. */
  function TrailingCut(s: string, ws: char -> bool): (j: nat)
    ensures j <= |s|
    ensures forall k :: j <= k < |s| ==> ws(s[k])
    ensures j > 0 ==> !ws(s[j - 1])
  {
    if |s| == 0 || !ws(s[|s| - 1]) then |s| else TrailingCut(s[..|s| - 1], ws)
  }

  /** `s` without its leading and trailing `ws` characters. */
  function TrimBy(s: string, ws: char -> bool): (r: string)
    ensures |r| <= |s|
    ensures |r| > 0 ==> !ws(r[0]) && !ws(r[|r| - 1])
    ensures r == [] <==> forall k :: 0 <= k < |s| ==> ws(s[k])
    ensures LeadingRun(s, ws) + |r| <= |s|
    ensures r == s[LeadingRun(s, ws)..LeadingRun(s, ws) + |r|]
    ensures forall k :: 0 <= k < LeadingRun(s, ws) ==> ws(s[k])
    ensures forall k :: LeadingRun(s, ws) + |r| <= k < |s| ==> ws(s[k])
  {
    var i := LeadingRun(s, ws);
    if i == |s| then "" else s[i..TrailingCut(s, ws)]
  }

  /** PHP `trim($s)`. */
  function Trim(s: string): string {
    TrimBy(s, IsPhpSpace)
  }

  /** JavaScript `s.trim()`. */
  function JsTrim(s: string): string {
    TrimBy(s, IsJsSpace)
  }

  /** Trimming twice is trimming once: the result has no edge to strip. */
  lemma TrimByIdempotent(s: string, ws: char -> bool)
    ensures TrimBy(TrimBy(s, ws), ws) == TrimBy(s, ws)
  {
    var r := TrimBy(s, ws);
    if |r| > 0 {
      assert LeadingRun(r, ws) == 0;
      assert TrailingCut(r, ws) == |r|;
    }
  }

  /** A string with no strippable edge is its own trim. */
  lemma TrimByFixesClean(s: string, ws: char -> bool)
    requires |s| > 0 ==> !ws(s[0]) && !ws(s[|s| - 1])
    ensures TrimBy(s, ws) == s
  {
    if |s| > 0 {
      assert LeadingRun(s, ws) == 0;
      assert TrailingCut(s, ws) == |s|;
    }
  }

  /** ASCII upper-case letters fold to lower case; every other character is kept
      (PHP 8 `strtolower` is ASCII-only). */
  function LowerChar(c: char): (d: char)
    ensures 'A' <= c <= 'Z' ==> d as int == c as int + 32
    ensures !('A' <= c <= 'Z') ==> d == c
    ensures !('A' <= d <= 'Z')
  {
    if 'A' <= c <= 'Z' then (c as int + 32) as char else c
  }

  function UpperChar(c: char): (d: char)
    ensures 'a' <= c <= 'z' ==> d as int == c as int - 32
    ensures !('a' <= c <= 'z') ==> d == c
    ensures !('a' <= d <= 'z')
  {
    if 'a' <= c <= 'z' then (c as int - 32) as char else c
  }

  /** `strtolower` / `toLowerCase` restricted to ASCII letters. */
  function Lower(s: string): (r: string)
    ensures |r| == |s|
    ensures forall k :: 0 <= k < |s| ==> r[k] == LowerChar(s[k])
  {
    seq(|s|, k requires 0 <= k < |s| => LowerChar(s[k]))
  }

  /** `strtoupper` restricted to ASCII letters. */
  function Upper(s: string): (r: string)
    ensures |r| == |s|
    ensures forall k :: 0 <= k < |s| ==> r[k] == UpperChar(s[k])
  {
    seq(|s|, k requires 0 <= k < |s| => UpperChar(s[k]))
  }

  /** Lower-casing is idempotent and leaves no ASCII capital behind. */
  lemma LowerIdempotent(s: string)
    ensures Lower(Lower(s)) == Lower(s)
    ensures forall k :: 0 <= k < |s| ==> !('A' <= Lower(s)[k] <= 'Z')
  {
  }

  /** Upper-casing ignores an earlier lower-casing, so a direction accepted in
      lower case upper-cases to the matching keyword. */
  lemma UpperOfLower(s: string)
    ensures Upper(Lower(s)) == Upper(s)
  {
  }

  /** `needle` occurs in `hay` as a contiguous block (`String.includes`). */
  predicate Contains(hay: string, needle: string) {
    exists i | 0 <= i <= |hay| :: needle <= hay[i..]
  }

  /** The empty string occurs everywhere, so an empty search keeps every row. */
  lemma ContainsEmpty(hay: string)
    ensures Contains(hay, "")
  {
    assert "" <= hay[0..];
  }

  /** Every string occurs in itself. */
  lemma ContainsSelf(hay: string)
    ensures Contains(hay, hay)
  {
    assert hay <= hay[0..];
  }

  /** A needle longer than the haystack never occurs in it. */
  lemma ContainsNoLonger(hay: string, needle: string)
    requires Contains(hay, needle)
    ensures |needle| <= |hay|
  {
    var i :| 0 <= i <= |hay| && needle <= hay[i..];
  }

  /** Number of occurrences of `c` in `s`. */
  function Count(s: string, c: char): nat {
    if |s| == 0 then 0 else (if s[0] == c then 1 else 0) + Count(s[1..], c)
  }

  /** JavaScript `s.split(sep)` for a one-character separator: the pieces
      between separators, so there is always one more piece than separators. */
  function Split(s: string, sep: char): (parts: seq<string>)
    ensures |parts| == Count(s, sep) + 1
    ensures forall k :: 0 <= k < |parts| ==> sep !in parts[k]
  {
    if |s| == 0 then [""]
    else
      var rest := Split(s[1..], sep);
      if s[0] == sep then [""] + rest
      else [[s[0]] + rest[0]] + rest[1..]
  }

  /** `parts.join(sep)`. */
  function Join(parts: seq<string>, sep: char): string
    requires |parts| > 0
  {
    if |parts| == 1 then parts[0] else parts[0] + [sep] + Join(parts[1..], sep)
  }

  /** Splitting loses nothing: joining the pieces back gives the input. */
  lemma {:induction false} JoinSplit(s: string, sep: char)
    ensures Join(Split(s, sep), sep) == s
  {
    if |s| > 0 {
      var rest := Split(s[1..], sep);
      JoinSplit(s[1..], sep);
      if s[0] == sep {
        assert Split(s, sep) == [""] + rest;
        assert Join([""] + rest, sep) == "" + [sep] + Join(rest, sep);
        assert s == [s[0]] + s[1..];
      } else {
        var parts := Split(s, sep);
        assert parts == [[s[0]] + rest[0]] + rest[1..];
        if |rest| == 1 {
          assert Join(parts, sep) == [s[0]] + rest[0];
          assert s == [s[0]] + s[1..];
        } else {
          assert parts[1..] == rest[1..];
          assert Join(parts, sep) == [s[0]] + rest[0] + [sep] + Join(rest[1..], sep);
          assert Join(rest, sep) == rest[0] + [sep] + Join(rest[1..], sep);
          assert s == [s[0]] + s[1..];
        }
      }
    }
  }

  /** Splitting `x + [sep] + y` where `x` has no separator cuts exactly
      after `x`. */
  lemma {:induction false} SplitAfter(x: string, y: string, sep: char)
    requires sep !in x
    ensures Split(x + [sep] + y, sep) == [x] + Split(y, sep)
  {
    var s := x + [sep] + y;
    if |x| == 0 {
      assert s == [sep] + y;
      assert s[1..] == y;
    } else {
      assert s[1..] == x[1..] + [sep] + y;
      SplitAfter(x[1..], y, sep);
      assert x == [x[0]] + x[1..];
    }
  }

  /** A string without the separator is a single piece. */
  lemma {:induction false} SplitWhole(x: string, sep: char)
    requires sep !in x
    ensures Split(x, sep) == [x]
  {
    if |x| > 0 {
      SplitWhole(x[1..], sep);
      assert x == [x[0]] + x[1..];
    }
  }

  /** Joining pieces that hold no separator and splitting again gives the
      pieces back. */
  lemma {:induction false} SplitJoin(parts: seq<string>, sep: char)
    requires |parts| > 0
    requires forall k :: 0 <= k < |parts| ==> sep !in parts[k]
    ensures Split(Join(parts, sep), sep) == parts
  {
    if |parts| == 1 {
      SplitWhole(parts[0], sep);
    } else {
      SplitJoin(parts[1..], sep);
      SplitAfter(parts[0], Join(parts[1..], sep), sep);
      assert parts == [parts[0]] + parts[1..];
    }
  }
}

=== FILE: tables.dfy ===
/** The store behind every endpoint: a parent table keyed by `K` and a child
    table keyed by `J`, each child naming its parent through `owner`. This is
    the shape shared by resources/comments, assignments/comments,
    topics/replies and weeks/comments_week. */
module Tables {
  import opened Base

  datatype Tables<K, P, J, C> = Tables(parents: map<K, P>, children: map<J, C>)

  /** Referential integrity: every child points at an existing parent. */
  ghost predicate Integrity<K(!new), P, J(!new), C>(t: Tables<K, P, J, C>, owner: C -> K) {
    forall j :: j in t.children ==> owner(t.children[j]) in t.parents
  }

  /** The children of parent `k`. */
  function ChildrenOf<K(==), J(!new), C>(children: map<J, C>, owner: C -> K, k: K): (r: map<J, C>)
    ensures forall j :: j in r <==> j in children && owner(children[j]) == k
    ensures forall j :: j in r ==> r[j] == children[j]
  {
    map j | j in children && owner(children[j]) == k :: children[j]
  }

  /** `DELETE FROM <child> WHERE <owner> = k` */
  function DropChildren<K(==), J(!new), C>(children: map<J, C>, owner: C -> K, k: K): (r: map<J, C>)
    ensures forall j :: j in r <==> j in children && owner(children[j]) != k
    ensures forall j :: j in r ==> r[j] == children[j]
  {
    map j | j in children && owner(children[j]) != k :: children[j]
  }

  /** The complete cascade: parent `k` and every child of `k` are gone and
      every other row is exactly as it was. */
  function Cascade<K(==), P, J(!new), C>(t: Tables<K, P, J, C>, owner: C -> K, k: K): (r: Tables<K, P, J, C>)
    ensures k !in r.parents
    ensures r.parents.Keys == t.parents.Keys - {k}
    ensures forall x :: x in r.parents ==> r.parents[x] == t.parents[x]
    ensures forall j :: j in r.children ==> owner(r.children[j]) != k
    ensures forall j :: j in t.children && owner(t.children[j]) != k ==> j in r.children && r.children[j] == t.children[j]
    ensures r.children.Keys <= t.children.Keys
  {
    Tables(t.parents - {k}, DropChildren(t.children, owner, k))
  }

  /** The statements of a parent deletion that can fail. */
  datatype DeleteStep = ChildrenStep | ParentStep | CommitStep

  /** Child-then-parent deletion inside BEGIN ... COMMIT: a failure at any
      step rolls back to the snapshot taken at BEGIN. The first component
      reports whether the transaction committed. */
  function TransactionalDelete<K(==), P, J(!new), C>(t: Tables<K, P, J, C>, owner: C -> K, k: K, failAt: Option<DeleteStep>)
    : (r: (bool, Tables<K, P, J, C>))
    ensures r.0 <==> failAt.None?
    ensures r.0 ==> r.1 == Cascade(t, owner, k)
    ensures !r.0 ==> r.1 == t
  {
    var snapshot := t;
    var working := t.(children := DropChildren(t.children, owner, k));
    match failAt
    case Some(ChildrenStep) => (false, snapshot)
    case Some(_) => (false, snapshot)
    case None => (true, working.(parents := working.parents - {k}))
  }

  /** The injected failure hits one of the two statements of a sequential
      delete; there is no commit step to fail. */
  predicate HitsStatement(failAt: Option<DeleteStep>) {
    failAt == Some(ChildrenStep) || failAt == Some(ParentStep)
  }

  /** Child-then-parent deletion as two autocommitted statements: each
      statement is atomic on its own, there is no commit step, and a failure
      of the parent statement leaves the children already deleted. */
  function SequentialDelete<K(==), P, J(!new), C>(t: Tables<K, P, J, C>, owner: C -> K, k: K, failAt: Option<DeleteStep>)
    : (r: (bool, Tables<K, P, J, C>))
    ensures r.0 <==> failAt != Some(ChildrenStep) && failAt != Some(ParentStep)
    ensures r.0 ==> r.1 == Cascade(t, owner, k)
    ensures failAt == Some(ChildrenStep) ==> r.1 == t
    ensures failAt == Some(ParentStep) ==> r.1.parents == t.parents && r.1.children == DropChildren(t.children, owner, k)
  {
    if failAt == Some(ChildrenStep) then (false, t)
    else
      var afterChildren := t.(children := DropChildren(t.children, owner, k));
      if failAt == Some(ParentStep) then (false, afterChildren)
      else (true, afterChildren.(parents := afterChildren.parents - {k}))
  }

  /** Every outcome of the transactional delete is all-or-nothing. */
  lemma {:induction false} TransactionalDeleteIsAtomic<K, P, J(!new), C>(t: Tables<K, P, J, C>, owner: C -> K, k: K, failAt: Option<DeleteStep>)
    requires k in t.parents
    ensures var r := TransactionalDelete(t, owner, k, failAt);
      r.1 == t || (k !in r.1.parents && forall j :: j in r.1.children ==> owner(r.1.children[j]) != k)
  {
  }

  /** The sequential delete is not all-or-nothing: a parent with one child,
      whose parent statement fails, ends with the child gone and the parent
      still present. */
  lemma SequentialDeleteCanTear()
    ensures var t := Tables(map[1 := "week"], map[10 := 1]);
      var r := SequentialDelete(t, (c: int) => c, 1, Some(ParentStep));
      !r.0 && r.1 != t && r.1 != Cascade(t, (c: int) => c, 1)
  {
    var t := Tables(map[1 := "week"], map[10 := 1]);
    var r := SequentialDelete(t, (c: int) => c, 1, Some(ParentStep));
    assert 10 !in r.1.children;
    assert 1 in r.1.parents;
  }

  /** Cascading deletion never leaves an orphan behind. */
  lemma CascadeKeepsIntegrity<K(!new), P, J(!new), C>(t: Tables<K, P, J, C>, owner: C -> K, k: K)
    requires Integrity(t, owner)
    ensures Integrity(Cascade(t, owner, k), owner)
  {
  }

  /** Neither delete strategy ever leaves an orphan, whatever step fails. */
  lemma DeletesKeepIntegrity<K(!new), P, J(!new), C>(t: Tables<K, P, J, C>, owner: C -> K, k: K, failAt: Option<DeleteStep>)
    requires Integrity(t, owner)
    ensures Integrity(TransactionalDelete(t, owner, k, failAt).1, owner)
    ensures Integrity(SequentialDelete(t, owner, k, failAt).1, owner)
  {
    CascadeKeepsIntegrity(t, owner, k);
  }

  /** Inserting a child whose parent exists keeps integrity; this is why
      every child-creating handler looks the parent up first. */
  lemma AddChildKeepsIntegrity<K(!new), P, J(!new), C>(t: Tables<K, P, J, C>, owner: C -> K, j: J, c: C)
    requires Integrity(t, owner)
    requires owner(c) in t.parents
    ensures Integrity(t.(children := t.children[j := c]), owner)
  {
  }

  /** Inserting or rewriting a parent keeps integrity. */
  lemma PutParentKeepsIntegrity<K(!new), P, J(!new), C>(t: Tables<K, P, J, C>, owner: C -> K, k: K, p: P)
    requires Integrity(t, owner)
    ensures Integrity(t.(parents := t.parents[k := p]), owner)
  {
  }

  /** Deleting one child keeps integrity. */
  lemma DropChildKeepsIntegrity<K(!new), P, J(!new), C>(t: Tables<K, P, J, C>, owner: C -> K, j: J)
    requires Integrity(t, owner)
    ensures Integrity(t.(children := t.children - {j}), owner)
  {
  }
}

=== FILE: weekly.dfy ===
/** The weekly-breakdown endpoint: course weeks (title, start date,
    description, links) and the comments posted on them. Every error reply is
    `{success: false, error: message}`. */
module Weekly {
  import opened Base
  import opened Strings
  import opened Php
  import opened Dates
  import opened Listing
  import opened Tables
  import opened Http

  datatype Week = Week(
    title: string, startDate: string, description: string, links: seq<string>,
    createdAt: int, updatedAt: int)

  datatype Comment = Comment(weekId: int, author: string, text: string, createdAt: int)

  /** `weeks` and `comments_week`, keyed by their auto-increment ids. */
  type Db = Tables<int, Week, int, Comment>

  function WeekOf(c: Comment): int {
    c.weekId
  }

  datatype Payload =
    | WeekList(plan: Plan, rows: map<int, Week>)
    | OneWeek(id: int, week: Week)
    | WeekCreated(newWeekId: int, created: Week)
    | CommentList(comments: map<int, Comment>)
    | CommentCreated(newCommentId: int, comment: Comment)
    | Done

  type Reply = Outcome<Db, Payload>

  /** `sendError($message, $status)` */
  function SendError(db: Db, status: int): (r: Reply)
    ensures r.status == status && r.store == db && r.envelope == Failure("error")
  {
    Outcome(status, db, Failure("error"))
  }

  const SortColumns: seq<string> := ["title", "start_date", "created_at"]
  const Directions: seq<string> := ["asc", "desc"]

  /** The list query: the search term is trimmed and a clause is added only
      when the trimmed term is not `empty()`; a non-empty whitelisted sort
      column, defaulting to `start_date`; the order accepted in any case and
      emitted upper-cased, defaulting to `ASC`. */
  function ListPlan(q: Query): (p: Plan)
    ensures p.column in SortColumns
    ensures p.direction == "ASC" || p.direction == "DESC"
    ensures p.term.Some? <==> "search" in q && !EmptyString(Trim(q["search"]))
    ensures p.term.Some? ==> p.term.value == Trim(q["search"])
    ensures "sort" in q && q["sort"] in SortColumns ==> p.column == q["sort"]
    ensures !("sort" in q && q["sort"] in SortColumns) ==> p.column == "start_date"
    ensures "order" in q && Lower(q["order"]) == "desc" ==> p.direction == "DESC"
    ensures !("order" in q && Lower(q["order"]) == "desc") ==> p.direction == "ASC"
  {
    var search := if "search" in q then Some(Trim(q["search"])) else None;
    var sort := Param(q, "sort");
    var order := Param(q, "order").GetOr("asc");
    var column := if !Empty(sort) && OnList(sort.value, SortColumns) then sort.value else "start_date";
    var direction :=
      if !EmptyString(order) && OnList(Lower(order), Directions) then
        UpperOfLower(order);
        Upper(order)
      else "ASC";
    Plan(if Empty(search) then None else search, column, direction)
  }

  /** `isValidSortField` calls the loose `in_array`; on these whitelists it
      accepts exactly the identical entries, as the model's `OnList` does. */
  lemma WhitelistsAreStrict(v: string)
    ensures LooseOnList(v, SortColumns) <==> OnList(v, SortColumns)
    ensures LooseOnList(v, Directions) <==> OnList(v, Directions)
  {
    forall i | 0 <= i < |SortColumns|
      ensures !IsNumeric(SortColumns[i])
    {
      NotNumericFromStart(SortColumns[i]);
    }
    LooseOnListIsStrict(v, SortColumns);
    forall i | 0 <= i < |Directions|
      ensures !IsNumeric(Directions[i])
    {
      NotNumericFromStart(Directions[i]);
    }
    LooseOnListIsStrict(v, Directions);
  }

  function SearchFields(w: Week): seq<string> {
    [w.title, w.description]
  }

  /** `getAllWeeks` */
  function ListWeeks(db: Db, ctx: Ctx, q: Query): (r: Reply)
    ensures r.status == OK && r.store == db && r.envelope.Success?
    ensures r.envelope.data.WeekList? && r.envelope.data.plan == ListPlan(q)
    ensures var rows := r.envelope.data.rows;
      && rows.Keys <= db.parents.Keys
      && (forall k :: k in rows ==> rows[k] == db.parents[k])
      && (forall k :: k in db.parents ==>
            (k in rows <==> Matches(SearchFields(db.parents[k]), ListPlan(q).term, ctx.caseInsensitive)))
  {
    var plan := ListPlan(q);
    Outcome(OK, db, Success(WeekList(plan, Select(db.parents, SearchFields, plan.term, ctx.caseInsensitive))))
  }

  /** `getWeekById` */
  function GetWeek(db: Db, id: Option<string>): (r: Reply)
    ensures r.store == db
    ensures r.status in {OK, BAD_REQUEST, NOT_FOUND}
    ensures r.status == BAD_REQUEST <==> Empty(id)
    ensures r.status == OK <==> !Empty(id) && IntCast(id.value) in db.parents
    ensures r.status == OK ==> r.envelope == Success(OneWeek(IntCast(id.value), db.parents[IntCast(id.value)]))
  {
    if Empty(id) then SendError(db, BAD_REQUEST)
    else
      var k := IntCast(id.value);
      if k in db.parents then Outcome(OK, db, Success(OneWeek(k, db.parents[k])))
      else SendError(db, NOT_FOUND)
  }

  /** A created week can be fetched back by its printed id, unless the id is
      0, which `empty()` refuses. */
  lemma CreateThenGet(db: Db, ctx: Ctx, body: Body)
    requires ctx.nextId !in db.parents
    requires CreateWeek(db, ctx, body).status == CREATED
    ensures var got := GetWeek(CreateWeek(db, ctx, body).store, Some(Decimal(ctx.nextId)));
      && (got.status == OK <==> ctx.nextId != 0)
      && (got.status == OK ==> got.envelope == Success(OneWeek(ctx.nextId, Week(
            Sanitize(ctx.foreign, body["title"].s), body["start_date"].s,
            Sanitize(ctx.foreign, body["description"].s), LinksOf(body), ctx.now, ctx.now))))
  {
    IntCastDecimal(ctx.nextId);
    DecimalEmptyOnlyZero(ctx.nextId);
  }

  /** The submitted `links` if they are an array, otherwise none. */
  function LinksOf(body: Body): seq<string> {
    if "links" in body && body["links"].List? then body["links"].items else []
  }

  /** `createWeek`: title, start date and description must not be `empty()`,
      and the start date, exactly as sent, must be a real `Y-m-d` date. */
  function CreateWeek(db: Db, ctx: Ctx, body: Body): (r: Reply)
    requires ctx.nextId !in db.parents
    ensures r.status in {CREATED, BAD_REQUEST, SERVER_ERROR}
    ensures r.status != CREATED ==> r.store == db
    ensures r.status == BAD_REQUEST <==>
      || Empty(Field(body, "title")) || Empty(Field(body, "start_date")) || Empty(Field(body, "description"))
      || !ValidDate(body["start_date"].s)
    ensures r.status == SERVER_ERROR <==> r.status != BAD_REQUEST && ctx.failAt == Some(InsertStmt)
    ensures r.status == CREATED ==>
      var w := Week(Sanitize(ctx.foreign, body["title"].s), body["start_date"].s,
                    Sanitize(ctx.foreign, body["description"].s), LinksOf(body), ctx.now, ctx.now);
      && r.envelope == Success(WeekCreated(ctx.nextId, w))
      && r.store == db.(parents := db.parents[ctx.nextId := w])
      && ValidDate(w.startDate)
  {
    var title := Field(body, "title");
    var startDate := Field(body, "start_date");
    var description := Field(body, "description");
    if Empty(title) || Empty(startDate) || Empty(description) then SendError(db, BAD_REQUEST)
    else if !ValidDate(startDate.value) then SendError(db, BAD_REQUEST)
    else if ctx.failAt == Some(InsertStmt) then SendError(db, SERVER_ERROR)
    else
      var f := ctx.foreign;
      var w := Week(Sanitize(f, title.value), startDate.value, Sanitize(f, description.value), LinksOf(body), ctx.now, ctx.now);
      Outcome(CREATED, db.(parents := db.parents[ctx.nextId := w]), Success(WeekCreated(ctx.nextId, w)))
  }

  /** The links an update writes: only an array counts as a supplied field. */
  predicate LinksGiven(body: Body) {
    "links" in body && body["links"].List?
  }

  /** No field of the update is supplied. */
  predicate NothingToSet(body: Body) {
    Field(body, "title").None? && Field(body, "start_date").None? && Field(body, "description").None?
    && !LinksGiven(body)
  }

  /** The week an update asks for: each supplied field replaced (title and
      description sanitized), `updated_at` set to the clock. */
  function Revised(ctx: Ctx, w: Week, body: Body): Week {
    var title := Field(body, "title");
    var startDate := Field(body, "start_date");
    var description := Field(body, "description");
    w.(
      title := if title.Some? then Sanitize(ctx.foreign, title.value) else w.title,
      startDate := if startDate.Some? then startDate.value else w.startDate,
      description := if description.Some? then Sanitize(ctx.foreign, description.value) else w.description,
      links := if LinksGiven(body) then body["links"].items else w.links,
      updatedAt := ctx.now)
  }

  /** `updateWeek` */
  function UpdateWeek(db: Db, ctx: Ctx, body: Body): (r: Reply)
    ensures r.status in {OK, BAD_REQUEST, NOT_FOUND, SERVER_ERROR}
    ensures r.status != OK ==> r.store == db
    ensures r.status == NOT_FOUND <==> !Empty(Field(body, "id")) && IntCast(body["id"].s) !in db.parents
    ensures r.status == BAD_REQUEST <==>
      || Empty(Field(body, "id"))
      || (IntCast(body["id"].s) in db.parents
          && ((Field(body, "start_date").Some? && !ValidDate(body["start_date"].s)) || NothingToSet(body)))
    ensures r.status == SERVER_ERROR <==>
      && !Empty(Field(body, "id")) && IntCast(body["id"].s) in db.parents
      && !(Field(body, "start_date").Some? && !ValidDate(body["start_date"].s)) && !NothingToSet(body)
      && ctx.failAt == Some(UpdateStmt)
    ensures r.status == OK ==>
      var k := IntCast(body["id"].s);
      && r.envelope.Success?
      && r.store == db.(parents := db.parents[k := Revised(ctx, db.parents[k], body)])
      && r.store.parents[k].updatedAt == ctx.now
      && r.store.parents[k].createdAt == db.parents[k].createdAt
  {
    var id := Field(body, "id");
    if Empty(id) then SendError(db, BAD_REQUEST)
    else
      var k := IntCast(id.value);
      if k !in db.parents then SendError(db, NOT_FOUND)
      else
        var startDate := Field(body, "start_date");
        if startDate.Some? && !ValidDate(startDate.value) then SendError(db, BAD_REQUEST)
        else if NothingToSet(body) then SendError(db, BAD_REQUEST)
        else if ctx.failAt == Some(UpdateStmt) then SendError(db, SERVER_ERROR)
        else Outcome(OK, db.(parents := db.parents[k := Revised(ctx, db.parents[k], body)]), Success(Done))
  }

  /** `deleteWeek`: comments, then the week, as two separate statements. */
  function DeleteWeek(db: Db, ctx: Ctx, id: Option<string>): (r: Reply)
    ensures r.status in {OK, BAD_REQUEST, NOT_FOUND, SERVER_ERROR}
    ensures r.status == BAD_REQUEST <==> Empty(id)
    ensures r.status == NOT_FOUND <==> !Empty(id) && IntCast(id.value) !in db.parents
    ensures r.status == SERVER_ERROR <==> !Empty(id) && IntCast(id.value) in db.parents && HitsStatement(DeleteFault(ctx))
    ensures r.status == OK ==> r.store == Cascade(db, WeekOf, IntCast(id.value))
    ensures r.status != OK ==> r.store.parents == db.parents
    ensures r.status != OK ==>
      r.store == db || (id.Some? && r.store.children == DropChildren(db.children, WeekOf, IntCast(id.value)))
  {
    if Empty(id) then SendError(db, BAD_REQUEST)
    else
      var k := IntCast(id.value);
      if k !in db.parents then SendError(db, NOT_FOUND)
      else
        var (done, after) := SequentialDelete(db, WeekOf, k, DeleteFault(ctx));
        if done then Outcome(OK, after, Success(Done)) else SendError(after, SERVER_ERROR)
  }

  /** `getCommentsByWeek` */
  function ListComments(db: Db, id: Option<string>): (r: Reply)
    ensures r.store == db
    ensures r.status in {OK, BAD_REQUEST}
    ensures r.status == BAD_REQUEST <==> Empty(id)
    ensures r.status == OK ==> r.envelope.Success? && r.envelope.data.CommentList?
    ensures r.status == OK ==> var rows := r.envelope.data.comments;
      forall j :: (j in rows <==> j in db.children && db.children[j].weekId == IntCast(id.value))
  {
    if Empty(id) then SendError(db, BAD_REQUEST)
    else Outcome(OK, db, Success(CommentList(ChildrenOf(db.children, WeekOf, IntCast(id.value)))))
  }

  /** `createComment`: the three fields must not be `empty()`, the sanitized
      text must still not be `empty()`, and the week must exist. */
  function CreateComment(db: Db, ctx: Ctx, body: Body): (r: Reply)
    requires ctx.nextId !in db.children
    ensures r.status in {CREATED, BAD_REQUEST, NOT_FOUND, SERVER_ERROR}
    ensures r.status != CREATED ==> r.store == db
    ensures r.status == BAD_REQUEST <==>
      || Empty(Field(body, "week_id")) || Empty(Field(body, "author")) || Empty(Field(body, "text"))
      || EmptyString(Sanitize(ctx.foreign, body["text"].s))
    ensures r.status == NOT_FOUND <==>
      r.status != BAD_REQUEST && IntCast(Sanitize(ctx.foreign, body["week_id"].s)) !in db.parents
    ensures r.status == SERVER_ERROR <==>
      && r.status != BAD_REQUEST && IntCast(Sanitize(ctx.foreign, body["week_id"].s)) in db.parents
      && ctx.failAt == Some(InsertStmt)
    ensures r.status == CREATED ==>
      var f := ctx.foreign;
      var c := Comment(IntCast(Sanitize(f, body["week_id"].s)), Sanitize(f, body["author"].s), Sanitize(f, body["text"].s), ctx.now);
      && r.envelope == Success(CommentCreated(ctx.nextId, c))
      && r.store == db.(children := db.children[ctx.nextId := c])
      && c.weekId in db.parents && !EmptyString(c.text)
  {
    var weekId := Field(body, "week_id");
    var author := Field(body, "author");
    var text := Field(body, "text");
    if Empty(weekId) || Empty(author) || Empty(text) then SendError(db, BAD_REQUEST)
    else
      var f := ctx.foreign;
      var cleanText := Sanitize(f, text.value);
      if EmptyString(cleanText) then SendError(db, BAD_REQUEST)
      else
        var k := IntCast(Sanitize(f, weekId.value));
        if k !in db.parents then SendError(db, NOT_FOUND)
        else if ctx.failAt == Some(InsertStmt) then SendError(db, SERVER_ERROR)
        else
          var c := Comment(k, Sanitize(f, author.value), cleanText, ctx.now);
          Outcome(CREATED, db.(children := db.children[ctx.nextId := c]), Success(CommentCreated(ctx.nextId, c)))
  }

  /** `deleteComment` */
  function DeleteComment(db: Db, ctx: Ctx, id: Option<string>): (r: Reply)
    ensures r.status in {OK, BAD_REQUEST, NOT_FOUND, SERVER_ERROR}
    ensures r.status != OK ==> r.store == db
    ensures r.status == BAD_REQUEST <==> Empty(id)
    ensures r.status == NOT_FOUND <==> !Empty(id) && IntCast(id.value) !in db.children
    ensures r.status == SERVER_ERROR <==> !Empty(id) && IntCast(id.value) in db.children && ctx.failAt == Some(DeleteRowStmt)
    ensures r.status == OK ==> r.store == db.(children := db.children - {IntCast(id.value)})
  {
    if Empty(id) then SendError(db, BAD_REQUEST)
    else
      var j := IntCast(id.value);
      if j !in db.children then SendError(db, NOT_FOUND)
      else if ctx.failAt == Some(DeleteRowStmt) then SendError(db, SERVER_ERROR)
      else Outcome(OK, db.(children := db.children - {j}), Success(Done))
  }

  /** The resource a request addresses: an `empty()` one means `weeks`. */
  function ResourceOf(q: Query): (r: string)
    ensures Empty(Param(q, "resource")) ==> r == "weeks"
    ensures !Empty(Param(q, "resource")) ==> r == q["resource"]
  {
    if Empty(Param(q, "resource")) then "weeks" else q["resource"]
  }

  /** The router. The method is upper-cased before dispatch; the comments of
      a week are listed by the `id` parameter, which is what the router
      passes, although the handler's documentation names `week_id`. */
  function Route(db: Db, ctx: Ctx, req: Request): (r: Reply)
    requires ctx.nextId !in db.parents && ctx.nextId !in db.children
    ensures req.verb == "OPTIONS" ==> r.status == OK && r.store == db
    ensures req.verb != "OPTIONS" && ResourceOf(req.query) != "weeks" && ResourceOf(req.query) != "comments" ==>
      r.status == BAD_REQUEST && r.store == db
    ensures req.verb != "OPTIONS" && ResourceOf(req.query) == "comments" && Upper(req.verb) == "PUT" ==>
      r.status == METHOD_NOT_ALLOWED && r.store == db
    ensures (req.verb != "OPTIONS" && !KnownMethod(Upper(req.verb))
             && (ResourceOf(req.query) == "weeks" || ResourceOf(req.query) == "comments"))
            ==> r.status == METHOD_NOT_ALLOWED
    ensures r.status >= 400 ==> r.envelope == Failure("error")
    ensures Upper(req.verb) == "GET" ==> r.store == db
    ensures Integrity(db, WeekOf) ==> Integrity(r.store, WeekOf)
  {
    var q := req.query;
    var verb := Upper(req.verb);
    var resource := ResourceOf(q);
    if req.verb == "OPTIONS" then Outcome(OK, db, Success(Done))
    else if resource == "weeks" then RouteWeeks(db, ctx, req)
    else if resource == "comments" then RouteComments(db, ctx, req)
    else SendError(db, BAD_REQUEST)
  }

  /** Requests on `resource=weeks`, by upper-cased method. */
  function RouteWeeks(db: Db, ctx: Ctx, req: Request): (r: Reply)
    requires ctx.nextId !in db.parents
    ensures r.status == METHOD_NOT_ALLOWED <==> !KnownMethod(Upper(req.verb))
    ensures r.status >= 400 ==> r.envelope == Failure("error")
    ensures Upper(req.verb) == "GET" ==> r.store == db
    ensures Integrity(db, WeekOf) ==> Integrity(r.store, WeekOf)
  {
    var q := req.query;
    var verb := Upper(req.verb);
    if verb == "GET" then
      if "id" in q then GetWeek(db, Some(q["id"])) else ListWeeks(db, ctx, q)
    else if verb == "POST" then CreateWeek(db, ctx, req.body)
    else if verb == "PUT" then UpdateWeek(db, ctx, req.body)
    else if verb == "DELETE" then DeleteWeek(db, ctx, Param(q, "id"))
    else SendError(db, METHOD_NOT_ALLOWED)
  }

  /** Requests on `resource=comments`: there is no update. */
  function RouteComments(db: Db, ctx: Ctx, req: Request): (r: Reply)
    requires ctx.nextId !in db.children
    ensures r.status == METHOD_NOT_ALLOWED <==> !KnownMethod(Upper(req.verb)) || Upper(req.verb) == "PUT"
    ensures r.status == METHOD_NOT_ALLOWED ==> r.store == db
    ensures r.status >= 400 ==> r.envelope == Failure("error")
    ensures Upper(req.verb) == "GET" ==> r.store == db
    ensures Integrity(db, WeekOf) ==> Integrity(r.store, WeekOf)
  {
    var q := req.query;
    var verb := Upper(req.verb);
    if verb == "GET" then ListComments(db, Param(q, "id"))
    else if verb == "POST" then CreateComment(db, ctx, req.body)
    else if verb == "DELETE" then DeleteComment(db, ctx, Param(q, "id"))
    else SendError(db, METHOD_NOT_ALLOWED)
  }
}

=== FILE: weeklyadmin.dfy ===
/** The in-page week editor: parsing the links textarea, adding a week and
    deleting one from the in-memory list. */
module WeeklyAdmin {
  import opened Strings
  import opened Seqs
  import opened Php

  datatype Week = Week(id: string, title: string, startDate: string, description: string, links: seq<string>)

  predicate NonEmpty(s: string) {
    s != ""
  }

  /** The textarea's lines, each trimmed. */
  function TrimmedLines(text: string): (lines: seq<string>)
    ensures |lines| == Count(text, '\n') + 1
    ensures forall k :: 0 <= k < |lines| ==> lines[k] == JsTrim(Split(text, '\n')[k])
  {
    var parts := Split(text, '\n');
    seq(|parts|, k requires 0 <= k < |parts| => JsTrim(parts[k]))
  }

  /** One link per line of the textarea, trimmed, with blank lines dropped. */
  function ParseLinks(text: string): (links: seq<string>)
    ensures |links| <= Count(text, '\n') + 1
    ensures forall k :: 0 <= k < |links| ==> links[k] != ""
    ensures forall x :: x in links <==> x != "" && exists k :: 0 <= k < |Split(text, '\n')| && x == JsTrim(Split(text, '\n')[k])
    ensures Subsequence(links, TrimmedLines(text))
  {
    FilterIsSubsequence(TrimmedLines(text), NonEmpty);
    Filter(TrimmedLines(text), NonEmpty)
  }

  /** No parsed link starts or ends with whitespace. */
  lemma LinksAreTrimmed(text: string)
    ensures forall k :: 0 <= k < |ParseLinks(text)| ==> JsTrim(ParseLinks(text)[k]) == ParseLinks(text)[k]
  {
    var links := ParseLinks(text);
    var parts := Split(text, '\n');
    forall k | 0 <= k < |links|
      ensures JsTrim(links[k]) == links[k]
    {
      assert links[k] in links;
      var j :| 0 <= j < |parts| && links[k] == JsTrim(parts[j]);
      TrimByIdempotent(parts[j], IsJsSpace);
    }
  }

  /** Writing links one per line and parsing the text gives them back, as long
      as each is non-empty, already trimmed and a single line. */
  lemma {:induction false} ParseJoinedLinks(links: seq<string>)
    requires |links| > 0
    requires forall k :: 0 <= k < |links| ==> links[k] != "" && '\n' !in links[k] && JsTrim(links[k]) == links[k]
    ensures ParseLinks(Join(links, '\n')) == links
  {
    SplitJoin(links, '\n');
    var lines := TrimmedLines(Join(links, '\n'));
    assert lines == links;
    FilterKeepsAll(links, NonEmpty);
  }

  /** An empty textarea, which is also what an empty list of links joins
      to, parses to no links. */
  lemma EmptyTextNoLinks()
    ensures ParseLinks("") == []
  {
    assert Split("", '\n') == [""];
    assert TrimmedLines("") == [""];
  }

  /** `handleAddWeek`: the new week goes at the end, with an id built from the
      clock and no validation of the other fields. */
  function AddWeek(weeks: seq<Week>, title: string, startDate: string, description: string,
                   linksText: string, now: nat): (r: seq<Week>)
    ensures |r| == |weeks| + 1
    ensures r[..|weeks|] == weeks
    ensures r[|weeks|].id == "week_" + Decimal(now)
    ensures r[|weeks|].links == ParseLinks(linksText)
    ensures r[|weeks|].title == title && r[|weeks|].startDate == startDate && r[|weeks|].description == description
  {
    weeks + [Week("week_" + Decimal(now), title, startDate, description, ParseLinks(linksText))]
  }

  function Keep(id: string): Week -> bool {
    (w: Week) => w.id != id
  }

  /** `handleTableClick`: drops every week whose id is the button's
      `data-id`. */
  function DeleteWeek(weeks: seq<Week>, id: string): (r: seq<Week>)
    ensures forall w :: w in r <==> w in weeks && w.id != id
    ensures Subsequence(r, weeks)
    ensures |r| <= |weeks|
  {
    FilterIsSubsequence(weeks, Keep(id));
    Filter(weeks, Keep(id))
  }

  /** Deleting a week just added, whose id was not in use, restores the list. */
  lemma AddThenDelete(weeks: seq<Week>, title: string, startDate: string, description: string,
                      linksText: string, now: nat)
    requires forall k :: 0 <= k < |weeks| ==> weeks[k].id != "week_" + Decimal(now)
    ensures DeleteWeek(AddWeek(weeks, title, startDate, description, linksText, now), "week_" + Decimal(now)) == weeks
  {
    var id := "week_" + Decimal(now);
    var added := Week(id, title, startDate, description, ParseLinks(linksText));
    FilterAppend(weeks, [added], Keep(id));
    FilterKeepsAll(weeks, Keep(id));
    assert Filter([added], Keep(id)) == [];
  }

  /** A second click on the same button changes nothing. */
  lemma DeleteIdempotent(weeks: seq<Week>, id: string)
    ensures DeleteWeek(DeleteWeek(weeks, id), id) == DeleteWeek(weeks, id)
  {
    FilterIdempotent(weeks, Keep(id));
  }
}
